=== FILE: README.md ===
# falling_stuff — a Dafny model of the falling-sand core

falling_stuff is a falling-sand cellular automaton. Each cell holds a particle
(empty, sand, water, wood or fire). Each tick, every particle is updated once:
sand falls and slides, water falls and spreads sideways, and fire burns down and
lights neighbouring wood. Dirty rectangles and per-block dirty masks track which
parts of the world need updating or redrawing. A partitioner cuts the grid into
regions whose boundaries shift every tick. A four-group scheduler then updates
regions of equal parity in parallel, because such regions are never neighbours.

This project models that core as pure functions and sequential methods over
immutable datatypes, one module per source component:

| file | module | source |
|---|---|---|
| rect.dfy | `DirtyRect` | rect.hpp, the inclusive `Rect<int>` |
| intrect.dfy | `IntRect` | util.cpp, the int `Rect` of the flat-grid revision |
| grid.dfy | `Grids` | grid.hpp, the flat row-major `Grid<T>` |
| materials.dfy | `Materials` | the `ParticleType` enumeration |
| particle.dfy | `PackedParticle` | particle.hpp, the one-byte particle |
| partitioner.dfy | `Partitioning` | partitioner.cpp, the shifting region boundaries |
| dirtyblocks.dfy | `DirtyBlocks` | partitioner.hpp/.cpp, the 16-bit per-region block masks |
| world.dfy | `BlockWorld` | world.hpp, chunks, blocks and `enumerate_blocks` |
| oldworld.dfy | `SingleGridWorld` | world.cpp, the single-grid world and its sand rule |
| simstate.dfy | `SimState` | simulation.hpp, the particle and chunk-flag buffers |
| simphysics.dfy | `SimPhysics` | simulation.cpp, the sand, water, fire and spawn rules |
| simsweep.dfy | `RegionSweep` | simulation.cpp, `update_region`, and conservation of sand and water |
| simtick.dfy | `SimulationTick` | simulation.cpp, construction and `update()` |
| scheduler.dfy | `UpdateScheduling` | updatescheduler.cpp, the four group queues |
| avgtracker.dfy | `AverageTracker` | avgtracker.hpp, the moving average |
| xorshift.dfy | `XorShift128Plus` | xorshift.cpp, the xorshift128+ generator |
| arith.dfy | `Arith` | C++ truncating division |

The main results are these:
- A tick visits every region of the shifted partition exactly once.
- Regions in one pass are never adjacent.
- Each region scan clears its flags and visits every cell once, in scan order.
- Every particle rule keeps the multiset of sand and water cells.
- Shifting the dirty-block masks preserves every block's bits.
- The dirty-rectangle operations are least upper bounds and intersections.
- The bit-packed particle round-trips.
- xorshift128+ loses no information in one step.

Randomness enters only as parameters. These are the partitioner offsets, the
fire-spread draw and the spawn lifetimes.

## Model

| member | source | states |
|---|---|---|
| DirtyRect.IncludeRect | rect.hpp:38-43 | the result encloses both boxes, and every box that encloses both also encloses it: it is their least upper bound |
| DirtyRect.IncludePoint | rect.hpp:26-36 | the result contains the point and encloses the old box, and it is the smallest box that does so |
| DirtyRect.Include | rect.hpp:25-36 | the result encloses the old box and the point; with neighbours it also covers all eight cells around the point |
| DirtyRect.Intersection | rect.hpp:55-63 | a cell is in the result exactly when it is in both operands; two non-empty intersecting operands give a non-empty result |
| DirtyRect.Reset | rect.hpp:65-72 | the reset box is empty and contains no cell; including any 32-bit point into it yields exactly that point's box |
| DirtyRect.EmptyIffNoPoint | rect.hpp:74-76 | `is_empty` holds exactly when no cell is contained |
| DirtyRect.IntersectsIffCommonPoint | rect.hpp:50-53 | for non-empty boxes, `intersects` holds exactly when some cell lies in both |
| DirtyRect.IntersectsSymmetric | rect.hpp:50-53 | `intersects` does not depend on the order of its operands |
| DirtyRect.AreaCountsCells | rect.hpp:84-91 | a non-empty box covers exactly `area()` cells |
| DirtyRect.Area | rect.hpp:88-91 | a non-empty box has a positive area; the cell count is in `DirtyRect.AreaCountsCells` |
| DirtyRect.SharedAreaCountsCommonCells | rect.hpp:93-97 | for two non-empty boxes, `shared_area` is the number of cells they have in common |
| DirtyRect.SharedArea | rect.hpp:93-97 | disjoint boxes share area 0, and two non-empty boxes share a positive area exactly when they intersect; the cell count is in `DirtyRect.SharedAreaCountsCommonCells` |
| DirtyRect.SharedAreaOfEmptyOperand | rect.hpp:93-97 | with an empty box as an operand, `shared_area` can be negative, or positive, although no cell is shared |
| DirtyRect.ResetThenIncludeIsPoint | rect.hpp:65-72 | after `reset`, including a point covers that single cell and nothing else |
| DirtyRect.CellsMeansContains | rect.hpp:45-48 | the cell set of a box is exactly the set of points `contains` accepts |
| IntRect.Default | util.cpp:4-5 | the default rectangle is non-empty and covers only (0, 0) |
| IntRect.ResetTo | util.cpp:42-47 | `reset(w, h)` covers exactly the cells of the w x h area |
| IntRect.IncludeRadius | util.cpp:14-19 | the result keeps the old cells and, for a non-negative radius, covers every cell within that Chebyshev distance of the point |
| IntRect.ExtendBy | util.cpp:28-33 | each side moves by d, so width and height grow by 2d; for d >= 0 the old box is enclosed |
| IntRect.ExtendByRoundTrip | util.cpp:28-33 | extending by d and then by -d gives back the original box |
| IntRect.Fit | util.cpp:35-40 | a cell is in the fitted box exactly when it is in the box and in the w x h area |
| IntRect.FitIdempotent | util.cpp:35-40 | fitting twice to the same area is the same as fitting once |
| IntRect.FitIsIntersectionWithArea | util.cpp:35-47 | `fit(w, h)` equals intersection with the `reset(w, h)` box |
| IntRect.Clear | util.cpp:49-54 | `clear(w, h)` is empty exactly when w or h is at least one; for w, h <= 0 it still holds the cell (-1, -1) |
| IntRect.Intersection | util.cpp:70-77 | the unchecked intersection holds exactly the common cells, is empty for disjoint operands, and agrees with the checked one otherwise |
| Grids.Index | grid.hpp:37-40 | an in-bounds index lies inside the flat storage |
| Grids.IndexInjective | grid.hpp:37-40 | two coordinates share a slot exactly when they are equal |
| Grids.New | grid.hpp:10-12 | a new grid has the given shape, and every cell holds the fill value |
| Grids.Set | grid.hpp:26-27 | a write changes the named cell and no other |
| Grids.Swap | grid.hpp:29-31 | a swap exchanges the two cells and leaves every other cell alone |
| Grids.SwapTwiceIsIdentity | grid.hpp:29-31 | swapping the same pair twice restores the grid |
| Grids.SwapKeepsBag | grid.hpp:29-31 | a swap permutes the cells, so every multiset of cell images is kept |
| Materials.Code | particle.hpp:6-12 | the codes are None = 0, Sand = 1, Water = 2, Wood = 3 and Fire = 4, so distinct materials have distinct codes |
| PackedParticle.SetUpdated | particle.hpp:65-71 | the flag becomes the requested value; type and payload are untouched |
| PackedParticle.Default | particle.hpp:52-53 | the default particle is None and not updated |
| PackedParticle.Create | particle.hpp:87-114 | `create<T>` gives material T, a clear flag, and T's default payload |
| PackedParticle.PackRoundTrip | particle.hpp:48-75 | packing a 7-bit type code and a flag reads both back unchanged |
| PackedParticle.PackAnyCode | particle.hpp:48-75 | for any byte, the type reads back without bit 7, and a set bit 7 reads as the updated flag |
| PackedParticle.UnpackRoundTrip | particle.hpp:48-75 | re-packing a particle's type and flag reproduces its byte |
| PackedParticle.IsExclusive | particle.hpp:58-61 | a particle is of at most one material |
| Partitioning.Bounds | partitioner.cpp:20-22 | one loop of `shift` yields 0, then start, start + step and so on, below the limit, and then the limit |
| Partitioning.Shift | partitioner.cpp:14-27 | `shift` recomputes both boundary lists from the block offsets and keeps every size field |
| Partitioning.New | partitioner.cpp:4-12 | the constructor stores the sizes and shifts by (4, 4) |
| Partitioning.ShiftedBoundsIncrease | partitioner.cpp:14-27 | with a positive offset, the boundaries rise strictly from 0 to the extent |
| Partitioning.RegionsTile | partitioner.cpp:14-27 | every column lies in exactly one region |
| Partitioning.RegionCount | partitioner.cpp:14-27 | an extent of n whole chunks gives at most n + 1 regions |
| DirtyBlocks.LocateInjective | partitioner.hpp:44-47 | two distinct blocks never share a region and bit |
| DirtyBlocks.Unlocate | partitioner.hpp:44-47 | the block a region's bit stands for locates back to that region and bit |
| DirtyBlocks.New | partitioner.cpp:38-43 | the constructor allocates (W+1) x (H+1) zeroed regions in both grids, with offsets (4, 4) |
| DirtyBlocks.BlockAddressInRange | partitioner.hpp:42-67 | every block of the chunk area addresses a region inside the grid and a bit in 0..15 |
| DirtyBlocks.TestBothIsConjunction | partitioner.hpp:54-67 | `test_block<QBOTH>` is the conjunction of the update and redraw tests |
| DirtyBlocks.TestBlock | partitioner.hpp:54-67 | `test_block<Q>` holds when every selected mask has the block's bit; its contract is stated by `DirtyBlocks.TestBothIsConjunction` and `DirtyBlocks.MarkBlockSpec` |
| DirtyBlocks.MarkBlockSpec | partitioner.hpp:42-52 | after `mark_block<Q>` the block tests true for Q; the other mask and all other blocks are unchanged |
| DirtyBlocks.MarkBlock | partitioner.hpp:42-52 | `mark_block<Q>` keeps the grids valid and the offsets and the other grid unchanged; what it sets is stated by `DirtyBlocks.MarkBlockSpec` |
| DirtyBlocks.StoreBlockFrame | partitioner.cpp:54-59 | storing a block sets exactly its requested bits and no other block's bits |
| DirtyBlocks.ResetRegion | partitioner.hpp:69-76 | `reset_region<Q>` zeroes the selected masks of that region and keeps everything else |
| DirtyBlocks.TestRegionIffSomeBlock | partitioner.hpp:78-87 | a region tests dirty exactly when one of its sixteen blocks is marked |
| DirtyBlocks.TestRegion | partitioner.hpp:78-87 | `test_region<Q>` holds when every selected mask of the region is non-zero; its meaning is stated by `DirtyBlocks.TestRegionIffSomeBlock` |
| DirtyBlocks.ResetThenTestRegion | partitioner.hpp:69-87 | after `reset_region<Q>`, `test_region<Q>` is false |
| DirtyBlocks.NewShift | partitioner.cpp:46-65 | `new_shift` swaps the grids, takes the new offsets, re-bins every block's bits unchanged, and every other bit of the new grid is zero |
| DirtyBlocks.NewShiftPreservesTests | partitioner.cpp:46-65 | every query on every block answers the same before and after `new_shift` |
| BlockWorld.ChunkBounds | world.hpp:35-42 | a chunk's bounds are a non-empty 64 x 64 box |
| BlockWorld.ChunkBoundsContains | world.hpp:35-42 | for non-negative cells, a chunk's box holds a cell exactly when the cell divides down to that chunk |
| BlockWorld.ChunkBoundsDisjoint | world.hpp:35-42 | the boxes of distinct chunks never intersect |
| BlockWorld.BlockHoldsEightChunks | world.hpp:25-27 | a block is eight chunks across, and eight chunk widths make one block width |
| BlockWorld.DirtyIffSomeCell | world.hpp:14-14 | a chunk is dirty exactly when its current dirty box covers a cell |
| BlockWorld.EnumerateBlocks | world.hpp:68-80 | `f` is called once for each occupied slot, with its coordinates and block, in row-major order |
| BlockWorld.EnumerateRow | world.hpp:72-78 | one row's calls are the occupied slots of that row, left to right |
| SingleGridWorld.Half | world.cpp:137-138 | `/= 2` halves toward zero |
| SingleGridWorld.SandDestSpec | world.cpp:118-134 | sand stays put exactly when none of the three cells below can be entered; otherwise it goes to one of them |
| SingleGridWorld.SandDestAsWrittenSkipsWater | world.cpp:129-130 | a concrete grid where the rule as written keeps sand above water that the intended rule lets it sink into |
| SingleGridWorld.SandDestsAgreeOffWater | world.cpp:125-133 | the written and intended rules agree unless the cell below-right holds water |
| SingleGridWorld.ApplyMoveSpec | world.cpp:135-138 | a move exchanges origin and destination and nothing else |
| SingleGridWorld.UpdateSandSpec | world.cpp:118-139 | `update_sand` changes only the origin and an enterable destination below it, and keeps the multiset of materials |
| SingleGridWorld.UpdateSand | world.cpp:118-139 | the corrected `update_sand` keeps the grid valid and its shape; the frame and conservation are in `SingleGridWorld.UpdateSandSpec` |
| SingleGridWorld.UpdateSandAsWrittenSpec | world.cpp:118-139 | `update_sand` as written keeps the same frame and multiset of materials, and moves down-right only into an empty cell |
| SingleGridWorld.UpdateSandAsWritten | world.cpp:118-139 | `update_sand` as written keeps the grid valid and its shape; its behaviour is in `SingleGridWorld.UpdateSandAsWrittenSpec` |
| SingleGridWorld.UpdateSandsAgreeOffWater | world.cpp:121-138 | the written and the corrected `update_sand` give the same grid unless the cell below-right holds water |
| SingleGridWorld.UpdateParticleSpec | world.cpp:10-32 | an updated cell is skipped; otherwise the flag is set and only sand moves |
| SingleGridWorld.UpdateParticle | world.cpp:10-32 | `update_particle` keeps the grid valid and its shape; its dispatch is in `SingleGridWorld.UpdateParticleSpec` |
| SingleGridWorld.ClearFlags | world.cpp:35-37 | every flag is cleared, and every other field is kept |
| SingleGridWorld.Update | world.cpp:34-54 | after clearing the flags, the tick visits every cell once in scan order, then reverses direction |
| SingleGridWorld.ScanOrder | world.cpp:39-51 | the scan covers exactly the grid, bottom row first, in the tick's direction |
| SingleGridWorld.ScanVisitsOnce | world.cpp:39-51 | no cell appears twice in a scan order |
| SimState.DefaultParticle | simulation.hpp:23-28 | a value-initialised particle is empty, not updated, at rest, with no lifetime |
| SimState.DefaultFlags | simulation.hpp:30-33 | a new chunk needs both an update and a redraw |
| SimState.NewFlagBuffers | simulation.hpp:39-41 | both buffers have the requested shape and hold default flags, with `current` on the first |
| SimState.SwapBuffers | simulation.hpp:43-45 | current and next change roles; the grids themselves stay |
| SimState.SwapBuffersTwice | simulation.hpp:43-45 | swapping twice restores the buffers |
| SimPhysics.Bounds | simulation.cpp:302-304 | `bounds()` contains exactly the in-grid cells |
| SimPhysics.TestMeansInBoundsAndTag | simulation.cpp:298-300 | `test` holds exactly for an in-grid cell of that material |
| SimPhysics.Swap | simulation.cpp:306-310 | the two cells are exchanged, no other cell changes, and both are marked |
| SimPhysics.Fall | simulation.cpp:151-163 | the fall passes only sinkable cells and stops within n rows; when blocked early it takes the collision speed |
| SimPhysics.SandMoveSpec | simulation.cpp:143-175 | sand stays put exactly when none of the three cells below can be entered; otherwise it moves down into a sinkable cell at most one column aside, stepping aside only where straight down is blocked after its fall, and right only when left is blocked too |
| SimPhysics.SandSpeedRule | simulation.cpp:148-163 | the new vertical speed is gravity's increment while falling and the collision rule when blocked |
| SimPhysics.SandSpeedStaysNonNegative | simulation.cpp:148-163 | when every sand speed is non-negative before `update_sand`, it still is afterwards |
| SimPhysics.UpdateSandFrame | simulation.cpp:165-174 | only the origin and destination change, and the particle arrives with its new speed |
| SimPhysics.UpdateSandConservesTags | simulation.cpp:173-174 | `update_sand` keeps the multiset of materials |
| SimPhysics.UpdateSand | simulation.cpp:143-175 | `update_sand` keeps the field valid and its shape; its frame is in `SimPhysics.UpdateSandFrame`, its conservation in `SimPhysics.UpdateSandConservesTags` and `RegionSweep.UpdateSandKeepsGranular` |
| SimPhysics.WaterStepAt | simulation.cpp:188-206 | one loop pass goes straight down whenever that cell is free, otherwise to a free cell down-diagonal or aside in the flow direction; a pass that stays flips `vel.x` and needs a free neighbour; the loop breaks exactly when no checked cell is free |
| SimPhysics.Spread | simulation.cpp:187-207 | water ends in the grid, within the step budget of its start, never higher, in a free cell or at its start; the flow keeps or reverses its direction |
| SimPhysics.UpdateWaterSpec | simulation.cpp:177-211 | water moves into an empty cell, never upward, at most `spread` steps away, and the rest of the grid is kept |
| SimPhysics.UpdateWater | simulation.cpp:177-211 | `update_water` keeps the field valid and its shape; its moves are in `SimPhysics.UpdateWaterSpec` and its conservation in `RegionSweep.UpdateWaterKeepsGranular` |
| SimPhysics.WaterSpread | simulation.cpp:32-32 | the spread is at least 1 and at most a 64th of each side |
| SimPhysics.OffsetsAreTheNeighbours | simulation.cpp:22-26 | the eight offsets are exactly the eight neighbour steps |
| SimPhysics.UpdateFireSpec | simulation.cpp:213-240 | fire loses one tick and dies at zero; only a wood cell at the drawn neighbour catches fire |
| SimPhysics.UpdateFire | simulation.cpp:213-240 | `update_fire` keeps the field valid and its shape; its burning and spreading are in `SimPhysics.UpdateFireSpec` and `RegionSweep.UpdateFireKeepsGranular` |
| SimPhysics.UpdateParticleSpec | simulation.cpp:122-141 | an updated particle is skipped; otherwise its flag is set and the rule for its material runs |
| SimPhysics.UpdateParticle | simulation.cpp:122-141 | `update_particle` keeps the field valid and its shape; its dispatch is in `SimPhysics.UpdateParticleSpec` and its conservation in `RegionSweep.UpdateParticleKeepsGranular` |
| SimPhysics.CloudBox | simulation.cpp:277-278 | the loop box is the square of radius r around the centre, clipped to the grid |
| SimPhysics.CloudIsDisc | simulation.cpp:273-283 | the overwritten cells are exactly the in-grid disc of radius r |
| SimPhysics.SpawnCloud | simulation.cpp:272-292 | every disc cell gets a fresh particle of the material and is marked; every other cell is unchanged |
| SimPhysics.SpawnRow | simulation.cpp:282-290 | one row of the loop writes and marks that row's disc cells and keeps earlier rows and marks |
| RegionSweep.RegionRow | simulation.cpp:324-330 | one row's visits are its columns in the tick's direction |
| RegionSweep.ScanRowsWithin | simulation.cpp:323-331 | the rows from the bottom up to a given row list only cells of the box between them |
| RegionSweep.ScanRowsCovers | simulation.cpp:323-331 | the rows from the bottom up to a given row list every cell of the box between them |
| RegionSweep.ScanRowsOrdered | simulation.cpp:323-331 | the rows from the bottom up to a given row list their cells in scan order |
| RegionSweep.RegionScan | simulation.cpp:323-331 | a region scan covers exactly the region's cells, bottom row first, in scan order; it is `ScanRows` of the box |
| RegionSweep.ClearFlagsAtSpec | simulation.cpp:319-321 | a listed cell has only its flag cleared, and unlisted cells are untouched |
| RegionSweep.UpdateSandKeepsGranular | simulation.cpp:143-175 | `update_sand` keeps the multiset of sand and water |
| RegionSweep.UpdateWaterKeepsGranular | simulation.cpp:177-211 | `update_water` keeps the multiset of sand and water |
| RegionSweep.IgniteKeepsGranular | simulation.cpp:218-230 | lighting a neighbour keeps sand and water and leaves the burning cell alone |
| RegionSweep.BurnKeepsGranular | simulation.cpp:232-239 | burning down keeps sand and water |
| RegionSweep.UpdateFireKeepsGranular | simulation.cpp:213-240 | `update_fire` keeps sand and water |
| RegionSweep.UpdateParticleKeepsGranular | simulation.cpp:122-141 | `update_particle` keeps sand and water |
| RegionSweep.SweepKeepsGranular | simulation.cpp:323-331 | a whole region sweep keeps sand and water |
| RegionSweep.ClearFlagsAtKeepsGranular | simulation.cpp:319-321 | clearing flags keeps sand and water |
| SimulationTick.PartitionFits | simulation.cpp:33-34 | with whole chunks, every region of the shifted partition has a dirty-block mask |
| SimulationTick.NewSim | simulation.cpp:28-46 | the constructor builds the grid, a partition shifted by (4, 4) and clean dirty blocks |
| SimulationTick.ScanRegion | simulation.cpp:315-331 | the scan of region (i, j) lists exactly the cells between its bounds, in the tick's scan order |
| SimulationTick.DirtyRegionStep | simulation.cpp:312-331 | for a dirty region, the step clears its update mask and sweeps its cells in scan order after resetting their flags |
| SimulationTick.RegionStep | simulation.cpp:312-332 | `update_region` as a function: only the grid and the dirty blocks change, the simulation keeps its shape, and sand and water are kept |
| SimulationTick.UpdateRegion | simulation.cpp:312-332 | a clean region is skipped; a dirty one is reset, its flags cleared and every cell updated once in scan order, keeping sand and water; the result is `RegionStep` |
| SimulationTick.Tick | simulation.cpp:54-99 | `update_region` over a list of regions in turn keeps the shape, the partitioner, the offsets, and sand and water |
| SimulationTick.Schedule | simulation.cpp:54-99 | the four parity passes visit every region once, pass by pass |
| SimulationTick.PassesInOrder | simulation.cpp:54-101 | appending a later pass keeps the schedule ordered |
| SimulationTick.OnePassNeverAdjacent | simulation.cpp:55-63 | two regions of one pass are never neighbours |
| SimulationTick.ShiftSim | simulation.cpp:49-52 | the partition and the masks move to the drawn offsets, block bits kept and the rest cleared; nothing else changes |
| SimulationTick.RunSchedule | simulation.cpp:54-99 | running `update_region` down a schedule yields `Tick` of that schedule |
| SimulationTick.Update | simulation.cpp:48-104 | `update()` shifts the partition and masks, updates every region once pass by pass, and reverses the scan direction; the result is `Tick` of the shifted simulation over the schedule, and it keeps sand and water |
| UpdateScheduling.GroupIdx | updatescheduler.cpp:38-40 | the group is the column parity plus twice the row parity |
| UpdateScheduling.SameGroupIffSameParity | updatescheduler.cpp:38-40 | two chunks share a group exactly when their parities match |
| UpdateScheduling.SameGroupNotAdjacent | updatescheduler.cpp:38-40 | distinct chunks of one group are at least two apart in some direction |
| UpdateScheduling.EveryGroupUsed | updatescheduler.cpp:38-40 | each of the four groups is reached |
| UpdateScheduling.Push | updatescheduler.cpp:12-15 | `push` appends and keeps the read position |
| UpdateScheduling.Pop | updatescheduler.cpp:17-23 | `pop` returns the next unread item and advances, or fails exactly when every item is read |
| UpdateScheduling.Reset | updatescheduler.cpp:25-28 | `reset` rewinds and keeps the items |
| UpdateScheduling.Clear | updatescheduler.cpp:30-34 | `clear` empties the queue |
| UpdateScheduling.Drain | updatescheduler.cpp:149-155 | the worker loop reads every remaining item in order |
| UpdateScheduling.NewScheduler | updatescheduler.cpp:42-54 | four empty queues, group 0 active |
| UpdateScheduling.PushChunk | updatescheduler.cpp:57-63 | a chunk joins only its own group's queue |
| UpdateScheduling.ClearAll | updatescheduler.cpp:65-68 | all four queues are emptied |
| UpdateScheduling.Run | updatescheduler.cpp:70-95 | `run` processes the queues group by group, each chunk once; in update mode it counts them |
| UpdateScheduling.QueuesAfterPushes | updatescheduler.cpp:57-63 | after pushes, each queue holds exactly its group's chunks, in order |
| UpdateScheduling.FiltersPartition | updatescheduler.cpp:38-40 | the four groups together hold every chunk once |
| UpdateScheduling.RunAfterPushes | updatescheduler.cpp:70-95 | a run after pushes processes exactly the pushed chunks, group by group |
| AverageTracker.New | avgtracker.hpp:11-13 | a new tracker holds N zeros, with sum 0 |
| AverageTracker.Push | avgtracker.hpp:18-23 | `push` drops the oldest value, appends the new one and keeps the sum right |
| AverageTracker.WindowAfterPushes | avgtracker.hpp:18-23 | after pushes, the window is the last N values pushed, padded with earlier ones |
| AverageTracker.Average | avgtracker.hpp:25-28 | the average is the sum over N, truncated toward zero |
| AverageTracker.AverageOfRecent | avgtracker.hpp:25-28 | the average of a fresh tracker is the truncated mean of the last N values pushed, with zeros for unwritten slots |
| AverageTracker.SumIsWindowTotal | avgtracker.hpp:18-30 | the running sum is the total of the stored values |
| AverageTracker.LastIsNewest | avgtracker.hpp:32-34 | `last()` is the newest value of the window |
| AverageTracker.LastAfterPush | avgtracker.hpp:32-34 | after `push(x)`, `last()` is x |
| AverageTracker.Last | avgtracker.hpp:32-34 | `last()` reads the slot before the write position, wrapping to the end; its meaning is stated by `AverageTracker.LastIsNewest` and `AverageTracker.LastAfterPush` |
| XorShift128Plus.UnShiftMixInverts | xorshift.cpp:14-15 | steps a and b are invertible |
| XorShift128Plus.Step | xorshift.cpp:10-19 | the old second word becomes the first |
| XorShift128Plus.StepWordsInvertible | xorshift.cpp:10-19 | the old first word can be recovered from the new state |
| XorShift128Plus.ZeroStateIsFixed | xorshift.cpp:4-5 | the all-zero state is a fixed point that returns 0, and the default seed is not that state |
| XorShift128Plus.DefaultSeedFirstOutputs | xorshift.cpp:4-19 | the first three values from the default seed |
| XorShift128Plus.Output | xorshift.cpp:10-19 | `operator()` returns the wrapping 64-bit sum of the two new words; its values are stated by `XorShift128Plus.ZeroStateIsFixed` and `XorShift128Plus.DefaultSeedFirstOutputs` |

## Left out

- Threads, the thread pool, mutexes and condition variables are left out, because the model is sequential. Each pass of `update()` and each `run` of updatescheduler.cpp runs one region after another, in the order of their loops. `thread_routine` and `process_chunks` become one sequential worker (`UpdateScheduling.Drain`).
- The load-balancing floats and statistics of `update()` are left out; they change timing, not the result.
- SFML rendering is left out: `render`, `redraw_region` and `redraw_particle`, grid_painter, render_buffer and main.cpp. This is drawing and I/O.
- The fps and perf trackers are timing I/O and are left out.
- The single-grid world's `update_water` and `render` are left out. The water rule runs on a float flow velocity, so `SingleGridWorld.UpdateParticle` takes the water step as a parameter.
- simulation.cpp calls `mark_pixel` (lines 228, 239, 288, 308-309), but neither simulation.cpp nor simulation.hpp defines it. The model records each call in a log (`SimPhysics.Marked`), and the dirty-block marks it would make are not modelled.
- Random draws are parameters: the partitioner offsets (1..4), the fire-spread draw and direction, and the spawn lifetimes. The spread probability itself is not modelled.
- SimPhysics.SpawnCloud: `spawn_cloud` leaves `been_updated` of the new particle uninitialised; the model sets it to false.
- C++ 32-bit `int` overflow is not modelled; integers are unbounded. Only `DirtyRect.Reset` uses the 32-bit limits, because `reset()` is defined by them.
- AverageTracker: only integer `T` is modelled. Floating-point averages are left out.
- The `Partitioner` accessors and `off_x`/`off_y` getters are plain field reads and are left out.
- simulation.hpp is an older revision than simulation.cpp. The model follows simulation.cpp: generators, the pool, the partitioner and the dirty-block masks. The chunk-flag buffers of simulation.hpp are kept as `SimState`.
- DirtyRect.SharedAreaCountsCommonCells: holds for two non-empty boxes only. With an empty box as an operand, `shared_area` multiplies the inverted width and height of the intersection (`DirtyRect.SharedAreaOfEmptyOperand`).
- SingleGridWorld.UpdateParticle: sand is dispatched to the corrected sand rule (`SingleGridWorld.UpdateSand`), not to the down-right test as world.cpp:129-130 writes it. `SingleGridWorld.UpdateSandAsWrittenSpec` states the written rule, and `SingleGridWorld.UpdateSandsAgreeOffWater` shows the two differ only when the cell below-right holds water.
- SingleGridWorld.UpdateParticleSpec: describes the dispatch to the corrected sand rule, for the same reason.
- SingleGridWorld.UpdateSandSpec: is about the corrected sand rule; the written one is `SingleGridWorld.UpdateSandAsWrittenSpec`.
- SingleGridWorld.Update: the tick runs the corrected sand rule, so below-right water is entered where the written code would leave the sand in place.
- SimulationTick.PartitionFits: requires the world's width and height to be whole multiples of the chunk size. Otherwise the shifted partition can have one more region per axis than the dirty-block grid holds. The constants WIDTH, HEIGHT and CHUNK_SIZE live in a header that is not part of this model.
- The world.hpp members that are only declared (`get`, `load_block` and the like) have no body to model.
- The util.hpp members without a definition in util.cpp (`clear()` without arguments, `contains(Rect)`, `width`, `height`) are left out.
- SingleGridWorld.Half: assumes an integer `vel.y`. Neither world.cpp nor world.hpp defines the single-grid particle type, and world.cpp:83 (commented out) reads the velocity into `int`s.
- SimPhysics.Fall: a negative step count would run the source loop until the particle is blocked. The model bounds that by the grid height, which is enough for any fall inside the grid.

## Findings

| source | as written | input that shows it | evidently intended | confidence | as-written member | corrected member |
|---|---|---|---|---|---|---|
| world.cpp:129-130 | the down-right test compares the cell with `None` twice, so water below-right is never entered | a 3 x 2 grid with sand at (1, 0), sand below it and below-left, and water below-right | the second comparison should be `== Water`, as in the down-left test | not executed | SingleGridWorld.SandDestAsWrittenSkipsWater | SingleGridWorld.SandDestSpec |

=== FILE: arith.dfy ===
/** Small facts about multiplication that the solver does not find unaided. */
module Arith {

  lemma MulLe(a: int, b: int, c: nat)
    requires a <= b
    ensures a * c <= b * c
  {
    assert b * c - a * c == (b - a) * c;
  }

  lemma MulLt(a: int, b: int, c: int)
    requires c > 0 && a * c < b * c
    ensures a < b
  {
    if a >= b {
      MulLe(b, a, c);
    }
  }

  /** C++ integer division by a positive divisor: the quotient truncated
      toward zero (Dafny's `/` rounds toward negative infinity for negative
      dividends). */
  function TruncDiv(a: int, b: int): (q: int)
    requires b > 0
    ensures a >= 0 ==> q == a / b && 0 <= q
    ensures a <= 0 ==> q == -((-a) / b) && q <= 0
    ensures a >= 0 ==> q * b <= a < q * b + b
    ensures a <= 0 ==> q * b - b < a <= q * b
  {
    if a >= 0 then a / b else -((-a) / b)
  }
}

=== FILE: avgtracker.dfy ===
/** `AvgTracker<T, N>` with an integer `T`: a ring buffer of the last N values
    pushed (zeros before that), their running sum and the next write index. */
module AverageTracker {
  import opened Arith

  datatype AvgTracker = AvgTracker(data: seq<int>, sum: int, idx: nat)

  /** The sum of a sequence. */
  function Total(s: seq<int>): int
    decreases |s|
  {
    if |s| == 0 then 0 else Total(s[..|s| - 1]) + s[|s| - 1]
  }

  lemma {:induction false} TotalAppend(a: seq<int>, b: seq<int>)
    ensures Total(a + b) == Total(a) + Total(b)
    decreases |b|
  {
    if |b| == 0 {
      assert a + b == a;
    } else {
      assert (a + b)[..|a + b| - 1] == a + b[..|b| - 1];
      TotalAppend(a, b[..|b| - 1]);
    }
  }

  /** Overwriting one entry changes the total by the difference. */
  lemma TotalUpdate(s: seq<int>, i: int, v: int)
    requires 0 <= i < |s|
    ensures Total(s[i := v]) == Total(s) - s[i] + v
  {
    assert s == s[..i] + [s[i]] + s[i + 1..];
    assert s[i := v] == s[..i] + [v] + s[i + 1..];
    TotalAppend(s[..i] + [s[i]], s[i + 1..]);
    TotalAppend(s[..i], [s[i]]);
    TotalAppend(s[..i] + [v], s[i + 1..]);
    TotalAppend(s[..i], [v]);
    assert Total([s[i]]) == s[i] by { assert [s[i]][..0] == []; }
    assert Total([v]) == v by { assert [v][..0] == []; }
  }

  /** A tracker of capacity n: n slots, an index in range and the sum of the slots. */
  predicate Valid(t: AvgTracker, n: nat) {
    n > 0 && |t.data| == n && t.idx < n && t.sum == Total(t.data)
  }

  /** The stored values, oldest first. */
  function Window(t: AvgTracker): (w: seq<int>)
    requires t.idx <= |t.data|
    ensures |w| == |t.data|
  {
    t.data[t.idx..] + t.data[..t.idx]
  }

  function Zeros(n: nat): (z: seq<int>)
    ensures |z| == n && forall i :: 0 <= i < n ==> z[i] == 0
  {
    seq(n, _ => 0)
  }

  lemma {:induction false} TotalZeros(n: nat)
    ensures Total(Zeros(n)) == 0
  {
    if n > 0 {
      assert Zeros(n)[..n - 1] == Zeros(n - 1);
      TotalZeros(n - 1);
    }
  }

  /** The constructor: N default values (zero), sum zero, index zero. */
  function New(n: nat): (t: AvgTracker)
    requires n > 0
    ensures Valid(t, n) && Window(t) == Zeros(n)
  {
    TotalZeros(n);
    AvgTracker(Zeros(n), 0, 0)
  }

  /** `push(x)`: adds x and drops the oldest value, keeping the sum equal to the total. */
  function Push(t: AvgTracker, x: int): (t': AvgTracker)
    requires Valid(t, |t.data|)
    ensures Valid(t', |t.data|)
    ensures Window(t') == Window(t)[1..] + [x]
  {
    TotalUpdate(t.data, t.idx, x);
    var data := t.data[t.idx := x];
    var idx := if t.idx + 1 >= |t.data| then 0 else t.idx + 1;
    var t' := AvgTracker(data, t.sum + x - t.data[t.idx], idx);
    if t.idx + 1 >= |t.data| then
      assert Window(t') == data;
      assert data == t.data[..t.idx] + [x];
      t'
    else
      assert data[idx..] == t.data[t.idx + 1..];
      assert data[..idx] == t.data[..t.idx] + [x];
      t'
  }

  /** `last()`: the value pushed most recently. */
  function Last(t: AvgTracker): (v: int)
    requires Valid(t, |t.data|)
  {
    t.data[if t.idx != 0 then t.idx - 1 else |t.data| - 1]
  }

  /** `last()` is the newest entry of the window. */
  lemma LastIsNewest(t: AvgTracker)
    requires Valid(t, |t.data|)
    ensures Last(t) == Window(t)[|t.data| - 1]
  {
  }

  /** After `push(x)`, `last()` is x. */
  lemma LastAfterPush(t: AvgTracker, x: int)
    requires Valid(t, |t.data|)
    ensures Last(Push(t, x)) == x
  {
    LastIsNewest(Push(t, x));
  }

  /** `average()`: the sum divided by N, truncated toward zero as C++ integer division does. */
  function Average(t: AvgTracker): (a: int)
    requires Valid(t, |t.data|)
    ensures t.sum >= 0 ==> 0 <= a && a * |t.data| <= t.sum < a * |t.data| + |t.data|
    ensures t.sum <= 0 ==> a <= 0 && a * |t.data| - |t.data| < t.sum <= a * |t.data|
  {
    TruncDiv(t.sum, |t.data|)
  }

  /** The running sum is the total of the window. */
  lemma SumIsWindowTotal(t: AvgTracker)
    requires Valid(t, |t.data|)
    ensures t.sum == Total(Window(t))
  {
    assert t.data == t.data[..t.idx] + t.data[t.idx..];
    TotalAppend(t.data[..t.idx], t.data[t.idx..]);
    TotalAppend(t.data[t.idx..], t.data[..t.idx]);
  }

  /** Pushing a sequence of values in order. */
  function PushAll(t: AvgTracker, xs: seq<int>): (t': AvgTracker)
    requires Valid(t, |t.data|)
    ensures Valid(t', |t.data|)
    decreases |xs|
  {
    if |xs| == 0 then t else PushAll(Push(t, xs[0]), xs[1..])
  }

  /** After pushing xs into a fresh tracker, the window holds the last n values of
      n zeros followed by xs: the last n values pushed, padded with zeros. */
  lemma {:induction false} WindowAfterPushes(t: AvgTracker, xs: seq<int>)
    requires Valid(t, |t.data|)
    ensures Window(PushAll(t, xs)) == (Window(t) + xs)[|xs|..]
    decreases |xs|
  {
    if |xs| == 0 {
      assert (Window(t) + xs)[0..] == Window(t);
    } else {
      var t1 := Push(t, xs[0]);
      WindowAfterPushes(t1, xs[1..]);
      assert Window(t1) + xs[1..] == (Window(t) + xs)[1..];
    }
  }

  /** The average of a fresh tracker after pushes is the truncated mean of the last
      N values pushed, counting zeros for the slots not yet written. */
  lemma AverageOfRecent(n: nat, xs: seq<int>)
    requires n > 0
    ensures var t := PushAll(New(n), xs);
      t.sum == Total((Zeros(n) + xs)[|xs|..]) && Average(t) == TruncDiv(Total((Zeros(n) + xs)[|xs|..]), n)
  {
    var t := PushAll(New(n), xs);
    WindowAfterPushes(New(n), xs);
    SumIsWindowTotal(t);
  }
}

=== FILE: dirtyblocks.dfy ===
/** `DirtyBlocks`: per-region 16-bit masks recording which 4x4 blocks of a
    region need an update or a redraw. Regions are the cells of a grid that
    is one larger than the chunk grid in each direction, and a block (x, y)
    is addressed through the current offsets (offX, offY) as region
    ((x + 4 - offX) / 4, (y + 4 - offY) / 4), bit 4 * ((y + 4 - offY) % 4) +
    (x + 4 - offX) % 4. Two region grids are kept; `NewShift` re-bins every
    mark into the spare one and swaps them. */
module DirtyBlocks {
  import opened Grids

  datatype Region = Region(updateMask: bv16, redrawMask: bv16)

  /** The `BlockQuery` flags QUPDATE = 1, QREDRAW = 2, QBOTH = 3. */
  datatype BlockQuery = QUpdate | QRedraw | QBoth

  function QueryBits(q: BlockQuery): bv8 {
    match q
    case QUpdate => 1
    case QRedraw => 2
    case QBoth => 3
  }

  /** `QUERY & QUPDATE`. */
  predicate SelectsUpdate(q: BlockQuery) { QueryBits(q) & 1 != 0 }

  /** `QUERY & QREDRAW`. */
  predicate SelectsRedraw(q: BlockQuery) { QueryBits(q) & 2 != 0 }

  // ---------------------------------------------------------------- bits

  function Bit(k: nat): bv16
    requires k < 16
  {
    1 << (k as bv16)
  }

  predicate HasBit(m: bv16, k: nat)
    requires k < 16
  {
    m & Bit(k) != 0
  }

  /** `mask |= uint16(flag) << k`. */
  function OrIf(m: bv16, flag: bool, k: nat): bv16
    requires k < 16
  {
    var f: bv16 := if flag then 1 else 0;
    m | (f << (k as bv16))
  }

  lemma OrBitRaw(m: bv16, k: bv16, k2: bv16)
    requires k < 16 && k2 < 16
    ensures ((m | (1 << k)) & (1 << k2) != 0) <==> (m & (1 << k2) != 0) || k == k2
  {
  }

  lemma ToBv16(k: nat, k2: nat)
    requires k < 16 && k2 < 16
    ensures (k as bv16 == k2 as bv16) <==> k == k2
    ensures k as bv16 < 16
  {
  }

  /** OR-ing in bit k sets bit k and leaves every other bit alone. */
  lemma OrBit(m: bv16, k: nat, k2: nat)
    requires k < 16 && k2 < 16
    ensures HasBit(m | Bit(k), k2) <==> HasBit(m, k2) || k == k2
  {
    var a, b := k as bv16, k2 as bv16;
    ToBv16(k, k2);
    ToBv16(k2, k);
    OrBitRaw(m, a, b);
    assert HasBit(m | Bit(k), k2) == ((m | (1 << a)) & (1 << b) != 0);
    assert HasBit(m, k2) == (m & (1 << b) != 0);
  }

  lemma ShiftFlag(m: bv16, f: bv16, k: bv16)
    requires f <= 1 && k < 16
    ensures m | (f << k) == if f == 1 then m | (1 << k) else m
  {
    if f == 0 {
      assert f << k == 0;
    } else {
      assert f == 1;
    }
  }

  /** OR-ing a flag into bit k sets bit k when the flag is set and leaves every other bit alone. */
  lemma OrIfBit(m: bv16, flag: bool, k: nat, k2: nat)
    requires k < 16 && k2 < 16
    ensures HasBit(OrIf(m, flag, k), k2) <==> HasBit(m, k2) || (flag && k == k2)
  {
    var f: bv16 := if flag then 1 else 0;
    ToBv16(k, k);
    ShiftFlag(m, f, k as bv16);
    if flag {
      assert OrIf(m, flag, k) == m | Bit(k);
      OrBit(m, k, k2);
    } else {
      assert OrIf(m, flag, k) == m;
    }
  }

  lemma NoBitOfZero(k: nat)
    requires k < 16
    ensures !HasBit(0, k)
  {
  }

  /** A mask is non-zero exactly when one of its sixteen block bits is set. */
  lemma NonZeroIffSomeBit(m: bv16)
    ensures m != 0 <==> exists k: nat :: k < 16 && HasBit(m, k)
  {
    if m & 0x1 != 0 {
      assert Bit(0) == 0x1;
      assert HasBit(m, 0);
    } else if m & 0x2 != 0 {
      assert Bit(1) == 0x2;
      assert HasBit(m, 1);
    } else if m & 0x4 != 0 {
      assert Bit(2) == 0x4;
      assert HasBit(m, 2);
    } else if m & 0x8 != 0 {
      assert Bit(3) == 0x8;
      assert HasBit(m, 3);
    } else if m & 0x10 != 0 {
      assert Bit(4) == 0x10;
      assert HasBit(m, 4);
    } else if m & 0x20 != 0 {
      assert Bit(5) == 0x20;
      assert HasBit(m, 5);
    } else if m & 0x40 != 0 {
      assert Bit(6) == 0x40;
      assert HasBit(m, 6);
    } else if m & 0x80 != 0 {
      assert Bit(7) == 0x80;
      assert HasBit(m, 7);
    } else if m & 0x100 != 0 {
      assert Bit(8) == 0x100;
      assert HasBit(m, 8);
    } else if m & 0x200 != 0 {
      assert Bit(9) == 0x200;
      assert HasBit(m, 9);
    } else if m & 0x400 != 0 {
      assert Bit(10) == 0x400;
      assert HasBit(m, 10);
    } else if m & 0x800 != 0 {
      assert Bit(11) == 0x800;
      assert HasBit(m, 11);
    } else if m & 0x1000 != 0 {
      assert Bit(12) == 0x1000;
      assert HasBit(m, 12);
    } else if m & 0x2000 != 0 {
      assert Bit(13) == 0x2000;
      assert HasBit(m, 13);
    } else if m & 0x4000 != 0 {
      assert Bit(14) == 0x4000;
      assert HasBit(m, 14);
    } else if m & 0x8000 != 0 {
      assert Bit(15) == 0x8000;
      assert HasBit(m, 15);
    }
  }

  // ---------------------------------------------------------- addressing

  /** Where a block lives: region (chX, chY), bit `bit` of its masks. */
  datatype Slot = Slot(chX: int, chY: int, bit: nat)

  /** The index arithmetic of `mark_block` and `test_block`. C++ division
      and remainder truncate, Dafny's are Euclidean; they agree because the
      shifted coordinates are required to be non-negative. */
  function Locate(offX: int, offY: int, x: int, y: int): (s: Slot)
    ensures s.bit < 16
  {
    var xx, yy := x + 4 - offX, y + 4 - offY;
    Slot(xx / 4, yy / 4, (yy % 4) * 4 + xx % 4)
  }

  /** Distinct blocks never share a slot. */
  lemma LocateInjective(offX: int, offY: int, x: int, y: int, x': int, y': int)
    requires Locate(offX, offY, x, y) == Locate(offX, offY, x', y')
    ensures x == x' && y == y'
  {
    var xx, yy := x + 4 - offX, y + 4 - offY;
    var xx', yy' := x' + 4 - offX, y' + 4 - offY;
    var b := (yy % 4) * 4 + xx % 4;
    assert xx % 4 == b % 4 && yy % 4 == b / 4;
    assert xx' % 4 == b % 4 && yy' % 4 == b / 4;
  }

  /** The block the bit `bit` of region (i, j) stands for: the inverse of `Locate`. */
  function Unlocate(offX: int, offY: int, i: int, j: int, bit: nat): (b: (int, int))
    requires bit < 16
    ensures Locate(offX, offY, b.0, b.1) == Slot(i, j, bit)
  {
    (4 * i + bit % 4 - 4 + offX, 4 * j + bit / 4 - 4 + offY)
  }

  /** The shifted coordinates are non-negative and name a region of `g`. */
  predicate AddressableIn(g: Grid<Region>, offX: int, offY: int, x: int, y: int) {
    var s := Locate(offX, offY, x, y);
    x + 4 - offX >= 0 && y + 4 - offY >= 0 && InBounds(g, s.chX, s.chY)
  }

  predicate UpdateBitIn(g: Grid<Region>, offX: int, offY: int, x: int, y: int) {
    var s := Locate(offX, offY, x, y);
    Grids.Valid(g) && AddressableIn(g, offX, offY, x, y) && HasBit(Get(g, s.chX, s.chY).updateMask, s.bit)
  }

  predicate RedrawBitIn(g: Grid<Region>, offX: int, offY: int, x: int, y: int) {
    var s := Locate(offX, offY, x, y);
    Grids.Valid(g) && AddressableIn(g, offX, offY, x, y) && HasBit(Get(g, s.chX, s.chY).redrawMask, s.bit)
  }

  // ------------------------------------------------------------- storage

  /** `m_first`, `m_second`; `current` points to the first iff `currentIsFirst`. */
  datatype DirtyBlocks = DirtyBlocks(
    first: Grid<Region>, second: Grid<Region>, currentIsFirst: bool, offX: int, offY: int)

  function Current(d: DirtyBlocks): Grid<Region> {
    if d.currentIsFirst then d.first else d.second
  }

  function Next(d: DirtyBlocks): Grid<Region> {
    if d.currentIsFirst then d.second else d.first
  }

  /** Replaces the grid `current` points to. */
  function WithCurrent(d: DirtyBlocks, g: Grid<Region>): DirtyBlocks {
    if d.currentIsFirst then d.(first := g) else d.(second := g)
  }

  /** Two equal-shaped, non-degenerate region grids and offsets in 0..4, the
      range for which every block of the chunk area is addressable. */
  predicate Valid(d: DirtyBlocks) {
    && Grids.Valid(d.first) && Grids.Valid(d.second)
    && d.first.width == d.second.width && d.first.height == d.second.height
    && d.first.width >= 1 && d.first.height >= 1
    && 0 <= d.offX <= 4 && 0 <= d.offY <= 4
  }

  /** The blocks of the chunk area: 4 per chunk in each direction. */
  predicate InBlockRange(d: DirtyBlocks, x: int, y: int) {
    0 <= x < 4 * (Current(d).width - 1) && 0 <= y < 4 * (Current(d).height - 1)
  }

  predicate Addressable(d: DirtyBlocks, x: int, y: int) {
    AddressableIn(Current(d), d.offX, d.offY, x, y)
  }

  /** The constructor: (W+1) x (H+1) zeroed regions in both grids, offsets (4, 4), `current` on the first. */
  function New(widthChunks: nat, heightChunks: nat): (d: DirtyBlocks)
    ensures Valid(d) && d.currentIsFirst && d.offX == 4 && d.offY == 4
    ensures Current(d).width == widthChunks + 1 && Current(d).height == heightChunks + 1
    ensures forall x, y :: InBounds(Current(d), x, y) ==> Get(Current(d), x, y) == Region(0, 0)
    ensures forall x, y :: InBounds(Next(d), x, y) ==> Get(Next(d), x, y) == Region(0, 0)
  {
    var g := Grids.New(widthChunks + 1, heightChunks + 1, Region(0, 0));
    DirtyBlocks(g, g, true, 4, 4)
  }

  /** With offsets in 0..4, every block of the chunk area names a region of the grid. */
  lemma InRangeIsAddressable(g: Grid<Region>, offX: int, offY: int, x: int, y: int)
    requires 0 <= offX <= 4 && 0 <= offY <= 4
    requires 0 <= x < 4 * (g.width - 1) && 0 <= y < 4 * (g.height - 1)
    ensures AddressableIn(g, offX, offY, x, y)
  {
  }

  /** The block-range property of `mark_block` and `test_block`: region inside the grid, bit in 0..15. */
  lemma BlockAddressInRange(d: DirtyBlocks, x: int, y: int)
    requires Valid(d) && InBlockRange(d, x, y)
    ensures Addressable(d, x, y)
    ensures 0 <= Locate(d.offX, d.offY, x, y).chX < Current(d).width
    ensures 0 <= Locate(d.offX, d.offY, x, y).chY < Current(d).height
    ensures 0 <= Locate(d.offX, d.offY, x, y).bit <= 15
  {
    InRangeIsAddressable(Current(d), d.offX, d.offY, x, y);
  }

  predicate UpdateBit(d: DirtyBlocks, x: int, y: int) {
    UpdateBitIn(Current(d), d.offX, d.offY, x, y)
  }

  predicate RedrawBit(d: DirtyBlocks, x: int, y: int) {
    RedrawBitIn(Current(d), d.offX, d.offY, x, y)
  }

  /** `test_block<QUERY>(x, y)`: every selected mask has the block's bit. */
  function TestBlock(d: DirtyBlocks, q: BlockQuery, x: int, y: int): bool
    requires Valid(d) && Addressable(d, x, y)
  {
    (!SelectsUpdate(q) || UpdateBit(d, x, y)) && (!SelectsRedraw(q) || RedrawBit(d, x, y))
  }

  /** `test_block<QBOTH>` is the conjunction of the two single queries. */
  lemma TestBothIsConjunction(d: DirtyBlocks, x: int, y: int)
    requires Valid(d) && Addressable(d, x, y)
    ensures TestBlock(d, QBoth, x, y) == (TestBlock(d, QUpdate, x, y) && TestBlock(d, QRedraw, x, y))
    ensures TestBlock(d, QUpdate, x, y) == UpdateBit(d, x, y)
    ensures TestBlock(d, QRedraw, x, y) == RedrawBit(d, x, y)
  {
    assert SelectsUpdate(QBoth) && SelectsRedraw(QBoth);
    assert SelectsUpdate(QUpdate) && !SelectsRedraw(QUpdate);
    assert !SelectsUpdate(QRedraw) && SelectsRedraw(QRedraw);
  }

  /** ORs the bit of block (x, y) into the selected masks of its region in `g`. */
  function StoreBlock(g: Grid<Region>, offX: int, offY: int, x: int, y: int, upd: bool, redraw: bool)
    : (g': Grid<Region>)
    requires Grids.Valid(g) && AddressableIn(g, offX, offY, x, y)
    ensures Grids.Valid(g') && g'.width == g.width && g'.height == g.height
  {
    var s := Locate(offX, offY, x, y);
    var r := Get(g, s.chX, s.chY);
    Set(g, s.chX, s.chY, Region(OrIf(r.updateMask, upd, s.bit), OrIf(r.redrawMask, redraw, s.bit)))
  }

  /** Storing a block sets its bits as asked and leaves every other block's bits alone. */
  lemma StoreBlockFrame(g: Grid<Region>, offX: int, offY: int, x: int, y: int, upd: bool, redraw: bool)
    requires Grids.Valid(g) && AddressableIn(g, offX, offY, x, y)
    ensures var g' := StoreBlock(g, offX, offY, x, y, upd, redraw);
      && (UpdateBitIn(g', offX, offY, x, y) <==> UpdateBitIn(g, offX, offY, x, y) || upd)
      && (RedrawBitIn(g', offX, offY, x, y) <==> RedrawBitIn(g, offX, offY, x, y) || redraw)
      && (forall x', y' :: (x' != x || y' != y) ==>
            (UpdateBitIn(g', offX, offY, x', y') <==> UpdateBitIn(g, offX, offY, x', y')) &&
            (RedrawBitIn(g', offX, offY, x', y') <==> RedrawBitIn(g, offX, offY, x', y')))
  {
    var g' := StoreBlock(g, offX, offY, x, y, upd, redraw);
    var s := Locate(offX, offY, x, y);
    var r := Get(g, s.chX, s.chY);
    OrIfBit(r.updateMask, upd, s.bit, s.bit);
    OrIfBit(r.redrawMask, redraw, s.bit, s.bit);
    forall x', y' | x' != x || y' != y
      ensures (UpdateBitIn(g', offX, offY, x', y') <==> UpdateBitIn(g, offX, offY, x', y'))
      ensures (RedrawBitIn(g', offX, offY, x', y') <==> RedrawBitIn(g, offX, offY, x', y'))
    {
      var s' := Locate(offX, offY, x', y');
      if AddressableIn(g, offX, offY, x', y') && s'.chX == s.chX && s'.chY == s.chY {
        if s'.bit == s.bit {
          LocateInjective(offX, offY, x, y, x', y');
        }
        OrIfBit(r.updateMask, upd, s.bit, s'.bit);
        OrIfBit(r.redrawMask, redraw, s.bit, s'.bit);
      }
    }
  }

  /** `mark_block<QUERY>(x, y)`. */
  function MarkBlock(d: DirtyBlocks, q: BlockQuery, x: int, y: int): (d': DirtyBlocks)
    requires Valid(d) && Addressable(d, x, y)
    ensures Valid(d') && d'.offX == d.offX && d'.offY == d.offY && d'.currentIsFirst == d.currentIsFirst
    ensures Next(d') == Next(d)
    ensures Current(d').width == Current(d).width && Current(d').height == Current(d).height
  {
    WithCurrent(d, StoreBlock(Current(d), d.offX, d.offY, x, y, SelectsUpdate(q), SelectsRedraw(q)))
  }

  /** After `mark_block<Q>(x, y)`, `test_block<Q>(x, y)` holds; the unselected mask and
      every other block keep their bits. */
  lemma MarkBlockSpec(d: DirtyBlocks, q: BlockQuery, x: int, y: int)
    requires Valid(d) && Addressable(d, x, y)
    ensures Addressable(MarkBlock(d, q, x, y), x, y)
    ensures TestBlock(MarkBlock(d, q, x, y), q, x, y)
    ensures !SelectsUpdate(q) ==> (UpdateBit(MarkBlock(d, q, x, y), x, y) <==> UpdateBit(d, x, y))
    ensures !SelectsRedraw(q) ==> (RedrawBit(MarkBlock(d, q, x, y), x, y) <==> RedrawBit(d, x, y))
    ensures forall x', y' :: (x' != x || y' != y) ==>
      (UpdateBit(MarkBlock(d, q, x, y), x', y') <==> UpdateBit(d, x', y')) &&
      (RedrawBit(MarkBlock(d, q, x, y), x', y') <==> RedrawBit(d, x', y'))
  {
    StoreBlockFrame(Current(d), d.offX, d.offY, x, y, SelectsUpdate(q), SelectsRedraw(q));
  }

  /** `reset_region<QUERY>(i, j)`: zeroes the selected masks of region (i, j). */
  function ResetRegion(d: DirtyBlocks, q: BlockQuery, i: int, j: int): (d': DirtyBlocks)
    requires Valid(d) && InBounds(Current(d), i, j)
    ensures Valid(d') && d'.offX == d.offX && d'.offY == d.offY && d'.currentIsFirst == d.currentIsFirst
    ensures Next(d') == Next(d)
    ensures Current(d').width == Current(d).width && Current(d').height == Current(d).height
    ensures var r, r' := Get(Current(d), i, j), Get(Current(d'), i, j);
      && r'.updateMask == (if SelectsUpdate(q) then 0 else r.updateMask)
      && r'.redrawMask == (if SelectsRedraw(q) then 0 else r.redrawMask)
    ensures forall a, b :: InBounds(Current(d), a, b) && (a != i || b != j) ==>
      Get(Current(d'), a, b) == Get(Current(d), a, b)
  {
    var r := Get(Current(d), i, j);
    var r' := Region(if SelectsUpdate(q) then 0 else r.updateMask, if SelectsRedraw(q) then 0 else r.redrawMask);
    WithCurrent(d, Set(Current(d), i, j, r'))
  }

  /** `test_region<QUERY>(i, j)`: every selected mask of region (i, j) is non-zero. */
  function TestRegion(d: DirtyBlocks, q: BlockQuery, i: int, j: int): bool
    requires Valid(d) && InBounds(Current(d), i, j)
  {
    var r := Get(Current(d), i, j);
    (!SelectsUpdate(q) || r.updateMask != 0) && (!SelectsRedraw(q) || r.redrawMask != 0)
  }

  /** A region needs an update exactly when one of the sixteen blocks it stands for is marked. */
  lemma TestRegionIffSomeBlock(d: DirtyBlocks, i: int, j: int)
    requires Valid(d) && InBounds(Current(d), i, j)
    ensures TestRegion(d, QUpdate, i, j) <==>
      exists k: nat :: k < 16 && UpdateBit(d, Unlocate(d.offX, d.offY, i, j, k).0, Unlocate(d.offX, d.offY, i, j, k).1)
    ensures TestRegion(d, QRedraw, i, j) <==>
      exists k: nat :: k < 16 && RedrawBit(d, Unlocate(d.offX, d.offY, i, j, k).0, Unlocate(d.offX, d.offY, i, j, k).1)
  {
    var r := Get(Current(d), i, j);
    NonZeroIffSomeBit(r.updateMask);
    NonZeroIffSomeBit(r.redrawMask);
    assert SelectsUpdate(QUpdate) && !SelectsRedraw(QUpdate);
    assert !SelectsUpdate(QRedraw) && SelectsRedraw(QRedraw);
    forall k: nat | k < 16
      ensures UpdateBit(d, Unlocate(d.offX, d.offY, i, j, k).0, Unlocate(d.offX, d.offY, i, j, k).1)
              <==> HasBit(r.updateMask, k)
      ensures RedrawBit(d, Unlocate(d.offX, d.offY, i, j, k).0, Unlocate(d.offX, d.offY, i, j, k).1)
              <==> HasBit(r.redrawMask, k)
    {
      var b := Unlocate(d.offX, d.offY, i, j, k);
      assert Locate(d.offX, d.offY, b.0, b.1) == Slot(i, j, k);
    }
  }

  /** After `reset_region<Q>(i, j)`, `test_region<Q>(i, j)` is false. */
  lemma ResetThenTestRegion(d: DirtyBlocks, q: BlockQuery, i: int, j: int)
    requires Valid(d) && InBounds(Current(d), i, j)
    ensures !TestRegion(ResetRegion(d, q, i, j), q, i, j)
  {
  }

  /** `new_shift(newX, newY)`: clears the spare grid, re-bins every block's bits
      under the new offsets into it, stores the offsets and swaps the grids. */
  method NewShift(d: DirtyBlocks, newX: int, newY: int) returns (d': DirtyBlocks)
    requires Valid(d) && 0 <= newX <= 4 && 0 <= newY <= 4
    ensures Valid(d') && d'.offX == newX && d'.offY == newY
    ensures d'.currentIsFirst == !d.currentIsFirst && Next(d') == Current(d)
    ensures Current(d').width == Current(d).width && Current(d').height == Current(d).height
    ensures forall x, y :: InBlockRange(d, x, y) ==>
      Addressable(d, x, y) && Addressable(d', x, y) &&
      (UpdateBit(d', x, y) <==> UpdateBit(d, x, y)) && (RedrawBit(d', x, y) <==> RedrawBit(d, x, y))
    ensures forall x, y :: !InBlockRange(d, x, y) ==> !UpdateBit(d', x, y) && !RedrawBit(d', x, y)
  {
    var cur := Current(d);
    var width, height := 4 * (cur.width - 1), 4 * (cur.height - 1);
    var g := Grids.New(Next(d).width, Next(d).height, Region(0, 0));
    forall x, y | AddressableIn(g, newX, newY, x, y)
      ensures !UpdateBitIn(g, newX, newY, x, y) && !RedrawBitIn(g, newX, newY, x, y)
    {
      NoBitOfZero(Locate(newX, newY, x, y).bit);
    }
    var y := 0;
    while y < height
      invariant 0 <= y <= height
      invariant Grids.Valid(g) && g.width == cur.width && g.height == cur.height
      invariant forall px, py :: 0 <= px < width && 0 <= py < y ==>
        (UpdateBitIn(g, newX, newY, px, py) <==> UpdateBit(d, px, py)) &&
        (RedrawBitIn(g, newX, newY, px, py) <==> RedrawBit(d, px, py))
      invariant forall px, py :: 0 <= px < width && y <= py < height ==>
        !UpdateBitIn(g, newX, newY, px, py) && !RedrawBitIn(g, newX, newY, px, py)
      invariant forall px, py :: !(0 <= px < width && 0 <= py < height) ==>
        !UpdateBitIn(g, newX, newY, px, py) && !RedrawBitIn(g, newX, newY, px, py)
    {
      var x := 0;
      while x < width
        invariant 0 <= x <= width
        invariant Grids.Valid(g) && g.width == cur.width && g.height == cur.height
        invariant forall px, py :: 0 <= px < width && (0 <= py < y || (py == y && px < x)) ==>
          (UpdateBitIn(g, newX, newY, px, py) <==> UpdateBit(d, px, py)) &&
          (RedrawBitIn(g, newX, newY, px, py) <==> RedrawBit(d, px, py))
        invariant forall px, py :: 0 <= px < width && ((py == y && x <= px) || y < py < height) ==>
          !UpdateBitIn(g, newX, newY, px, py) && !RedrawBitIn(g, newX, newY, px, py)
        invariant forall px, py :: !(0 <= px < width && 0 <= py < height) ==>
          !UpdateBitIn(g, newX, newY, px, py) && !RedrawBitIn(g, newX, newY, px, py)
      {
        InRangeIsAddressable(cur, d.offX, d.offY, x, y);
        InRangeIsAddressable(g, newX, newY, x, y);
        var upd := TestBlock(d, QUpdate, x, y);
        var redraw := TestBlock(d, QRedraw, x, y);
        TestBothIsConjunction(d, x, y);
        StoreBlockFrame(g, newX, newY, x, y, upd, redraw);
        g := StoreBlock(g, newX, newY, x, y, upd, redraw);
        x := x + 1;
      }
      y := y + 1;
    }
    if d.currentIsFirst {
      d' := DirtyBlocks(d.first, g, false, newX, newY);
    } else {
      d' := DirtyBlocks(g, d.second, true, newX, newY);
    }
    forall x, y | InBlockRange(d, x, y)
      ensures Addressable(d, x, y) && Addressable(d', x, y)
    {
      InRangeIsAddressable(cur, d.offX, d.offY, x, y);
      InRangeIsAddressable(g, newX, newY, x, y);
    }
  }

  /** The preservation theorem of `new_shift`: every query on every block of the
      chunk area answers after the shift what it answered before. */
  lemma NewShiftPreservesTests(d: DirtyBlocks, d': DirtyBlocks, q: BlockQuery, x: int, y: int)
    requires Valid(d) && Valid(d') && InBlockRange(d, x, y)
    requires Addressable(d, x, y) && Addressable(d', x, y)
    requires (UpdateBit(d', x, y) <==> UpdateBit(d, x, y)) && (RedrawBit(d', x, y) <==> RedrawBit(d, x, y))
    ensures TestBlock(d', q, x, y) == TestBlock(d, q, x, y)
  {
  }
}

=== FILE: grid.dfy ===
/** `Grid<T>`: a width x height array stored flat in row-major order. */
module Grids {
  import opened Arith

  datatype Grid<T> = Grid(width: nat, height: nat, data: seq<T>)

  predicate Valid<T>(g: Grid<T>) {
    |g.data| == g.width * g.height
  }

  /** `contains(x, y)`. */
  predicate InBounds<T>(g: Grid<T>, x: int, y: int) {
    x >= 0 && y >= 0 && x < g.width && y < g.height
  }

  lemma RowMajorBound(w: nat, h: nat, x: int, y: int)
    requires 0 <= x < w && 0 <= y < h
    ensures 0 <= y * w + x < w * h
  {
    MulLe(y + 1, h, w);
    assert (y + 1) * w == y * w + w;
  }

  /** `xy_idx`, whose assert demands in-bounds coordinates. */
  function Index<T>(g: Grid<T>, x: int, y: int): (i: nat)
    requires InBounds(g, x, y)
    ensures i < g.width * g.height
  {
    RowMajorBound(g.width, g.height, x, y);
    y * g.width + x
  }

  /** A cell of an earlier row has a smaller index than any cell of a later row. */
  lemma EarlierRowFirst(w: nat, x: int, y: int, xx: int, yy: int)
    requires 0 <= x < w && 0 <= xx && y < yy
    ensures y * w + x < yy * w + xx
  {
    MulLe(y + 1, yy, w);
    assert (y + 1) * w == y * w + w;
  }

  lemma RowMajorInjective(w: nat, x: int, y: int, xx: int, yy: int)
    requires 0 <= x < w && 0 <= xx < w && 0 <= y && 0 <= yy
    requires y * w + x == yy * w + xx
    ensures x == xx && y == yy
  {
    if y < yy {
      EarlierRowFirst(w, x, y, xx, yy);
    } else if yy < y {
      EarlierRowFirst(w, xx, yy, x, y);
    }
  }

  /** Every slot of a valid grid is the index of some in-bounds cell. */
  lemma RowMajorSurjective(w: nat, h: nat, i: int)
    requires 0 <= i < w * h
    ensures w > 0 && 0 <= i % w < w && 0 <= i / w < h && i == (i / w) * w + i % w
  {
    if w != 0 {
      var y := i / w;
      if y >= h {
        MulLe(h, y, w);
      }
    }
  }

  /** Distinct in-bounds coordinates never share a slot. */
  lemma IndexInjective<T>(g: Grid<T>, x: int, y: int, xx: int, yy: int)
    requires InBounds(g, x, y) && InBounds(g, xx, yy)
    ensures Index(g, x, y) == Index(g, xx, yy) <==> x == xx && y == yy
  {
    if Index(g, x, y) == Index(g, xx, yy) {
      RowMajorInjective(g.width, x, y, xx, yy);
    }
  }

  /** The constructor: every cell holds `def`. */
  function New<T>(w: nat, h: nat, def: T): (g: Grid<T>)
    ensures Valid(g) && g.width == w && g.height == h
    ensures forall x, y :: InBounds(g, x, y) ==> Get(g, x, y) == def
  {
    Grid(w, h, seq(w * h, _ => def))
  }

  function Get<T>(g: Grid<T>, x: int, y: int): T
    requires Valid(g) && InBounds(g, x, y)
  {
    g.data[Index(g, x, y)]
  }

  /** A write through the reference `get(x, y)` returns. */
  function Set<T>(g: Grid<T>, x: int, y: int, v: T): (g': Grid<T>)
    requires Valid(g) && InBounds(g, x, y)
    ensures Valid(g') && g'.width == g.width && g'.height == g.height
    ensures Get(g', x, y) == v
    ensures forall a, b :: InBounds(g, a, b) && (a != x || b != y) ==> Get(g', a, b) == Get(g, a, b)
  {
    var g' := Grid(g.width, g.height, g.data[Index(g, x, y) := v]);
    assert forall a, b :: InBounds(g, a, b) && (a != x || b != y) ==> Index(g, a, b) != Index(g, x, y) by {
      forall a, b | InBounds(g, a, b) && (a != x || b != y) ensures Index(g, a, b) != Index(g, x, y) {
        IndexInjective(g, a, b, x, y);
      }
    }
    g'
  }

  /** `swap`: exchanges two cells and leaves every other cell unchanged. */
  function Swap<T>(g: Grid<T>, x: int, y: int, xx: int, yy: int): (g': Grid<T>)
    requires Valid(g) && InBounds(g, x, y) && InBounds(g, xx, yy)
    ensures Valid(g') && g'.width == g.width && g'.height == g.height
    ensures Get(g', x, y) == Get(g, xx, yy) && Get(g', xx, yy) == Get(g, x, y)
    ensures forall a, b :: InBounds(g, a, b) && (a != x || b != y) && (a != xx || b != yy) ==>
      Get(g', a, b) == Get(g, a, b)
  {
    var p, q := Get(g, x, y), Get(g, xx, yy);
    Set(Set(g, x, y, q), xx, yy, p)
  }

  /** Two grids of equal shape that agree on every cell are equal. */
  lemma Extensionality<T>(g: Grid<T>, h: Grid<T>)
    requires Valid(g) && Valid(h) && g.width == h.width && g.height == h.height
    requires forall a, b :: InBounds(g, a, b) ==> Get(g, a, b) == Get(h, a, b)
    ensures g == h
  {
    forall i | 0 <= i < |g.data| ensures g.data[i] == h.data[i] {
      RowMajorSurjective(g.width, g.height, i);
      var x, y := i % g.width, i / g.width;
      assert Index(g, x, y) == i && Index(h, x, y) == i;
      assert Get(g, x, y) == Get(h, x, y);
    }
  }

  lemma SwapTwiceIsIdentity<T>(g: Grid<T>, x: int, y: int, xx: int, yy: int)
    requires Valid(g) && InBounds(g, x, y) && InBounds(g, xx, yy)
    ensures Swap(Swap(g, x, y, xx, yy), x, y, xx, yy) == g
  {
    Extensionality(Swap(Swap(g, x, y, xx, yy), x, y, xx, yy), g);
  }

  lemma SwapSelfIsIdentity<T>(g: Grid<T>, x: int, y: int)
    requires Valid(g) && InBounds(g, x, y)
    ensures Swap(g, x, y, x, y) == g
  {
    Extensionality(Swap(g, x, y, x, y), g);
  }

  /** The multiset of `f`-images of the elements of `s` (`f` picks, for
      instance, a particle's type tag). */
  ghost function Bag<T, U>(s: seq<T>, f: T -> U): multiset<U>
    decreases |s|
  {
    if |s| == 0 then multiset{} else Bag(s[..|s| - 1], f) + multiset{f(s[|s| - 1])}
  }

  /** Overwriting one element trades its image for the new one. */
  lemma {:induction false} BagUpdate<T, U>(s: seq<T>, i: int, v: T, f: T -> U)
    requires 0 <= i < |s|
    ensures Bag(s[i := v], f) + multiset{f(s[i])} == Bag(s, f) + multiset{f(v)}
    decreases |s|
  {
    var n := |s| - 1;
    if i == n {
      assert s[i := v][..n] == s[..n];
    } else {
      var t := s[i := v];
      assert t[..n] == s[..n][i := v] && t[n] == s[n];
      BagUpdate(s[..n], i, v, f);
      assert Bag(t, f) == Bag(t[..n], f) + multiset{f(t[n])};
      assert Bag(s, f) == Bag(s[..n], f) + multiset{f(s[n])};
    }
  }

  /** `swap` permutes the cells, so it keeps every multiset of cell images. */
  lemma SwapKeepsBag<T, U>(g: Grid<T>, x: int, y: int, xx: int, yy: int, f: T -> U)
    requires Valid(g) && InBounds(g, x, y) && InBounds(g, xx, yy)
    ensures Bag(Swap(g, x, y, xx, yy).data, f) == Bag(g.data, f)
  {
    var p, q := Get(g, x, y), Get(g, xx, yy);
    var g1 := Set(g, x, y, q);
    SetBag(g, x, y, q, f);
    SetBag(g1, xx, yy, p, f);
    assert Get(g1, xx, yy) == q;
    assert Swap(g, x, y, xx, yy) == Set(g1, xx, yy, p);
    Cancel(Bag(Swap(g, x, y, xx, yy).data, f), Bag(g.data, f), f(q));
  }

  /** A write that keeps a cell's image keeps the multiset of images. */
  lemma SetKeepsBag<T, U>(g: Grid<T>, x: int, y: int, v: T, f: T -> U)
    requires Valid(g) && InBounds(g, x, y) && f(v) == f(Get(g, x, y))
    ensures Bag(Set(g, x, y, v).data, f) == Bag(g.data, f)
  {
    SetBag(g, x, y, v, f);
    Cancel(Bag(Set(g, x, y, v).data, f), Bag(g.data, f), f(v));
  }

  lemma Cancel<U>(a: multiset<U>, b: multiset<U>, e: U)
    requires a + multiset{e} == b + multiset{e}
    ensures a == b
  {
    forall u ensures a[u] == b[u] {
      assert (a + multiset{e})[u] == (b + multiset{e})[u];
    }
  }

  lemma SetBag<T, U>(g: Grid<T>, x: int, y: int, v: T, f: T -> U)
    requires Valid(g) && InBounds(g, x, y)
    ensures Bag(Set(g, x, y, v).data, f) + multiset{f(Get(g, x, y))} == Bag(g.data, f) + multiset{f(v)}
  {
    var i := Index(g, x, y);
    assert Set(g, x, y, v).data == g.data[i := v];
    assert Get(g, x, y) == g.data[i];
    BagUpdate(g.data, i, v, f);
  }
}

=== FILE: intrect.dfy ===
/** The int `Rect` of the flat-grid revision. It shares the box, `contains`,
    `intersects`, `is_empty` and `include(const Rect&)` with `DirtyRect`
    (the bodies are the same); this module adds its constructors, the
    radius form of `include`, `extend_by`, `fit`, `reset`, `clear` and an
    intersection without precondition. */
module IntRect {
  import opened DirtyRect

  /** Chebyshev (chessboard) distance between two cells. */
  function Chebyshev(x: int, y: int, px: int, py: int): nat {
    var dx := if px >= x then px - x else x - px;
    var dy := if py >= y then py - y else y - py;
    if dx >= dy then dx else dy
  }

  /** The default constructor: the single cell (0, 0). */
  function Default(): (r: Rect)
    ensures !IsEmpty(r)
    ensures forall x, y :: Contains(r, x, y) <==> x == 0 && y == 0
  {
    Rect(0, 0, 0, 0)
  }

  /** `reset(w, h)`, also what the `(w, h)` constructor does: the whole w x h area. */
  function ResetTo(w: int, h: int): (r: Rect)
    ensures forall x, y :: Contains(r, x, y) <==> 0 <= x < w && 0 <= y < h
  {
    Rect(0, 0, w - 1, h - 1)
  }

  /** `include(x, y, r)`: grow to cover every cell within Chebyshev distance `rad` of (x, y). */
  function IncludeRadius(r: Rect, x: int, y: int, rad: int): (u: Rect)
    ensures Encloses(u, r)
    ensures forall px, py :: Contains(r, px, py) ==> Contains(u, px, py)
    ensures rad >= 0 ==> forall px, py :: Chebyshev(x, y, px, py) <= rad ==> Contains(u, px, py)
  {
    Rect(Min(r.left, x - rad), Min(r.top, y - rad), Max(r.right, x + rad), Max(r.bottom, y + rad))
  }

  /** `extend_by(d)`: push every side outward by `d` (inward when negative). */
  function ExtendBy(r: Rect, d: int): (u: Rect)
    ensures Width(u) == Width(r) + 2 * d && Height(u) == Height(r) + 2 * d
    ensures d >= 0 ==> Encloses(u, r)
    ensures d >= 0 ==> forall px, py :: Contains(r, px, py) ==> Contains(u, px, py)
  {
    Rect(r.left - d, r.top - d, r.right + d, r.bottom + d)
  }

  lemma ExtendByRoundTrip(r: Rect, d: int)
    ensures ExtendBy(ExtendBy(r, d), -d) == r
  {
  }

  /** `fit(w, h)`: clip to the w x h area. */
  function Fit(r: Rect, w: int, h: int): (u: Rect)
    ensures forall x, y :: Contains(u, x, y) <==> Contains(r, x, y) && 0 <= x < w && 0 <= y < h
    ensures Encloses(r, u)
  {
    Rect(Max(r.left, 0), Max(r.top, 0), Min(r.right, w - 1), Min(r.bottom, h - 1))
  }

  lemma FitIdempotent(r: Rect, w: int, h: int)
    ensures Fit(Fit(r, w, h), w, h) == Fit(r, w, h)
  {
  }

  /** `clear(w, h)`: the inverted box (w-1, h-1, -1, -1). */
  function Clear(w: int, h: int): (r: Rect)
    ensures IsEmpty(r) <==> w >= 1 || h >= 1
    ensures w <= 0 && h <= 0 ==> Contains(r, -1, -1)
  {
    Rect(w - 1, h - 1, -1, -1)
  }

  /** `intersection` of util.cpp: no precondition; empty when the operands do not intersect. */
  function Intersection(r: Rect, o: Rect): (i: Rect)
    ensures forall x, y :: Contains(i, x, y) <==> Contains(r, x, y) && Contains(o, x, y)
    ensures !Intersects(r, o) ==> IsEmpty(i)
    ensures Intersects(r, o) ==> i == DirtyRect.Intersection(r, o)
  {
    Rect(Max(r.left, o.left), Max(r.top, o.top), Min(r.right, o.right), Min(r.bottom, o.bottom))
  }

  /** Fitting to w x h is intersecting with the `reset(w, h)` box. */
  lemma FitIsIntersectionWithArea(r: Rect, w: int, h: int)
    ensures Fit(r, w, h) == Intersection(r, ResetTo(w, h))
  {
  }
}

=== FILE: materials.dfy ===
/** The material tag, `ParticleType`, with the numeric values of the
    enumeration in particle.hpp and simulation.hpp (None = 0 ... Fire = 4). */
module Materials {

  datatype Material = None | Sand | Water | Wood | Fire

  /** The enumerator's numeric value: None = 0, Sand = 1, Water = 2, Wood = 3 and
      Fire = 4, so distinct materials have distinct codes. */
  function Code(m: Material): (c: bv8)
    ensures c < 5
    ensures m == None <==> c == 0
    ensures m == Sand <==> c == 1
    ensures m == Water <==> c == 2
    ensures m == Wood <==> c == 3
    ensures m == Fire <==> c == 4
  {
    match m
    case None => 0
    case Sand => 1
    case Water => 2
    case Wood => 3
    case Fire => 4
  }
}

=== FILE: oldworld.dfy ===
/** The single-grid `World` of world.cpp: one SIZE x SIZE grid of cells, a
    sweep that clears every "updated" flag and then visits the rows bottom
    to top, alternating the column direction from tick to tick, and the
    sand rule. */
module SingleGridWorld {
  import opened Grids
  import opened Materials
  import opened Arith

  /** The fields of a cell the modelled rules read or write. */
  datatype Cell = Cell(pt: Material, updated: bool, vy: int)

  function Tag(c: Cell): Material { c.pt }

  /** The grid is SIZE x SIZE. */
  predicate Square(g: Grid<Cell>) {
    Grids.Valid(g) && g.width == g.height
  }

  /** C++ integer `/= 2`: the quotient truncated toward zero. */
  function Half(v: int): (h: int)
    ensures 2 * h == v || 2 * h == v - 1 || 2 * h == v + 1
    ensures v >= 0 ==> 0 <= h <= v
    ensures v <= 0 ==> v <= h <= 0
  {
    TruncDiv(v, 2)
  }

  /** What sand may move into. */
  predicate SandCanEnter(m: Material) {
    m == None || m == Water
  }

  /** Where `update_sand` sends the particle at (x, y): (column, row, fell straight down). */
  datatype Dest = Dest(x: int, y: int, falling: bool)

  /** The destination rule as world.cpp:121-134 writes it: the down-right test
      compares the cell against `None` twice, so sand cannot sink into water there. */
  function SandDestAsWritten(g: Grid<Cell>, x: int, y: int): Dest
    requires Grids.Valid(g) && InBounds(g, x, y)
  {
    var yy := y + 1;
    if yy < g.height then
      if SandCanEnter(Get(g, x, yy).pt) then Dest(x, yy, true)
      else if x - 1 >= 0 && SandCanEnter(Get(g, x - 1, yy).pt) then Dest(x - 1, yy, false)
      else if x + 1 < g.width && (Get(g, x + 1, yy).pt == None || Get(g, x + 1, yy).pt == None)
      then Dest(x + 1, yy, false)
      else Dest(x, y, false)
    else Dest(x, y, false)
  }

  /** The destination rule with the down-right test made symmetric with the down-left one. */
  function SandDest(g: Grid<Cell>, x: int, y: int): Dest
    requires Grids.Valid(g) && InBounds(g, x, y)
  {
    var yy := y + 1;
    if yy < g.height then
      if SandCanEnter(Get(g, x, yy).pt) then Dest(x, yy, true)
      else if x - 1 >= 0 && SandCanEnter(Get(g, x - 1, yy).pt) then Dest(x - 1, yy, false)
      else if x + 1 < g.width && SandCanEnter(Get(g, x + 1, yy).pt) then Dest(x + 1, yy, false)
      else Dest(x, y, false)
    else Dest(x, y, false)
  }

  /** One of the three cells below (x, y) that sand can sink into. */
  predicate SandTarget(g: Grid<Cell>, x: int, y: int, tx: int)
    requires Grids.Valid(g)
  {
    x - 1 <= tx <= x + 1 && InBounds(g, tx, y + 1) && SandCanEnter(Get(g, tx, y + 1).pt)
  }

  /** The destination stays put exactly when none of the three cells below can be entered;
      otherwise it is one row down, at most one column aside, in bounds and enterable,
      straight down is preferred, then down-left, and `falling` means straight down. */
  lemma SandDestSpec(g: Grid<Cell>, x: int, y: int)
    requires Grids.Valid(g) && InBounds(g, x, y)
    ensures var d := SandDest(g, x, y);
      && (d.x == x && d.y == y <==> forall tx :: !SandTarget(g, x, y, tx))
      && (d.x != x || d.y != y ==> d.y == y + 1 && SandTarget(g, x, y, d.x))
      && (d.falling <==> d.y == y + 1 && d.x == x)
      && (SandTarget(g, x, y, x) ==> d.x == x)
      && (SandTarget(g, x, y, x - 1) ==> d.x <= x)
  {
    var d := SandDest(g, x, y);
    if d.x == x && d.y == y {
      forall tx ensures !SandTarget(g, x, y, tx) {
      }
    } else {
      assert SandTarget(g, x, y, d.x);
    }
  }

  /** The as-written rule leaves sand in place that could sink into the water below-right:
      sand at (1, 0) on a 3 x 2 grid, sand below and below-left, water below-right. */
  lemma SandDestAsWrittenSkipsWater()
    ensures var g := Grid(3, 2, [Cell(Wood, false, 0), Cell(Sand, false, 0), Cell(None, false, 0),
                                 Cell(Sand, false, 0), Cell(Sand, false, 0), Cell(Water, false, 0)]);
      && SandDestAsWritten(g, 1, 0) == Dest(1, 0, false)
      && SandDest(g, 1, 0) == Dest(2, 1, false)
      && SandTarget(g, 1, 0, 2)
  {
    var g := Grid(3, 2, [Cell(Wood, false, 0), Cell(Sand, false, 0), Cell(None, false, 0),
                         Cell(Sand, false, 0), Cell(Sand, false, 0), Cell(Water, false, 0)]);
    assert Get(g, 1, 1).pt == Sand && Get(g, 0, 1).pt == Sand && Get(g, 2, 1).pt == Water;
  }

  /** The two rules agree except where the cell below-right holds water. */
  lemma SandDestsAgreeOffWater(g: Grid<Cell>, x: int, y: int)
    requires Grids.Valid(g) && InBounds(g, x, y)
    requires !(InBounds(g, x + 1, y + 1) && Get(g, x + 1, y + 1).pt == Water)
    ensures SandDestAsWritten(g, x, y) == SandDest(g, x, y)
  {
  }

  /** The move of world.cpp:135-138: swap with the destination unless it is the
      origin, then halve `vel.y` at the destination unless the particle fell straight down. */
  function ApplyMove(g: Grid<Cell>, x: int, y: int, d: Dest): (g': Grid<Cell>)
    requires Grids.Valid(g) && InBounds(g, x, y) && InBounds(g, d.x, d.y)
    ensures Grids.Valid(g') && g'.width == g.width && g'.height == g.height
  {
    var g1 := if x != d.x || y != d.y then Swap(g, x, y, d.x, d.y) else g;
    if d.falling then g1
    else
      var c := Get(g1, d.x, d.y);
      Set(g1, d.x, d.y, c.(vy := Half(c.vy)))
  }

  lemma SandDestInBounds(g: Grid<Cell>, x: int, y: int)
    requires Grids.Valid(g) && InBounds(g, x, y)
    ensures InBounds(g, SandDest(g, x, y).x, SandDest(g, x, y).y)
    ensures InBounds(g, SandDestAsWritten(g, x, y).x, SandDestAsWritten(g, x, y).y)
  {
  }

  /** `update_sand(x, y)` with the corrected down-right test. */
  function UpdateSand(g: Grid<Cell>, x: int, y: int): (g': Grid<Cell>)
    requires Grids.Valid(g) && InBounds(g, x, y)
    ensures Grids.Valid(g') && g'.width == g.width && g'.height == g.height
  {
    SandDestInBounds(g, x, y);
    ApplyMove(g, x, y, SandDest(g, x, y))
  }

  /** `update_sand` with the down-right test as written. */
  function UpdateSandAsWritten(g: Grid<Cell>, x: int, y: int): (g': Grid<Cell>)
    requires Grids.Valid(g) && InBounds(g, x, y)
    ensures Grids.Valid(g') && g'.width == g.width && g'.height == g.height
  {
    SandDestInBounds(g, x, y);
    ApplyMove(g, x, y, SandDestAsWritten(g, x, y))
  }

  /** A move exchanges origin and destination and changes no other cell; the moved
      particle keeps its tag and flag, and its `vel.y` is halved unless it fell straight down. */
  lemma ApplyMoveSpec(g: Grid<Cell>, x: int, y: int, d: Dest)
    requires Grids.Valid(g) && InBounds(g, x, y) && InBounds(g, d.x, d.y)
    ensures var g' := ApplyMove(g, x, y, d);
      && Get(g', d.x, d.y) == Get(g, x, y).(vy := if d.falling then Get(g, x, y).vy else Half(Get(g, x, y).vy))
      && ((d.x != x || d.y != y) ==> Get(g', x, y) == Get(g, d.x, d.y))
      && (forall a, b :: InBounds(g, a, b) && (a != x || b != y) && (a != d.x || b != d.y) ==>
            Get(g', a, b) == Get(g, a, b))
  {
  }

  /** A move conserves the multiset of material tags. */
  lemma ApplyMoveConservesTags(g: Grid<Cell>, x: int, y: int, d: Dest)
    requires Grids.Valid(g) && InBounds(g, x, y) && InBounds(g, d.x, d.y)
    ensures Bag(ApplyMove(g, x, y, d).data, Tag) == Bag(g.data, Tag)
  {
    var g1 := if x != d.x || y != d.y then Swap(g, x, y, d.x, d.y) else g;
    if x != d.x || y != d.y {
      SwapKeepsBag(g, x, y, d.x, d.y, Tag);
    }
    if !d.falling {
      var c := Get(g1, d.x, d.y);
      SetKeepsBag(g1, d.x, d.y, c.(vy := Half(c.vy)), Tag);
    }
  }

  /** `update_sand` changes only the origin and a destination below it that held None or Water,
      and keeps the multiset of tags. */
  lemma UpdateSandSpec(g: Grid<Cell>, x: int, y: int)
    requires Grids.Valid(g) && InBounds(g, x, y)
    ensures var g', d := UpdateSand(g, x, y), SandDest(g, x, y);
      && ((d.x == x && d.y == y) || (d.y == y + 1 && x - 1 <= d.x <= x + 1 && SandCanEnter(Get(g, d.x, d.y).pt)))
      && Get(g', d.x, d.y).pt == Get(g, x, y).pt
      && (forall a, b :: InBounds(g, a, b) && (a != x || b != y) && (a != d.x || b != d.y) ==>
            Get(g', a, b) == Get(g, a, b))
      && Bag(g'.data, Tag) == Bag(g.data, Tag)
  {
    SandDestSpec(g, x, y);
    SandDestInBounds(g, x, y);
    ApplyMoveSpec(g, x, y, SandDest(g, x, y));
    ApplyMoveConservesTags(g, x, y, SandDest(g, x, y));
  }

  /** `update_sand` as written: the same frame and conservation, but the particle moves
      down-right only into an empty cell, never into water. */
  lemma UpdateSandAsWrittenSpec(g: Grid<Cell>, x: int, y: int)
    requires Grids.Valid(g) && InBounds(g, x, y)
    ensures var g', d := UpdateSandAsWritten(g, x, y), SandDestAsWritten(g, x, y);
      && ((d.x == x && d.y == y) || (d.y == y + 1 && x - 1 <= d.x <= x + 1 && SandCanEnter(Get(g, d.x, d.y).pt)))
      && (d.x == x + 1 ==> Get(g, d.x, d.y).pt == None)
      && Get(g', d.x, d.y).pt == Get(g, x, y).pt
      && (forall a, b :: InBounds(g, a, b) && (a != x || b != y) && (a != d.x || b != d.y) ==>
            Get(g', a, b) == Get(g, a, b))
      && Bag(g'.data, Tag) == Bag(g.data, Tag)
  {
    SandDestInBounds(g, x, y);
    ApplyMoveSpec(g, x, y, SandDestAsWritten(g, x, y));
    ApplyMoveConservesTags(g, x, y, SandDestAsWritten(g, x, y));
  }

  /** The two sand updates give the same grid unless the cell below-right holds water. */
  lemma UpdateSandsAgreeOffWater(g: Grid<Cell>, x: int, y: int)
    requires Grids.Valid(g) && InBounds(g, x, y)
    requires !(InBounds(g, x + 1, y + 1) && Get(g, x + 1, y + 1).pt == Water)
    ensures UpdateSandAsWritten(g, x, y) == UpdateSand(g, x, y)
  {
    SandDestsAgreeOffWater(g, x, y);
  }

  /** A step of the water rule, which runs on a float flow velocity and is not part of this
      model: any step that keeps the grid's shape. */
  type WaterStep = (Grid<Cell>, int, int) -> Grid<Cell>

  ghost predicate KeepsShape(water: WaterStep) {
    forall g: Grid<Cell>, x: int, y: int :: Grids.Valid(g) && InBounds(g, x, y) ==>
      Grids.Valid(water(g, x, y)) && water(g, x, y).width == g.width && water(g, x, y).height == g.height
  }

  /** `update_particle(x, y)`. */
  function UpdateParticle(g: Grid<Cell>, x: int, y: int, water: WaterStep): (g': Grid<Cell>)
    requires Grids.Valid(g) && InBounds(g, x, y) && KeepsShape(water)
    ensures Grids.Valid(g') && g'.width == g.width && g'.height == g.height
  {
    var c := Get(g, x, y);
    if c.updated then g
    else
      var g1 := Set(g, x, y, c.(updated := true));
      match c.pt
      case Sand => UpdateSand(g1, x, y)
      case Water => water(g1, x, y)
      case _ => g1
  }

  /** An updated cell is left alone; otherwise the flag is set first, Wood, Fire and empty
      cells change in nothing else, and a sand particle carries the set flag to its destination. */
  lemma UpdateParticleSpec(g: Grid<Cell>, x: int, y: int, water: WaterStep)
    requires Grids.Valid(g) && InBounds(g, x, y) && KeepsShape(water)
    ensures Get(g, x, y).updated ==> UpdateParticle(g, x, y, water) == g
    ensures !Get(g, x, y).updated && Get(g, x, y).pt in {None, Wood, Fire} ==>
      UpdateParticle(g, x, y, water) == Set(g, x, y, Get(g, x, y).(updated := true))
    ensures !Get(g, x, y).updated && Get(g, x, y).pt == Sand ==>
      var g1 := Set(g, x, y, Get(g, x, y).(updated := true));
      var d := SandDest(g1, x, y);
      Get(UpdateParticle(g, x, y, water), d.x, d.y).updated &&
      Get(UpdateParticle(g, x, y, water), d.x, d.y).pt == Sand
  {
    var c := Get(g, x, y);
    if !c.updated && c.pt == Sand {
      var g1 := Set(g, x, y, c.(updated := true));
      SandDestInBounds(g1, x, y);
      ApplyMoveSpec(g1, x, y, SandDest(g1, x, y));
    }
  }

  /** The loop of world.cpp:35-37. */
  function ClearFlags(g: Grid<Cell>): (g': Grid<Cell>)
    requires Grids.Valid(g)
    ensures Grids.Valid(g') && g'.width == g.width && g'.height == g.height
    ensures forall x, y :: InBounds(g, x, y) ==> Get(g', x, y) == Get(g, x, y).(updated := false)
  {
    Grid(g.width, g.height, seq(|g.data|, i requires 0 <= i < |g.data| => g.data[i].(updated := false)))
  }

  /** `update_particle` applied at each position in turn. */
  function Sweep(g: Grid<Cell>, order: seq<(int, int)>, water: WaterStep): (g': Grid<Cell>)
    requires Grids.Valid(g) && KeepsShape(water)
    requires forall k :: 0 <= k < |order| ==> InBounds(g, order[k].0, order[k].1)
    ensures Grids.Valid(g') && g'.width == g.width && g'.height == g.height
    decreases |order|
  {
    if |order| == 0 then g
    else Sweep(UpdateParticle(g, order[0].0, order[0].1, water), order[1..], water)
  }

  lemma {:induction false} SweepSnoc(g: Grid<Cell>, order: seq<(int, int)>, p: (int, int), water: WaterStep)
    requires Grids.Valid(g) && KeepsShape(water)
    requires forall k :: 0 <= k < |order| ==> InBounds(g, order[k].0, order[k].1)
    requires InBounds(g, p.0, p.1)
    ensures Sweep(g, order + [p], water) == UpdateParticle(Sweep(g, order, water), p.0, p.1, water)
    decreases |order|
  {
    if |order| == 0 {
      assert order + [p] == [p];
    } else {
      assert (order + [p])[1..] == order[1..] + [p];
      SweepSnoc(UpdateParticle(g, order[0].0, order[0].1, water), order[1..], p, water);
    }
  }

  /** The scan order of one tick: rows bottom to top; within a row, columns left to right
      when `leftToRight`, else right to left. */
  predicate ScanBefore(p: (int, int), q: (int, int), leftToRight: bool) {
    p.1 > q.1 || (p.1 == q.1 && (if leftToRight then p.0 < q.0 else p.0 > q.0))
  }

  datatype OldWorld = OldWorld(grid: Grid<Cell>, passDir: int)

  /** `update()`: clear every flag, sweep the grid in scan order, negate the direction.
      `order` is the sequence of positions handed to `update_particle`. */
  method Update(w: OldWorld, water: WaterStep) returns (w': OldWorld, order: seq<(int, int)>)
    requires Square(w.grid) && KeepsShape(water)
    ensures Square(w'.grid) && w'.grid.width == w.grid.width
    ensures w'.passDir == -w.passDir
    ensures forall k :: 0 <= k < |order| ==> InBounds(w.grid, order[k].0, order[k].1)
    ensures forall x, y :: InBounds(w.grid, x, y) ==> (x, y) in order
    ensures forall k, k' :: 0 <= k < k' < |order| ==> ScanBefore(order[k], order[k'], w.passDir > 0)
    ensures w'.grid == Sweep(ClearFlags(w.grid), order, water)
  {
    order := ScanOrder(w.grid.width, w.passDir > 0);
    var g := Sweep(ClearFlags(w.grid), order, water);
    w' := OldWorld(g, -w.passDir);
  }

  /** The positions the two nested loops of `update()` visit, in order. */
  method ScanOrder(n: nat, leftToRight: bool) returns (order: seq<(int, int)>)
    ensures forall k :: 0 <= k < |order| ==> 0 <= order[k].0 < n && 0 <= order[k].1 < n
    ensures forall x, y :: 0 <= x < n && 0 <= y < n ==> (x, y) in order
    ensures forall k, k' :: 0 <= k < k' < |order| ==> ScanBefore(order[k], order[k'], leftToRight)
  {
    order := [];
    var y: int := n - 1;
    while y >= 0
      invariant -1 <= y <= n - 1
      invariant forall k :: 0 <= k < |order| ==> 0 <= order[k].0 < n && y < order[k].1 < n
      invariant forall a, b :: 0 <= a < n && y < b < n ==> (a, b) in order
      invariant forall k, k' :: 0 <= k < k' < |order| ==> ScanBefore(order[k], order[k'], leftToRight)
    {
      var row := ScanRow(n, leftToRight, y);
      ConcatInScanOrder(order, row, leftToRight);
      order := order + row;
      forall a | 0 <= a < n ensures (a, y) in order {
        assert row[ColumnStep(n, leftToRight, a)] == (a, y);
      }
      y := y - 1;
    }
  }

  /** The inner loop of `update()` for row y. */
  method ScanRow(n: nat, leftToRight: bool, y: int) returns (row: seq<(int, int)>)
    ensures |row| == n
    ensures forall i :: 0 <= i < n ==> row[i] == (Column(n, leftToRight, i), y)
    ensures forall k, k' :: 0 <= k < k' < |row| ==> ScanBefore(row[k], row[k'], leftToRight)
  {
    row := [];
    var i := 0;
    while i < n
      invariant 0 <= i <= n && |row| == i
      invariant forall i' :: 0 <= i' < i ==> row[i'] == (Column(n, leftToRight, i'), y)
    {
      row := row + [(Column(n, leftToRight, i), y)];
      i := i + 1;
    }
  }

  lemma ConcatInScanOrder(a: seq<(int, int)>, b: seq<(int, int)>, leftToRight: bool)
    requires forall k, k' :: 0 <= k < k' < |a| ==> ScanBefore(a[k], a[k'], leftToRight)
    requires forall k, k' :: 0 <= k < k' < |b| ==> ScanBefore(b[k], b[k'], leftToRight)
    requires forall k, k' :: 0 <= k < |a| && 0 <= k' < |b| ==> a[k].1 > b[k'].1
    ensures forall k, k' :: 0 <= k < k' < |a + b| ==> ScanBefore((a + b)[k], (a + b)[k'], leftToRight)
  {
  }

  /** The column visited at step i of a row. */
  function Column(n: int, leftToRight: bool, i: int): int {
    if leftToRight then i else n - 1 - i
  }

  /** The step at which column a is visited. */
  function ColumnStep(n: int, leftToRight: bool, a: int): (i: int)
    ensures Column(n, leftToRight, i) == a
    ensures 0 <= a < n ==> 0 <= i < n
  {
    if leftToRight then a else n - 1 - a
  }

  /** No position appears twice in a scan order. */
  lemma ScanVisitsOnce(order: seq<(int, int)>, leftToRight: bool, k: int, k': int)
    requires forall i, j :: 0 <= i < j < |order| ==> ScanBefore(order[i], order[j], leftToRight)
    requires 0 <= k < k' < |order|
    ensures order[k] != order[k']
  {
  }
}

=== FILE: particle.dfy ===
/** The bit-packed `Particle` of particle.hpp: one byte whose low seven bits
    hold the material code and whose top bit is the "updated this tick"
    flag, plus a payload that only the matching material gives a meaning. */
module PackedParticle {
  import opened Materials

  /** The union `as`; `NoPayload` where the union is left uninitialised. */
  datatype Payload =
    | NoPayload
    | SandState(vy: int)          // uint16_t
    | WaterState(flowDir: int)    // int8_t
    | FireState(lifetime: int)    // uint16_t, milliseconds

  datatype Particle = Particle(bits: bv8, payload: Payload)

  const UpdatedBit: bv8 := 1 << 7

  /** The private constructor `Particle(tp, been_updated)`. */
  function Pack(tp: bv8, updated: bool): Particle {
    var flag: bv8 := if updated then 1 else 0;
    Particle(tp | (flag << 7), NoPayload)
  }

  /** `type()`: the byte with the flag bit masked off. */
  function TypeBits(p: Particle): bv8 {
    p.bits & !UpdatedBit
  }

  /** `been_updated()`. */
  predicate BeenUpdated(p: Particle) {
    p.bits & UpdatedBit != 0
  }

  /** `is<T>()`. */
  predicate Is(p: Particle, m: Material) {
    TypeBits(p) == Code(m)
  }

  /** `set_updated<b>()`: sets or clears the flag and keeps the material and payload. */
  function SetUpdated(p: Particle, b: bool): (q: Particle)
    ensures BeenUpdated(q) == b
    ensures TypeBits(q) == TypeBits(p) && q.payload == p.payload
  {
    assert UpdatedBit == 0x80 && !UpdatedBit == 0x7f;
    if b then p.(bits := p.bits | UpdatedBit) else p.(bits := p.bits & !UpdatedBit)
  }

  /** The public default constructor: material None, not updated. */
  function Default(): (p: Particle)
    ensures Is(p, None) && !BeenUpdated(p)
  {
    PackRoundTrip(Code(None), false);
    Pack(Code(None), false)
  }

  /** `create<T>()`: the material's tag, flag clear, payload at the material's default. */
  function Create(m: Material): (p: Particle)
    ensures Is(p, m) && !BeenUpdated(p)
    ensures m == Sand ==> p.payload == SandState(0)
    ensures m == Water ==> p.payload == WaterState(-1)
    ensures m == Fire ==> p.payload == FireState(4000)
  {
    PackRoundTrip(Code(m), false);
    match m
    case None => Default()
    case Sand => Pack(Code(Sand), false).(payload := SandState(0))
    case Water => Pack(Code(Water), false).(payload := WaterState(-1))
    case Wood => Pack(Code(Wood), false)
    case Fire => Pack(Code(Fire), false).(payload := FireState(4000))
  }

  /** Packing a 7-bit code reads back the same code and flag. */
  lemma PackRoundTrip(tp: bv8, updated: bool)
    requires tp < 128
    ensures TypeBits(Pack(tp, updated)) == tp
    ensures BeenUpdated(Pack(tp, updated)) == updated
  {
    PackAnyCode(tp, updated);
  }

  /** For any code, the type reads back with bit 7 dropped, and a code with bit 7 set reads as updated. */
  lemma PackAnyCode(tp: bv8, updated: bool)
    ensures TypeBits(Pack(tp, updated)) == tp & 0x7f
    ensures BeenUpdated(Pack(tp, updated)) <==> updated || tp >= 128
  {
    var b: bv8 := if updated then 0x80 else 0;
    var one: bv8 := if updated then 1 else 0;
    assert one << 7 == b;
    assert Pack(tp, updated).bits == tp | b;
    assert UpdatedBit == 0x80;
    assert !UpdatedBit == 0x7f;
    assert (tp | b) & 0x7f == tp & 0x7f;
    assert (tp | b) & 0x80 != 0 <==> updated || tp >= 128;
  }

  /** Decoding then re-packing a particle reproduces its byte. */
  lemma UnpackRoundTrip(p: Particle)
    ensures Pack(TypeBits(p), BeenUpdated(p)).bits == p.bits
  {
    var t := p.bits & 0x7f;
    var b: bv8 := if p.bits & 0x80 != 0 then 0x80 else 0;
    assert UpdatedBit == 0x80 && !UpdatedBit == 0x7f;
    assert t | b == p.bits;
    PackAnyCode(t, b != 0);
  }

  /** A particle is of at most one material. */
  lemma IsExclusive(p: Particle, m: Material, m': Material)
    requires Is(p, m) && Is(p, m')
    ensures m == m'
  {
  }
}

=== FILE: partitioner.dfy ===
/** `Partitioner`: the column and row boundaries of a chunk grid that is
    shifted by a (random) number of blocks, so that region borders move
    from tick to tick. Region k spans [bounds[k], bounds[k + 1] - 1]. */
module Partitioning {
  import opened Arith

  datatype Partitioner = Partitioner(
    width: int, height: int,
    chunkWidth: int, chunkHeight: int,
    blkWidth: int, blkHeight: int,
    xBounds: seq<int>, yBounds: seq<int>)

  /** The shape `shift` gives one boundary list: 0, then start, start + step, ...
      while below `limit`, then `limit`. */
  ghost predicate ShiftedBounds(b: seq<int>, start: int, step: int, limit: int) {
    && |b| >= 2
    && b[0] == 0
    && b[|b| - 1] == limit
    && (forall k :: 1 <= k < |b| - 1 ==> b[k] == start + (k - 1) * step && b[k] < limit)
    && start + (|b| - 2) * step >= limit
  }

  /** One of the two loops of `shift`. */
  method Bounds(start: int, step: int, limit: int) returns (b: seq<int>)
    requires step > 0
    ensures ShiftedBounds(b, start, step, limit)
  {
    b := [0];
    var i := start;
    while i < limit
      invariant |b| >= 1 && b[0] == 0
      invariant i == start + (|b| - 1) * step
      invariant forall k :: 1 <= k < |b| ==> b[k] == start + (k - 1) * step && b[k] < limit
      decreases limit - i
    {
      b := b + [i];
      i := i + step;
    }
    b := b + [limit];
  }

  /** `shift(offx, offy)`, measured in blocks. A chunk size of zero would make the source loop forever. */
  method Shift(p: Partitioner, offX: int, offY: int) returns (q: Partitioner)
    requires p.chunkWidth > 0 && p.chunkHeight > 0
    ensures q == p.(xBounds := q.xBounds, yBounds := q.yBounds)
    ensures ShiftedBounds(q.xBounds, p.blkWidth * offX, p.chunkWidth, p.width)
    ensures ShiftedBounds(q.yBounds, p.blkHeight * offY, p.chunkHeight, p.height)
  {
    var xs := Bounds(p.blkWidth * offX, p.chunkWidth, p.width);
    var ys := Bounds(p.blkHeight * offY, p.chunkHeight, p.height);
    q := p.(xBounds := xs, yBounds := ys);
  }

  /** The constructor: the sizes, then `shift(4, 4)`. */
  method New(width: int, height: int, chunkWidth: int, chunkHeight: int, blkWidth: int, blkHeight: int)
    returns (p: Partitioner)
    requires chunkWidth > 0 && chunkHeight > 0
    ensures p.width == width && p.height == height
    ensures p.chunkWidth == chunkWidth && p.chunkHeight == chunkHeight
    ensures p.blkWidth == blkWidth && p.blkHeight == blkHeight
    ensures ShiftedBounds(p.xBounds, blkWidth * 4, chunkWidth, width)
    ensures ShiftedBounds(p.yBounds, blkHeight * 4, chunkHeight, height)
  {
    p := Partitioner(width, height, chunkWidth, chunkHeight, blkWidth, blkHeight, [], []);
    p := Shift(p, 4, 4);
  }

  /** Boundaries that start at 0, end at `limit` and strictly increase. */
  ghost predicate IsPartition(b: seq<int>, limit: int) {
    && |b| >= 2
    && b[0] == 0
    && b[|b| - 1] == limit
    && (forall k :: 0 <= k < |b| - 1 ==> b[k] < b[k + 1])
  }

  /** With a positive first offset and a non-empty extent, `shift` yields strictly increasing bounds. */
  lemma ShiftedBoundsIncrease(b: seq<int>, start: int, step: int, limit: int)
    requires step > 0 && ShiftedBounds(b, start, step, limit)
    requires start > 0 && limit > 0
    ensures IsPartition(b, limit)
  {
    forall k | 0 <= k < |b| - 1 ensures b[k] < b[k + 1] {
      if k == 0 {
      } else if k + 1 < |b| - 1 {
        assert b[k + 1] == start + k * step;
        assert b[k] == start + (k - 1) * step;
        assert start + k * step == start + (k - 1) * step + step;
      }
    }
  }

  lemma SortedTransitive(b: seq<int>, limit: int, i: int, j: int)
    requires IsPartition(b, limit) && 0 <= i < j < |b|
    ensures b[i] < b[j]
    decreases j - i
  {
    if i + 1 < j {
      SortedTransitive(b, limit, i + 1, j);
    }
  }

  /** The region holding column x: the k with bounds[k] <= x < bounds[k + 1]. */
  function RegionOf(b: seq<int>, limit: int, x: int, from: nat): (k: nat)
    requires IsPartition(b, limit) && from < |b| - 1 && b[from] <= x < limit
    ensures from <= k < |b| - 1 && b[k] <= x < b[k + 1]
    decreases |b| - from
  {
    if x < b[from + 1] then from else RegionOf(b, limit, x, from + 1)
  }

  lemma RegionUnique(b: seq<int>, limit: int, x: int, k: int, k': int)
    requires IsPartition(b, limit)
    requires 0 <= k < |b| - 1 && b[k] <= x < b[k + 1]
    requires 0 <= k' < |b| - 1 && b[k'] <= x < b[k' + 1]
    ensures k == k'
  {
    if k + 1 < k' {
      SortedTransitive(b, limit, k + 1, k');
    } else if k' + 1 < k {
      SortedTransitive(b, limit, k' + 1, k);
    }
  }

  /** The regions of a partition are disjoint and cover [0, limit): each column lies in exactly one. */
  lemma RegionsTile(b: seq<int>, limit: int, x: int)
    requires IsPartition(b, limit) && 0 <= x < limit
    ensures exists k :: 0 <= k < |b| - 1 && b[k] <= x < b[k + 1]
    ensures forall k, k' ::
      (0 <= k < |b| - 1 && 0 <= k' < |b| - 1 && b[k] <= x < b[k + 1] && b[k'] <= x < b[k' + 1]) ==> k == k'
  {
    var r := RegionOf(b, limit, x, 0);
    forall k, k' | 0 <= k < |b| - 1 && 0 <= k' < |b| - 1 && b[k] <= x < b[k + 1] && b[k'] <= x < b[k' + 1]
      ensures k == k'
    {
      RegionUnique(b, limit, x, k, k');
    }
  }

  /** When the extent is a whole number `n` of steps and the start is not negative, there are at most n + 1 regions. */
  lemma RegionCount(b: seq<int>, start: int, step: int, n: nat)
    requires step > 0 && start >= 0 && ShiftedBounds(b, start, step, n * step)
    ensures |b| - 1 <= n + 1
  {
    if |b| >= 3 {
      var last := |b| - 2;
      assert b[last] == start + (last - 1) * step && b[last] < n * step;
      MulLt(last - 1, n, step);
    }
  }
}

=== FILE: rect.dfy ===
/** The dirty rectangle of the chunked revision: `Rect<int>`, an inclusive
    integer box. The empty state is the sentinel written by `Reset`, whose
    bounds are the extreme values of a 32-bit `int`. */
module DirtyRect {

  const IntMin: int := -0x8000_0000
  const IntMax: int := 0x7fff_ffff

  predicate IsInt32(v: int) { IntMin <= v <= IntMax }

  /** Inclusive box: a point (x, y) is inside iff left <= x <= right and top <= y <= bottom. */
  datatype Rect = Rect(left: int, top: int, right: int, bottom: int)

  predicate Contains(r: Rect, x: int, y: int) {
    r.left <= x <= r.right && r.top <= y <= r.bottom
  }

  predicate IsEmpty(r: Rect) {
    r.left > r.right || r.top > r.bottom
  }

  predicate Intersects(r: Rect, o: Rect) {
    o.right >= r.left && o.bottom >= r.top && o.left <= r.right && o.top <= r.bottom
  }

  /** `b` reaches at least as far as `r` on every side. */
  predicate Encloses(b: Rect, r: Rect) {
    b.left <= r.left && b.top <= r.top && b.right >= r.right && b.bottom >= r.bottom
  }

  function Min(a: int, b: int): int { if a <= b then a else b }
  function Max(a: int, b: int): int { if a >= b then a else b }

  /** `include(const Rect&)`: the smallest box enclosing both operands. */
  function IncludeRect(r: Rect, o: Rect): (u: Rect)
    ensures Encloses(u, r) && Encloses(u, o)
    ensures forall b: Rect :: Encloses(b, r) && Encloses(b, o) ==> Encloses(b, u)
    ensures forall x, y :: Contains(r, x, y) || Contains(o, x, y) ==> Contains(u, x, y)
  {
    Rect(Min(r.left, o.left), Min(r.top, o.top), Max(r.right, o.right), Max(r.bottom, o.bottom))
  }

  /** `include<false>(x, y)`: the smallest box enclosing `r` and the point. */
  function IncludePoint(r: Rect, x: int, y: int): (u: Rect)
    ensures Contains(u, x, y)
    ensures Encloses(u, r)
    ensures forall px, py :: Contains(r, px, py) ==> Contains(u, px, py)
    ensures forall b: Rect :: Encloses(b, r) && Contains(b, x, y) ==> Encloses(b, u)
  {
    Rect(Min(r.left, x), Min(r.top, y), Max(r.right, x), Max(r.bottom, y))
  }

  /** `include<with_neighbours>(x, y)`: with neighbours, the 3x3 block around the point is included. */
  function Include(r: Rect, x: int, y: int, withNeighbours: bool): (u: Rect)
    ensures Encloses(u, r) && Contains(u, x, y)
    ensures withNeighbours ==>
      forall px, py :: x - 1 <= px <= x + 1 && y - 1 <= py <= y + 1 ==> Contains(u, px, py)
  {
    if withNeighbours then IncludeRect(r, Rect(x - 1, y - 1, x + 1, y + 1))
    else IncludePoint(r, x, y)
  }

  /** `intersection`, whose assert demands that the operands intersect. */
  function Intersection(r: Rect, o: Rect): (i: Rect)
    requires Intersects(r, o)
    ensures forall x, y :: Contains(i, x, y) <==> Contains(r, x, y) && Contains(o, x, y)
    ensures !IsEmpty(r) && !IsEmpty(o) ==> !IsEmpty(i)
  {
    Rect(Max(r.left, o.left), Max(r.top, o.top), Min(r.right, o.right), Min(r.bottom, o.bottom))
  }

  /** `reset()`: left/top at the largest int, right/bottom at the smallest. */
  function Reset(): (r: Rect)
    ensures IsEmpty(r)
    ensures forall x, y :: !Contains(r, x, y)
    ensures forall x, y :: IsInt32(x) && IsInt32(y) ==> IncludePoint(r, x, y) == Rect(x, y, x, y)
  {
    Rect(IntMax, IntMax, IntMin, IntMin)
  }

  function Width(r: Rect): int { r.right - r.left + 1 }
  function Height(r: Rect): int { r.bottom - r.top + 1 }
  /** `area()`: a non-empty box has a positive area. */
  function Area(r: Rect): (a: int)
    ensures !IsEmpty(r) ==> a >= 1
  {
    Width(r) * Height(r)
  }

  /** `shared_area`: zero for disjoint boxes, else the area of their intersection.
      For two non-empty boxes it is positive exactly when they intersect. */
  function SharedArea(r: Rect, o: Rect): (s: int)
    ensures !Intersects(r, o) ==> s == 0
    ensures !IsEmpty(r) && !IsEmpty(o) ==> (s > 0 <==> Intersects(r, o))
  {
    if !Intersects(r, o) then 0 else Area(Intersection(r, o))
  }

  /** The set of cells a box covers. */
  ghost function Cells(r: Rect): set<(int, int)> {
    set x, y | r.left <= x <= r.right && r.top <= y <= r.bottom :: (x, y)
  }

  lemma CellsMeansContains(r: Rect, x: int, y: int)
    ensures (x, y) in Cells(r) <==> Contains(r, x, y)
  {
    if Contains(r, x, y) {
      assert (x, y) in Cells(r);
    }
  }

  lemma IntersectsSymmetric(r: Rect, o: Rect)
    ensures Intersects(r, o) <==> Intersects(o, r)
  {
  }

  /** A box is empty exactly when it contains no point. */
  lemma EmptyIffNoPoint(r: Rect)
    ensures IsEmpty(r) <==> forall x, y :: !Contains(r, x, y)
  {
    if !IsEmpty(r) {
      assert Contains(r, r.left, r.top);
    }
  }

  /** For non-empty boxes, `intersects` means that some point lies in both. */
  lemma IntersectsIffCommonPoint(r: Rect, o: Rect)
    requires !IsEmpty(r) && !IsEmpty(o)
    ensures Intersects(r, o) <==> exists x, y :: Contains(r, x, y) && Contains(o, x, y)
  {
    if Intersects(r, o) {
      var x, y := Max(r.left, o.left), Max(r.top, o.top);
      assert Contains(r, x, y) && Contains(o, x, y);
    }
  }

  /** The cells of one row segment [lo, hi] at height y. */
  ghost function RowCells(y: int, lo: int, hi: int): set<(int, int)> {
    set x | lo <= x <= hi :: (x, y)
  }

  lemma {:induction false} RowCellsCard(y: int, lo: int, hi: int)
    requires lo <= hi + 1
    ensures |RowCells(y, lo, hi)| == hi - lo + 1
    decreases hi - lo
  {
    if lo == hi + 1 {
      assert RowCells(y, lo, hi) == {};
    } else {
      RowCellsCard(y, lo, hi - 1);
      assert RowCells(y, lo, hi) == RowCells(y, lo, hi - 1) + {(hi, y)};
      assert (hi, y) !in RowCells(y, lo, hi - 1);
    }
  }

  lemma MulAddOne(a: int, b: int)
    ensures a * (b + 1) == a * b + a
  {
  }

  /** A non-empty box covers exactly `Area` cells. */
  lemma {:induction false} AreaCountsCells(r: Rect)
    requires r.left <= r.right + 1 && r.top <= r.bottom + 1
    ensures |Cells(r)| == Area(r)
    decreases r.bottom - r.top
  {
    if r.top == r.bottom + 1 {
      assert Cells(r) == {};
    } else {
      var s := Rect(r.left, r.top, r.right, r.bottom - 1);
      var row := RowCells(r.bottom, r.left, r.right);
      AreaCountsCells(s);
      RowCellsCard(r.bottom, r.left, r.right);
      forall c | c in Cells(r) ensures c in Cells(s) + row {
        if c.1 < r.bottom {
          assert c in Cells(s);
        } else {
          assert c in row;
        }
      }
      forall c | c in Cells(s) + row ensures c in Cells(r) {
      }
      assert Cells(r) == Cells(s) + row;
      assert Cells(s) !! row;
      calc {
        Area(r);
        Width(r) * (Height(s) + 1);
        { MulAddOne(Width(r), Height(s)); }
        Area(s) + Width(r);
      }
    }
  }

  /** For non-empty boxes, `shared_area` counts the cells the two boxes have in common. */
  lemma SharedAreaCountsCommonCells(r: Rect, o: Rect)
    requires !IsEmpty(r) && !IsEmpty(o)
    ensures SharedArea(r, o) == |Cells(r) * Cells(o)|
  {
    if Intersects(r, o) {
      var i := Intersection(r, o);
      AreaCountsCells(i);
      forall c | c in Cells(i) ensures c in Cells(r) * Cells(o) {
        CellsMeansContains(i, c.0, c.1);
        CellsMeansContains(r, c.0, c.1);
        CellsMeansContains(o, c.0, c.1);
      }
      forall c | c in Cells(r) * Cells(o) ensures c in Cells(i) {
        CellsMeansContains(i, c.0, c.1);
        CellsMeansContains(r, c.0, c.1);
        CellsMeansContains(o, c.0, c.1);
      }
      assert Cells(i) == Cells(r) * Cells(o);
    } else {
      forall c | c in Cells(r) * Cells(o) ensures false {
        CellsMeansContains(r, c.0, c.1);
        CellsMeansContains(o, c.0, c.1);
      }
      assert Cells(r) * Cells(o) == {};
    }
  }

  /** With an empty box as an operand, `shared_area` need not count common cells:
      the intersection keeps the empty box's inverted extent, so the product of its
      width and height can be negative, or positive when both are inverted, while
      no cell is shared. */
  lemma SharedAreaOfEmptyOperand()
    ensures var r, o := Rect(5, 0, 3, 10), Rect(0, 0, 10, 10);
      IsEmpty(r) && SharedArea(r, o) == -11 && Cells(r) * Cells(o) == {}
    ensures var r, o := Rect(5, 5, 3, 3), Rect(0, 0, 10, 10);
      IsEmpty(r) && SharedArea(r, o) == 1 && Cells(r) * Cells(o) == {}
  {
  }


  /** `contains(x, y)` implies `!is_empty()`. */
  lemma ContainsImpliesNonEmpty(r: Rect, x: int, y: int)
    requires Contains(r, x, y)
    ensures !IsEmpty(r)
  {
  }

  /** After `reset()`, `include<false>(x, y)` covers exactly the single cell (x, y). */
  lemma ResetThenIncludeIsPoint(x: int, y: int)
    requires IsInt32(x) && IsInt32(y)
    ensures IncludePoint(Reset(), x, y) == Rect(x, y, x, y)
    ensures forall px, py :: Contains(IncludePoint(Reset(), x, y), px, py) <==> px == x && py == y
  {
  }
}

=== FILE: scheduler.dfy ===
/** The four-group chunk scheduler of updatescheduler.cpp. Chunks are split by
    the parity of their coordinates into four queues; `run` processes the queues
    one after another, and no two chunks of one queue touch. The worker threads
    are replaced by one worker that drains each queue in order. */
module UpdateScheduling {
  /** `group_idx(ch_x, ch_y)`. */
  function GroupIdx(chX: nat, chY: nat): (g: nat)
    ensures g < 4
    ensures g % 2 == chX % 2 && g / 2 == chY % 2
  {
    2 * (chY % 2) + chX % 2
  }

  /** Two chunks share a group exactly when their coordinates have the same parities. */
  lemma SameGroupIffSameParity(x: nat, y: nat, x': nat, y': nat)
    ensures GroupIdx(x, y) == GroupIdx(x', y') <==> x % 2 == x' % 2 && y % 2 == y' % 2
  {
  }

  /** Distinct chunks of one group are at least two apart in some direction, so
      neither is among the other's eight neighbours. */
  lemma SameGroupNotAdjacent(x: nat, y: nat, x': nat, y': nat)
    requires GroupIdx(x, y) == GroupIdx(x', y') && (x != x' || y != y')
    ensures x - x' >= 2 || x' - x >= 2 || y - y' >= 2 || y' - y >= 2
  {
    SameGroupIffSameParity(x, y, x', y');
  }

  /** Every group is used: the 2 x 2 chunks at the origin fall into groups 0..3. */
  lemma EveryGroupUsed(g: nat)
    requires g < 4
    ensures GroupIdx(g % 2, g / 2) == g
  {
  }

  /** `ChunkForUpdating`: the chunk coordinates and the chunk, named by an id. */
  datatype ChunkForUpdating = ChunkForUpdating(chX: nat, chY: nat, ch: nat)

  function GroupOf(c: ChunkForUpdating): nat {
    GroupIdx(c.chX, c.chY)
  }

  datatype Option<T> = None | Some(value: T)

  /** `detail::Queue`: the pushed items and the read position. */
  datatype Queue = Queue(data: seq<ChunkForUpdating>, pointer: nat)

  const EmptyQueue: Queue := Queue([], 0)

  /** `push(cfu)`: appends; the read position stays. */
  function Push(q: Queue, c: ChunkForUpdating): (q': Queue)
    ensures q'.data == q.data + [c] && q'.pointer == q.pointer
  {
    q.(data := q.data + [c])
  }

  /** `pop(cfu)`: the item at the read position, or nothing once every item is read. */
  function Pop(q: Queue): (r: (Queue, Option<ChunkForUpdating>))
    ensures r.0.data == q.data
    ensures r.1.None? <==> q.pointer >= |q.data|
    ensures r.1.Some? ==> r.1.value == q.data[q.pointer] && r.0.pointer == q.pointer + 1
    ensures r.1.None? ==> r.0 == q
  {
    if q.pointer >= |q.data| then (q, None)
    else (q.(pointer := q.pointer + 1), Some(q.data[q.pointer]))
  }

  /** `reset()`: rewinds, so the items can be read again. */
  function Reset(q: Queue): (q': Queue)
    ensures q'.data == q.data && q'.pointer == 0
  {
    q.(pointer := 0)
  }

  /** `clear()`: drops every item. */
  function Clear(q: Queue): (q': Queue)
    ensures q' == EmptyQueue
  {
    Queue([], 0)
  }

  /** The worker loop `while (queue.pop(cfu)) ...`: the items read, in order. */
  method Drain(q: Queue) returns (q': Queue, items: seq<ChunkForUpdating>)
    requires q.pointer <= |q.data|
    ensures q'.data == q.data && q'.pointer == |q.data|
    ensures items == q.data[q.pointer..]
  {
    q' := q;
    items := [];
    while true
      invariant q'.data == q.data && q.pointer <= q'.pointer <= |q.data|
      invariant items == q.data[q.pointer..q'.pointer]
      decreases |q.data| - q'.pointer
    {
      var r := Pop(q');
      if r.1.None? {
        break;
      }
      items := items + [r.1.value];
      q' := r.0;
    }
  }

  /** The four queues and the group being processed. */
  datatype Scheduler = Scheduler(groups: seq<Queue>, active: nat)

  /** Four queues, each holding only chunks of its own group. */
  ghost predicate WellFormed(s: Scheduler) {
    |s.groups| == 4 &&
    forall g, k :: 0 <= g < 4 && 0 <= k < |s.groups[g].data| ==> GroupOf(s.groups[g].data[k]) == g
  }

  /** A scheduler with four empty queues and group 0 active. */
  function NewScheduler(): (s: Scheduler)
    ensures WellFormed(s) && s.active == 0
    ensures forall g :: 0 <= g < 4 ==> s.groups[g] == EmptyQueue
  {
    Scheduler([EmptyQueue, EmptyQueue, EmptyQueue, EmptyQueue], 0)
  }

  /** `push_chunk(ch_x, ch_y, ch)`: the chunk goes to the queue of its group. */
  function PushChunk(s: Scheduler, chX: nat, chY: nat, ch: nat): (s': Scheduler)
    requires WellFormed(s)
    ensures WellFormed(s') && s'.active == s.active
    ensures var g := GroupIdx(chX, chY);
      s'.groups[g] == Push(s.groups[g], ChunkForUpdating(chX, chY, ch))
    ensures forall g :: 0 <= g < 4 && g != GroupIdx(chX, chY) ==> s'.groups[g] == s.groups[g]
  {
    var c := ChunkForUpdating(chX, chY, ch);
    var g := GroupIdx(chX, chY);
    var s' := s.(groups := s.groups[g := Push(s.groups[g], c)]);
    assert forall k :: 0 <= k < |s'.groups[g].data| ==> GroupOf(s'.groups[g].data[k]) == g by {
      forall k | 0 <= k < |s'.groups[g].data|
        ensures GroupOf(s'.groups[g].data[k]) == g
      {
        if k < |s.groups[g].data| {
          assert s'.groups[g].data[k] == s.groups[g].data[k];
        }
      }
    }
    s'
  }

  /** `clear()`: empties all four queues. */
  function ClearAll(s: Scheduler): (s': Scheduler)
    requires WellFormed(s)
    ensures WellFormed(s') && s'.active == s.active
    ensures forall g :: 0 <= g < 4 ==> s'.groups[g] == EmptyQueue
  {
    Scheduler([Clear(s.groups[0]), Clear(s.groups[1]), Clear(s.groups[2]), Clear(s.groups[3])], s.active)
  }

  /** The items of queues 0 .. n - 1, in queue order. */
  function Concat(groups: seq<Queue>, n: nat): seq<ChunkForUpdating>
    requires n <= |groups|
  {
    if n == 0 then [] else Concat(groups, n - 1) + groups[n - 1].data
  }

  /** What `run` does with each chunk: prepare, update or render it. */
  datatype Mode = Prepare | Update | Render

  /** `run(mode)`: for each group in turn, rewind its queue, make it active and drain it.
      The result lists the chunks processed, in order, and the total of the workers'
      counters, which only the update mode advances. */
  method Run(s: Scheduler, mode: Mode) returns (s': Scheduler, processed: seq<ChunkForUpdating>, updated: nat)
    requires WellFormed(s)
    ensures WellFormed(s') && s'.active == 3
    ensures forall g :: 0 <= g < 4 ==> s'.groups[g].data == s.groups[g].data
    ensures forall g :: 0 <= g < 4 ==> s'.groups[g].pointer == |s.groups[g].data|
    ensures processed == Concat(s.groups, 4)
    ensures forall k, k' :: 0 <= k < k' < |processed| ==> GroupOf(processed[k]) <= GroupOf(processed[k'])
    ensures updated == if mode == Update then |processed| else 0
  {
    s' := s;
    processed := [];
    updated := 0;
    var i := 0;
    while i < 4
      invariant 0 <= i <= 4 && |s'.groups| == 4
      invariant i > 0 ==> s'.active == i - 1
      invariant forall g :: 0 <= g < 4 ==> s'.groups[g].data == s.groups[g].data
      invariant forall g :: 0 <= g < i ==> s'.groups[g].pointer == |s.groups[g].data|
      invariant forall g :: i <= g < 4 ==> s'.groups[g] == s.groups[g]
      invariant processed == Concat(s.groups, i)
      invariant forall k :: 0 <= k < |processed| ==> GroupOf(processed[k]) < i
      invariant forall k, k' :: 0 <= k < k' < |processed| ==> GroupOf(processed[k]) <= GroupOf(processed[k'])
      invariant updated == if mode == Update then |processed| else 0
    {
      var q, items := Drain(Reset(s'.groups[i]));
      assert items == s.groups[i].data;
      assert forall k :: 0 <= k < |items| ==> GroupOf(items[k]) == i;
      s' := Scheduler(s'.groups[i := q], i);
      processed := processed + items;
      if mode == Update {
        updated := updated + |items|;
      }
      i := i + 1;
    }
  }

  /** The chunks of cs in group g, in order. */
  function Filter(cs: seq<ChunkForUpdating>, g: nat): (r: seq<ChunkForUpdating>)
    ensures forall k :: 0 <= k < |r| ==> GroupOf(r[k]) == g
  {
    if |cs| == 0 then []
    else Filter(cs[..|cs| - 1], g) + (if GroupOf(cs[|cs| - 1]) == g then [cs[|cs| - 1]] else [])
  }

  /** Pushing chunks one by one with `push_chunk`. */
  function PushChunks(s: Scheduler, cs: seq<ChunkForUpdating>): (s': Scheduler)
    requires WellFormed(s)
    ensures WellFormed(s') && s'.active == s.active
  {
    if |cs| == 0 then s
    else
      var c := cs[|cs| - 1];
      PushChunk(PushChunks(s, cs[..|cs| - 1]), c.chX, c.chY, c.ch)
  }

  /** After pushing cs into empty queues, queue g holds exactly the chunks of
      group g, in push order. */
  lemma {:induction false} QueuesAfterPushes(cs: seq<ChunkForUpdating>, g: nat)
    requires g < 4
    ensures PushChunks(NewScheduler(), cs).groups[g].data == Filter(cs, g)
  {
    if |cs| > 0 {
      QueuesAfterPushes(cs[..|cs| - 1], g);
    }
  }

  /** Filtering one more chunk adds it to its own group only. */
  lemma FilterLast(cs: seq<ChunkForUpdating>, h: nat)
    requires |cs| > 0
    ensures GroupOf(cs[|cs| - 1]) == h ==>
      multiset(Filter(cs, h)) == multiset(Filter(cs[..|cs| - 1], h)) + multiset{cs[|cs| - 1]}
    ensures GroupOf(cs[|cs| - 1]) != h ==> multiset(Filter(cs, h)) == multiset(Filter(cs[..|cs| - 1], h))
  {
  }

  /** The four group filters together hold every chunk once. */
  lemma {:induction false} FiltersPartition(cs: seq<ChunkForUpdating>)
    ensures multiset(Filter(cs, 0)) + multiset(Filter(cs, 1)) + multiset(Filter(cs, 2)) + multiset(Filter(cs, 3))
      == multiset(cs)
  {
    if |cs| > 0 {
      var init, c := cs[..|cs| - 1], cs[|cs| - 1];
      FiltersPartition(init);
      assert cs == init + [c];
      assert multiset(cs) == multiset(init) + multiset{c};
      FilterLast(cs, 0);
      FilterLast(cs, 1);
      FilterLast(cs, 2);
      FilterLast(cs, 3);
      assert GroupOf(c) < 4;
    }
  }

  /** A sequential `run` after pushing cs into a fresh scheduler processes every
      pushed chunk exactly once, group 0 first and group 3 last. */
  method RunAfterPushes(cs: seq<ChunkForUpdating>, mode: Mode) returns (processed: seq<ChunkForUpdating>, updated: nat)
    ensures multiset(processed) == multiset(cs)
    ensures updated == if mode == Update then |cs| else 0
    ensures forall k, k' :: 0 <= k < k' < |processed| ==> GroupOf(processed[k]) <= GroupOf(processed[k'])
  {
    var s := PushChunks(NewScheduler(), cs);
    var s';
    s', processed, updated := Run(s, mode);
    QueuesAfterPushes(cs, 0);
    QueuesAfterPushes(cs, 1);
    QueuesAfterPushes(cs, 2);
    QueuesAfterPushes(cs, 3);
    assert Concat(s.groups, 1) == Filter(cs, 0);
    assert Concat(s.groups, 2) == Filter(cs, 0) + Filter(cs, 1);
    assert Concat(s.groups, 3) == Filter(cs, 0) + Filter(cs, 1) + Filter(cs, 2);
    assert processed == Filter(cs, 0) + Filter(cs, 1) + Filter(cs, 2) + Filter(cs, 3);
    FiltersPartition(cs);
    assert |processed| == |multiset(processed)| == |multiset(cs)| == |cs|;
  }
}

=== FILE: simphysics.dfy ===
/** The particle rules of simulation.cpp on the flat `Grid<Particle>`: the
    helpers `bounds`, `test` and `swap`, the sand, water and fire rules,
    `update_particle` and `spawn_cloud`. `mark_pixel` has no body in the
    repository; its calls are recorded in a log of `Mark`s. */
module SimPhysics {
  import opened Grids
  import opened Materials
  import opened Arith
  import opened SimState
  import DirtyRect
  import IntRect

  /** `FIXED_TIME_STEP`, 1/60 s, in the microseconds of `sf::Time`. */
  const FixedTimeStep: int := 16666

  /** One call `mark_pixel(x, y, with_neighbours)`. */
  datatype Mark = Mark(x: int, y: int, withNeighbours: bool)

  /** Some `mark_pixel` call named (x, y). */
  predicate Marked(marks: seq<Mark>, x: int, y: int) {
    exists k :: 0 <= k < |marks| && marks[k].x == x && marks[k].y == y
  }

  /** Appending a call keeps every earlier mark and adds the new one. */
  lemma MarkedAppend(marks: seq<Mark>, m: Mark)
    ensures forall a, b :: Marked(marks, a, b) ==> Marked(marks + [m], a, b)
    ensures Marked(marks + [m], m.x, m.y)
  {
    var marks' := marks + [m];
    assert marks'[|marks|] == m;
    forall a, b | Marked(marks, a, b)
      ensures Marked(marks', a, b)
    {
      var k :| 0 <= k < |marks| && marks[k].x == a && marks[k].y == b;
      assert marks'[k] == marks[k];
    }
  }

  /** The particle grid and the `mark_pixel` calls made so far. */
  datatype Field = Field(grid: Grid<SimParticle>, marks: seq<Mark>)

  predicate ValidField(f: Field) { Grids.Valid(f.grid) }

  // ------------------------------------------------------------- helpers

  /** `bounds()`: the whole grid as an inclusive box. */
  function Bounds(g: Grid<SimParticle>): (r: DirtyRect.Rect)
    ensures forall x, y :: DirtyRect.Contains(r, x, y) <==> InBounds(g, x, y)
  {
    DirtyRect.Rect(0, 0, g.width - 1, g.height - 1)
  }

  /** `test(x, y, pt)`: an in-bounds cell of material pt. Cells off the grid fail
      every test, so they act as walls. */
  function Test(g: Grid<SimParticle>, x: int, y: int, pt: Material): (t: bool)
    requires Grids.Valid(g)
    ensures t ==> InBounds(g, x, y)
  {
    DirtyRect.Contains(Bounds(g), x, y) && Get(g, x, y).pt == pt
  }

  /** Off the grid, no test holds; on it, the test reads the cell's material. */
  lemma TestMeansInBoundsAndTag(g: Grid<SimParticle>, x: int, y: int, pt: Material)
    requires Grids.Valid(g)
    ensures Test(g, x, y, pt) <==> InBounds(g, x, y) && Get(g, x, y).pt == pt
  {
  }

  /** `swap(x, y, xx, yy)`: exchanges two cells and marks both with neighbours. */
  function Swap(f: Field, x: int, y: int, xx: int, yy: int): (f': Field)
    requires ValidField(f) && InBounds(f.grid, x, y) && InBounds(f.grid, xx, yy)
    ensures ValidField(f') && f'.grid.width == f.grid.width && f'.grid.height == f.grid.height
    ensures Get(f'.grid, x, y) == Get(f.grid, xx, yy) && Get(f'.grid, xx, yy) == Get(f.grid, x, y)
    ensures forall a, b :: InBounds(f.grid, a, b) && (a != x || b != y) && (a != xx || b != yy) ==>
      Get(f'.grid, a, b) == Get(f.grid, a, b)
    ensures f.marks <= f'.marks && Marked(f'.marks, x, y) && Marked(f'.marks, xx, yy)
  {
    var marks := f.marks + [Mark(x, y, true), Mark(xx, yy, true)];
    assert marks[|f.marks|].x == x && marks[|f.marks| + 1].x == xx;
    Field(Grids.Swap(f.grid, x, y, xx, yy), marks)
  }

  // ---------------------------------------------------------------- sand

  /** The local `test` of `update_sand`: sand sinks into empty cells and water. */
  predicate Sinkable(g: Grid<SimParticle>, x: int, y: int)
    requires Grids.Valid(g)
  {
    Test(g, x, y, None) || Test(g, x, y, Water)
  }

  /** The speed after a collision while falling at (x, y): onto sand it takes the
      smaller of the two speeds, onto anything else it drops by 2 but not below 0. */
  function Collide(g: Grid<SimParticle>, x: int, y: int, vy: int): int
    requires Grids.Valid(g)
  {
    if Test(g, x, y + 1, Sand) then DirtyRect.Min(vy, Get(g, x, y + 1).vy)
    else DirtyRect.Max(vy - 2, 0)
  }

  /** The `while (n--)` loop of `update_sand`: from row y with `n` steps left,
      the row reached and the speed. The particle itself stays at its origin. */
  function Fall(g: Grid<SimParticle>, x: int, y: int, n: nat, vy: int): (r: (int, int))
    requires Grids.Valid(g) && InBounds(g, x, y)
    ensures y <= r.0 <= y + n && InBounds(g, x, r.0)
    ensures forall k :: y < k <= r.0 ==> Sinkable(g, x, k)
    ensures r.0 < y + n ==> !Sinkable(g, x, r.0 + 1) && r.1 == Collide(g, x, r.0, vy)
    ensures r.0 == y + n ==> r.1 == vy
    decreases n
  {
    if n == 0 then (y, vy)
    else if !Sinkable(g, x, y + 1) then (y, Collide(g, x, y, vy))
    else Fall(g, x, y + 1, n - 1, vy)
  }

  /** The step count of `update_sand`: the speed after gravity over 16, truncated.
      A negative count makes `while (n--)` run until the particle is blocked, which
      happens within the grid's height, so the height serves as the count. */
  function FallSteps(g: Grid<SimParticle>, vy: int): nat {
    var n := TruncDiv(vy + 1, 16);
    if n >= 0 then n else g.height
  }

  /** Where a moving particle ends and the speed it carries. */
  datatype Move = Move(x: int, y: int, v: int)

  /** The destination of `update_sand` and the particle's new `vel.y`. */
  function SandMove(g: Grid<SimParticle>, x0: int, y0: int): (m: Move)
    requires Grids.Valid(g) && InBounds(g, x0, y0)
    ensures InBounds(g, m.x, m.y)
  {
    var vy := Get(g, x0, y0).vy + 1;
    var r := Fall(g, x0, y0, FallSteps(g, Get(g, x0, y0).vy), vy);
    var y := r.0;
    if Sinkable(g, x0, y + 1) then Move(x0, y + 1, r.1)
    else if Sinkable(g, x0 - 1, y + 1) then Move(x0 - 1, y + 1, r.1)
    else if Sinkable(g, x0 + 1, y + 1) then Move(x0 + 1, y + 1, r.1)
    else Move(x0, y, r.1)
  }

  /** `update_sand(x0, y0)`: the new speed is written into the particle, which then
      swaps with its destination. */
  function UpdateSand(f: Field, x0: int, y0: int): (f': Field)
    requires ValidField(f) && InBounds(f.grid, x0, y0)
    ensures ValidField(f') && f'.grid.width == f.grid.width && f'.grid.height == f.grid.height
  {
    var m := SandMove(f.grid, x0, y0);
    var p := Get(f.grid, x0, y0);
    var f1 := Field(Set(f.grid, x0, y0, p.(vy := m.v)), f.marks);
    if m.x != x0 || m.y != y0 then Swap(f1, x0, y0, m.x, m.y) else f1
  }

  /** The destination of `update_sand` is the origin or a cell below it at most one
      column aside, that held empty space or water; below a free cell it moves at
      most one row further than its step count. Sand stays put exactly when none of
      the three cells below it can be entered, and a move always goes down. It
      steps aside only into the row below where it stopped falling, when straight
      down is blocked there, and to the right only when the left is blocked too. */
  lemma SandMoveSpec(g: Grid<SimParticle>, x0: int, y0: int)
    requires Grids.Valid(g) && InBounds(g, x0, y0)
    ensures var m := SandMove(g, x0, y0);
      && y0 <= m.y <= y0 + FallSteps(g, Get(g, x0, y0).vy) + 1
      && x0 - 1 <= m.x <= x0 + 1
      && ((m.x != x0 || m.y != y0) ==> Sinkable(g, m.x, m.y) && m.y > y0)
    ensures var m := SandMove(g, x0, y0);
      (m.x == x0 && m.y == y0) <==>
        !Sinkable(g, x0, y0 + 1) && !Sinkable(g, x0 - 1, y0 + 1) && !Sinkable(g, x0 + 1, y0 + 1)
    ensures var m := SandMove(g, x0, y0);
      m.x != x0 ==>
        && !Sinkable(g, x0, m.y)
        && (forall k :: y0 < k < m.y ==> Sinkable(g, x0, k))
        && (m.x == x0 + 1 ==> !Sinkable(g, x0 - 1, m.y))
  {
  }

  /** The collision rule: while falling the speed is gravity's increment; when blocked by
      sand at row k it becomes the smaller of the two speeds, when blocked by anything
      else it drops by 2 and stays non-negative. */
  lemma SandSpeedRule(g: Grid<SimParticle>, x0: int, y0: int)
    requires Grids.Valid(g) && InBounds(g, x0, y0)
    ensures var vy, m := Get(g, x0, y0).vy + 1, SandMove(g, x0, y0);
      || m.v == vy
      || (exists k :: y0 < k && Test(g, x0, k, Sand) && m.v == DirtyRect.Min(vy, Get(g, x0, k).vy))
      || (exists k :: y0 < k && !Sinkable(g, x0, k) && !Test(g, x0, k, Sand) && m.v == DirtyRect.Max(vy - 2, 0))
  {
    var vy := Get(g, x0, y0).vy + 1;
    var n := FallSteps(g, Get(g, x0, y0).vy);
    var r := Fall(g, x0, y0, n, vy);
    if r.0 < y0 + n {
      var k := r.0 + 1;
      if Test(g, x0, k, Sand) {
        assert y0 < k && Test(g, x0, k, Sand);
      } else {
        assert y0 < k && !Sinkable(g, x0, k);
      }
    }
  }

  /** Every sand particle has a non-negative vertical speed. */
  ghost predicate SandSpeedsNonNegative(g: Grid<SimParticle>)
    requires Grids.Valid(g)
  {
    forall x, y :: InBounds(g, x, y) && Get(g, x, y).pt == Sand ==> Get(g, x, y).vy >= 0
  }

  /** The speed `update_sand` gives a sand particle is non-negative when every sand
      speed was. */
  lemma SandMoveSpeedNonNegative(g: Grid<SimParticle>, x0: int, y0: int)
    requires Grids.Valid(g) && InBounds(g, x0, y0) && Get(g, x0, y0).pt == Sand
    requires SandSpeedsNonNegative(g)
    ensures SandMove(g, x0, y0).v >= 0
  {
    var vy := Get(g, x0, y0).vy + 1;
    var r := Fall(g, x0, y0, FallSteps(g, Get(g, x0, y0).vy), vy);
    if r.0 < y0 + FallSteps(g, Get(g, x0, y0).vy) && Test(g, x0, r.0 + 1, Sand) {
      assert Get(g, x0, r.0 + 1).vy >= 0;
    }
    assert r.1 >= 0;
  }

  /** `update_sand` keeps every sand particle's speed non-negative. */
  lemma SandSpeedStaysNonNegative(f: Field, x0: int, y0: int)
    requires ValidField(f) && InBounds(f.grid, x0, y0) && Get(f.grid, x0, y0).pt == Sand
    requires SandSpeedsNonNegative(f.grid)
    ensures SandMove(f.grid, x0, y0).v >= 0
    ensures SandSpeedsNonNegative(UpdateSand(f, x0, y0).grid)
  {
    var g := f.grid;
    SandMoveSpeedNonNegative(g, x0, y0);
    UpdateSandFrame(f, x0, y0);
    var m, g' := SandMove(g, x0, y0), UpdateSand(f, x0, y0).grid;
    forall a, b | InBounds(g', a, b) && Get(g', a, b).pt == Sand
      ensures Get(g', a, b).vy >= 0
    {
      if a == m.x && b == m.y {
        assert Get(g', a, b).vy == m.v;
      } else if a == x0 && b == y0 {
        assert Get(g', a, b) == Get(g, m.x, m.y);
      } else {
        assert Get(g', a, b) == Get(g, a, b);
      }
    }
  }

  /** `update_sand` changes only the origin and destination: the particle, carrying its
      new speed, lands on the destination and the destination's old content on the origin. */
  lemma UpdateSandFrame(f: Field, x0: int, y0: int)
    requires ValidField(f) && InBounds(f.grid, x0, y0)
    ensures var m, f' := SandMove(f.grid, x0, y0), UpdateSand(f, x0, y0);
      && Get(f'.grid, m.x, m.y) == Get(f.grid, x0, y0).(vy := m.v)
      && ((m.x != x0 || m.y != y0) ==> Get(f'.grid, x0, y0) == Get(f.grid, m.x, m.y))
      && (forall a, b :: InBounds(f.grid, a, b) && (a != x0 || b != y0) && (a != m.x || b != m.y) ==>
            Get(f'.grid, a, b) == Get(f.grid, a, b))
      && f.marks <= f'.marks
      && ((m.x != x0 || m.y != y0) ==> Marked(f'.marks, x0, y0) && Marked(f'.marks, m.x, m.y))
  {
  }

  /** `update_sand` conserves the multiset of materials. */
  lemma UpdateSandConservesTags(f: Field, x0: int, y0: int)
    requires ValidField(f) && InBounds(f.grid, x0, y0)
    ensures Bag(UpdateSand(f, x0, y0).grid.data, Tag) == Bag(f.grid.data, Tag)
  {
    var m := SandMove(f.grid, x0, y0);
    var p := Get(f.grid, x0, y0);
    var g1 := Set(f.grid, x0, y0, p.(vy := m.v));
    SetKeepsBag(f.grid, x0, y0, p.(vy := m.v), Tag);
    if m.x != x0 || m.y != y0 {
      SwapKeepsBag(g1, x0, y0, m.x, m.y, Tag);
    }
  }

  // --------------------------------------------------------------- water

  /** The local `test` of `update_water`: an empty in-bounds cell. */
  predicate Free(g: Grid<SimParticle>, x: int, y: int)
    requires Grids.Valid(g)
  {
    Test(g, x, y, None)
  }

  /** `can_any` after an iteration that checked all five cells and found no move:
      the last four tests (the first, straight down, has failed). */
  predicate CanAny(g: Grid<SimParticle>, x: int, y: int)
    requires Grids.Valid(g)
  {
    Free(g, x - 1, y + 1) || Free(g, x + 1, y + 1) || Free(g, x - 1, y) || Free(g, x + 1, y)
  }

  /** Where the water loop ends, the particle's `vel.x`, and whether it stopped
      at `break` because no checked cell was empty. */
  datatype WaterEnd = WaterEnd(x: int, y: int, vx: int, boxed: bool)

  function Budget(spread: int, i: int): int {
    if spread - i >= 0 then spread - i else 0
  }

  /** One pass of the loop body: a move to (x, y) with the new `vel.x` and the
      iterations it costs (a straight drop costs two), or `break`. */
  datatype WaterStep = Step(x: int, y: int, vx: int, cost: nat) | Stuck

  /** The body of the `for` loop of `update_water` at (x, y): straight down, then down
      and aside, then aside, each aside move only in the direction of `vel.x`; if none
      applies, `vel.x` flips when some neighbour is empty, and otherwise the loop breaks. */
  function WaterStepAt(g: Grid<SimParticle>, x: int, y: int, vx: int): (s: WaterStep)
    requires Grids.Valid(g) && InBounds(g, x, y)
    ensures s.Step? ==>
      && InBounds(g, s.x, s.y) && 1 <= s.cost <= 2
      && y <= s.y <= y + 1 && x - 1 <= s.x <= x + 1
      && (s.vx == vx || s.vx == -vx) && (vx == 0 ==> s.x == x)
      && ((s.x == x && s.y == y) || Free(g, s.x, s.y))
    ensures s.Stuck? <==> !Free(g, x, y + 1) && !CanAny(g, x, y)
    ensures s.Stuck? || (s.x == x && s.y == y) || (s.vx == vx && (s.x == x || (s.x < x <==> vx < 0)))
    ensures s.Step? && s.x == x && s.y == y ==> s.vx == -vx && CanAny(g, x, y)
    ensures Free(g, x, y + 1) ==> s == Step(x, y + 1, vx, 2)
    ensures s.Step? && s.y == y && s.x != x ==> !Free(g, s.x, y + 1)
  {
    if Free(g, x, y + 1) then Step(x, y + 1, vx, 2)
    else if Free(g, x - 1, y + 1) && vx < 0 then Step(x - 1, y + 1, vx, 1)
    else if Free(g, x + 1, y + 1) && vx > 0 then Step(x + 1, y + 1, vx, 1)
    else if Free(g, x - 1, y) && vx < 0 then Step(x - 1, y, vx, 1)
    else if Free(g, x + 1, y) && vx > 0 then Step(x + 1, y, vx, 1)
    else if CanAny(g, x, y) then Step(x, y, -vx, 1)
    else Stuck
  }

  /** The `for` loop of `update_water` from position (x, y) at iteration count i. */
  function Spread(g: Grid<SimParticle>, x: int, y: int, vx: int, i: int, spread: int): (e: WaterEnd)
    requires Grids.Valid(g) && InBounds(g, x, y)
    ensures InBounds(g, e.x, e.y)
    ensures y <= e.y <= y + Budget(spread, i)
    ensures x - Budget(spread, i) <= e.x <= x + Budget(spread, i)
    ensures e.vx == vx || e.vx == -vx
    ensures vx == 0 ==> e.x == x
    ensures (e.x == x && e.y == y) || Free(g, e.x, e.y)
    ensures e.boxed ==>
      !Free(g, e.x, e.y + 1) && !Free(g, e.x - 1, e.y + 1) && !Free(g, e.x + 1, e.y + 1) &&
      !Free(g, e.x - 1, e.y) && !Free(g, e.x + 1, e.y)
    decreases spread - i
  {
    if i >= spread then WaterEnd(x, y, vx, false)
    else
      var s := WaterStepAt(g, x, y, vx);
      if s.Stuck? then WaterEnd(x, y, vx, true)
      else
        BudgetShrinks(spread, i, s.cost);
        Spread(g, s.x, s.y, s.vx, i + s.cost, spread)
  }

  /** A step of the loop leaves at least one cell less of budget. */
  lemma BudgetShrinks(spread: int, i: int, cost: nat)
    requires i < spread && cost >= 1
    ensures Budget(spread, i + cost) + 1 <= Budget(spread, i)
  {
  }

  /** `update_water(x0, y0)`: the loop runs on the particle's `vel.x`, which is
      written back, then the particle swaps with where the loop ended. */
  function UpdateWater(f: Field, x0: int, y0: int, spread: int): (f': Field)
    requires ValidField(f) && InBounds(f.grid, x0, y0)
    ensures ValidField(f') && f'.grid.width == f.grid.width && f'.grid.height == f.grid.height
  {
    var p := Get(f.grid, x0, y0);
    var e := Spread(f.grid, x0, y0, p.vx, 0, spread);
    var f1 := Field(Set(f.grid, x0, y0, p.(vx := e.vx)), f.marks);
    if e.x != x0 || e.y != y0 then Swap(f1, x0, y0, e.x, e.y) else f1
  }

  /** `update_water` moves the particle into an empty cell, never upward, at most
      `spread` cells down and aside, and straight down only when `vel.x` is 0; only
      origin and destination change, and the multiset of materials is kept. */
  lemma UpdateWaterSpec(f: Field, x0: int, y0: int, spread: int)
    requires ValidField(f) && InBounds(f.grid, x0, y0) && spread >= 0
    ensures var p, f' := Get(f.grid, x0, y0), UpdateWater(f, x0, y0, spread);
      var e := Spread(f.grid, x0, y0, p.vx, 0, spread);
      && y0 <= e.y <= y0 + spread && x0 - spread <= e.x <= x0 + spread
      && (p.vx == 0 ==> e.x == x0)
      && ((e.x != x0 || e.y != y0) ==> Get(f.grid, e.x, e.y).pt == None)
      && Get(f'.grid, e.x, e.y) == p.(vx := e.vx)
      && ((e.x != x0 || e.y != y0) ==> Get(f'.grid, x0, y0) == Get(f.grid, e.x, e.y))
      && (forall a, b :: InBounds(f.grid, a, b) && (a != x0 || b != y0) && (a != e.x || b != e.y) ==>
            Get(f'.grid, a, b) == Get(f.grid, a, b))
      && Bag(f'.grid.data, Tag) == Bag(f.grid.data, Tag)
  {
    var p := Get(f.grid, x0, y0);
    var e := Spread(f.grid, x0, y0, p.vx, 0, spread);
    var g1 := Set(f.grid, x0, y0, p.(vx := e.vx));
    SetKeepsBag(f.grid, x0, y0, p.(vx := e.vx), Tag);
    if e.x != x0 || e.y != y0 {
      SwapKeepsBag(g1, x0, y0, e.x, e.y, Tag);
    }
  }

  /** The spread is `max(1, min(width, height) / 64)`, at least 1. */
  function WaterSpread(width: int, height: int): (s: int)
    ensures s >= 1
    ensures width >= 64 && height >= 64 ==> 64 * s <= width && 64 * s <= height
  {
    DirtyRect.Max(1, TruncDiv(DirtyRect.Min(width, height), 64))
  }

  // ---------------------------------------------------------------- fire

  type Dir8 = d: int | 0 <= d < 8

  /** `OFFS`: the eight neighbours. */
  const Offsets: seq<(int, int)> := [(-1, -1), (0, -1), (1, -1), (-1, 0), (1, 0), (-1, 1), (0, 1), (1, 1)]

  /** The eight offsets are exactly the non-zero steps of at most one cell in each direction. */
  lemma OffsetsAreTheNeighbours()
    ensures |Offsets| == 8
    ensures forall d: Dir8 :: Offsets[d] != (0, 0) && -1 <= Offsets[d].0 <= 1 && -1 <= Offsets[d].1 <= 1
    ensures forall dx, dy :: -1 <= dx <= 1 && -1 <= dy <= 1 && (dx, dy) != (0, 0) ==>
      exists d: Dir8 :: Offsets[d] == (dx, dy)
  {
    forall dx, dy | -1 <= dx <= 1 && -1 <= dy <= 1 && (dx, dy) != (0, 0)
      ensures exists d: Dir8 :: Offsets[d] == (dx, dy)
    {
      var d: Dir8 := if dy == -1 then dx + 1 else if dy == 0 then (if dx == -1 then 3 else 4) else dx + 6;
      assert Offsets[d] == (dx, dy);
    }
  }

  /** The random inputs of `update_fire`: whether the spread draw succeeded, the
      neighbour drawn, and the lifetime a newly lit cell gets. */
  datatype FireDraw = FireDraw(spreads: bool, dir: Dir8, lifetime: int)

  /** The first half of `update_fire`: when the spread draw succeeds and the drawn
      neighbour is wood, it catches fire with the drawn lifetime. */
  function Ignite(f: Field, x: int, y: int, draw: FireDraw): (f': Field)
    requires ValidField(f)
    ensures ValidField(f') && f'.grid.width == f.grid.width && f'.grid.height == f.grid.height
  {
    var px, py := x + Offsets[draw.dir].0, y + Offsets[draw.dir].1;
    if draw.spreads && Test(f.grid, px, py, Wood) then
      var q := Get(f.grid, px, py);
      Field(Set(f.grid, px, py, q.(pt := Fire, lifetime := draw.lifetime)), f.marks + [Mark(px, py, true)])
    else f
  }

  /** The second half of `update_fire`: one tick off the lifetime; at zero or below
      the cell becomes empty. */
  function Burn(f: Field, x: int, y: int): (f': Field)
    requires ValidField(f) && InBounds(f.grid, x, y)
    ensures ValidField(f') && f'.grid.width == f.grid.width && f'.grid.height == f.grid.height
  {
    var p := Get(f.grid, x, y);
    var lt := p.lifetime - FixedTimeStep;
    if lt <= 0 then Field(Set(f.grid, x, y, p.(pt := None, lifetime := lt)), f.marks + [Mark(x, y, true)])
    else Field(Set(f.grid, x, y, p.(lifetime := lt)), f.marks + [Mark(x, y, false)])
  }

  /** `update_fire(x, y)`: possibly light the drawn neighbour if it is wood, then
      burn one tick off the lifetime. */
  function UpdateFire(f: Field, x: int, y: int, draw: FireDraw): (f': Field)
    requires ValidField(f) && InBounds(f.grid, x, y)
    ensures ValidField(f') && f'.grid.width == f.grid.width && f'.grid.height == f.grid.height
  {
    Burn(Ignite(f, x, y, draw), x, y)
  }

  /** The burning cell loses one tick and dies at zero; the drawn neighbour catches fire
      exactly when the draw succeeds and it is wood; nothing else changes. */
  lemma UpdateFireSpec(f: Field, x: int, y: int, draw: FireDraw)
    requires ValidField(f) && InBounds(f.grid, x, y)
    ensures var f', p := UpdateFire(f, x, y, draw), Get(f.grid, x, y);
      var px, py := x + Offsets[draw.dir].0, y + Offsets[draw.dir].1;
      var lit := draw.spreads && Test(f.grid, px, py, Wood);
      && Get(f'.grid, x, y).lifetime == p.lifetime - FixedTimeStep
      && Get(f'.grid, x, y).pt == (if p.lifetime - FixedTimeStep <= 0 then None else p.pt)
      && (lit ==> Get(f'.grid, px, py) == Get(f.grid, px, py).(pt := Fire, lifetime := draw.lifetime))
      && (forall a, b :: InBounds(f.grid, a, b) && (a != x || b != y) && (!lit || a != px || b != py) ==>
            Get(f'.grid, a, b) == Get(f.grid, a, b))
      && Marked(f'.marks, x, y)
  {
    var f' := UpdateFire(f, x, y, draw);
    assert f'.marks[|f'.marks| - 1].x == x && f'.marks[|f'.marks| - 1].y == y;
  }

  // ---------------------------------------------------------- dispatcher

  /** `update_particle(x, y)`: skip a cell already updated this tick; otherwise
      raise its flag and run its material's rule. */
  function UpdateParticle(f: Field, x: int, y: int, spread: int, draw: FireDraw): (f': Field)
    requires ValidField(f) && InBounds(f.grid, x, y)
    ensures ValidField(f') && f'.grid.width == f.grid.width && f'.grid.height == f.grid.height
  {
    var p := Get(f.grid, x, y);
    if p.updated then f
    else
      var f1 := Field(Set(f.grid, x, y, p.(updated := true)), f.marks);
      match p.pt
      case Sand => UpdateSand(f1, x, y)
      case Water => UpdateWater(f1, x, y, spread)
      case Fire => UpdateFire(f1, x, y, draw)
      case _ => f1
  }

  /** An updated cell is skipped, so no rule runs twice on a particle within a tick;
      empty and wood cells only get their flag raised; a moved sand or water particle
      arrives with its flag raised. */
  lemma UpdateParticleSpec(f: Field, x: int, y: int, spread: int, draw: FireDraw)
    requires ValidField(f) && InBounds(f.grid, x, y)
    ensures Get(f.grid, x, y).updated ==> UpdateParticle(f, x, y, spread, draw) == f
    ensures !Get(f.grid, x, y).updated && Get(f.grid, x, y).pt in {None, Wood} ==>
      UpdateParticle(f, x, y, spread, draw).grid == Set(f.grid, x, y, Get(f.grid, x, y).(updated := true))
    ensures !Get(f.grid, x, y).updated && Get(f.grid, x, y).pt == Sand ==>
      var g1 := Set(f.grid, x, y, Get(f.grid, x, y).(updated := true));
      var m := SandMove(g1, x, y);
      Get(UpdateParticle(f, x, y, spread, draw).grid, m.x, m.y).updated
    ensures !Get(f.grid, x, y).updated && Get(f.grid, x, y).pt == Water ==>
      var g1 := Set(f.grid, x, y, Get(f.grid, x, y).(updated := true));
      var e := Spread(g1, x, y, Get(g1, x, y).vx, 0, spread);
      Get(UpdateParticle(f, x, y, spread, draw).grid, e.x, e.y).updated
  {
    var p := Get(f.grid, x, y);
    if !p.updated {
      var f1 := Field(Set(f.grid, x, y, p.(updated := true)), f.marks);
      if p.pt == Sand {
        UpdateSandFrame(f1, x, y);
      } else if p.pt == Water {
        var e := Spread(f1.grid, x, y, Get(f1.grid, x, y).vx, 0, spread);
        if e.x != x || e.y != y {
          assert Get(UpdateWater(f1, x, y, spread).grid, e.x, e.y) == Get(f1.grid, x, y).(vx := e.vx);
        }
      }
    }
  }

  // --------------------------------------------------------- spawn_cloud

  /** What `spawn_cloud` writes: the material, a clear flag (the source leaves it
      uninitialised), zero velocity and the drawn lifetime. */
  function Spawned(pt: Material, lifetime: int): SimParticle {
    SimParticle(pt, false, 0, 0, lifetime)
  }

  function Square(v: int): int { v * v }

  /** The loop's box, (cx - r, cy - r) to (cx + r, cy + r), clipped to the grid. */
  function CloudBox(g: Grid<SimParticle>, cx: int, cy: int, r: int): (b: DirtyRect.Rect)
    ensures forall x, y :: DirtyRect.Contains(b, x, y) <==>
      InBounds(g, x, y) && cx - r <= x <= cx + r && cy - r <= y <= cy + r
  {
    IntRect.Intersection(DirtyRect.Rect(cx - r, cy - r, cx + r, cy + r), Bounds(g))
  }

  /** The cells `spawn_cloud` overwrites: in the clipped box and within distance r. */
  predicate InCloud(g: Grid<SimParticle>, cx: int, cy: int, r: int, x: int, y: int) {
    DirtyRect.Contains(CloudBox(g, cx, cy, r), x, y) && Square(x - cx) + Square(y - cy) <= Square(r)
  }

  lemma SquareMonotone(a: int, b: int)
    requires 0 <= b < a
    ensures Square(b) < Square(a)
  {
    MulLe(b, a, b);
    MulLe(b, a, a);
  }

  lemma SquareOfAbs(a: int)
    ensures Square(a) == Square(if a >= 0 then a else -a)
  {
  }

  /** A square no larger than r squared comes from an offset within [-r, r]. */
  lemma SquareBound(d: int, r: int)
    requires r >= 0 && Square(d) <= Square(r)
    ensures -r <= d <= r
  {
    var ad := if d >= 0 then d else -d;
    SquareOfAbs(d);
    if ad > r {
      SquareMonotone(ad, r);
      assert false;
    }
  }

  lemma SquareNonNegative(v: int)
    ensures Square(v) >= 0
  {
    SquareOfAbs(v);
    MulLe(0, if v >= 0 then v else -v, if v >= 0 then v else -v);
  }

  /** For r >= 0 the cloud is the disc of radius r around (cx, cy) inside the grid;
      for r < 0 the box is empty and nothing is written. */
  lemma CloudIsDisc(g: Grid<SimParticle>, cx: int, cy: int, r: int, x: int, y: int)
    ensures InCloud(g, cx, cy, r, x, y) <==>
      r >= 0 && InBounds(g, x, y) && Square(x - cx) + Square(y - cy) <= Square(r)
  {
    var inDisc := Square(x - cx) + Square(y - cy) <= Square(r);
    var inBox := DirtyRect.Contains(CloudBox(g, cx, cy, r), x, y);
    assert inBox <==> InBounds(g, x, y) && cx - r <= x <= cx + r && cy - r <= y <= cy + r;
    if r >= 0 && InBounds(g, x, y) && inDisc {
      SquareNonNegative(x - cx);
      SquareNonNegative(y - cy);
      SquareBound(x - cx, r);
      SquareBound(y - cy, r);
      assert inBox;
    }
  }

  /** What cell (a, b) holds after `spawn_cloud`. */
  function CloudCell(g0: Grid<SimParticle>, cx: int, cy: int, r: int, pt: Material,
                     lifetimes: (int, int) -> int, a: int, b: int): SimParticle
    requires Grids.Valid(g0) && InBounds(g0, a, b)
  {
    if InCloud(g0, cx, cy, r, a, b) then Spawned(pt, lifetimes(a, b)) else Get(g0, a, b)
  }

  /** `spawn_cloud(cx, cy, r, pt)`: every cloud cell gets a fresh particle of material
      pt with its own drawn lifetime and is marked; every other cell is left alone. */
  method SpawnCloud(f: Field, cx: int, cy: int, r: int, pt: Material, lifetimes: (int, int) -> int)
    returns (f': Field)
    requires ValidField(f)
    ensures ValidField(f') && f'.grid.width == f.grid.width && f'.grid.height == f.grid.height
    ensures forall x, y :: InBounds(f.grid, x, y) ==>
      Get(f'.grid, x, y) == (if InCloud(f.grid, cx, cy, r, x, y) then Spawned(pt, lifetimes(x, y)) else Get(f.grid, x, y))
    ensures forall x, y :: InCloud(f.grid, cx, cy, r, x, y) ==> Marked(f'.marks, x, y)
    ensures f.marks <= f'.marks
  {
    var box := CloudBox(f.grid, cx, cy, r);
    var g0 := f.grid;
    var g := g0;
    var marks := f.marks;
    var y := box.top;
    while y <= box.bottom
      invariant Grids.Valid(g) && g.width == g0.width && g.height == g0.height
      invariant f.marks <= marks
      invariant forall a, b :: InBounds(g0, a, b) ==>
        Get(g, a, b) == (if b < y then CloudCell(g0, cx, cy, r, pt, lifetimes, a, b) else Get(g0, a, b))
      invariant forall a, b :: b < y && InCloud(g0, cx, cy, r, a, b) ==> Marked(marks, a, b)
      invariant forall a, b :: InCloud(g0, cx, cy, r, a, b) ==> box.top <= b
      decreases box.bottom - y
    {
      g, marks := SpawnRow(g0, g, marks, cx, cy, r, pt, lifetimes, y);
      y := y + 1;
    }
    f' := Field(g, marks);
    forall a, b | InCloud(g0, cx, cy, r, a, b)
      ensures b < y
    {
    }
  }

  /** Cells of rows before y, and of row y left of x, hold what `spawn_cloud` writes;
      the others still hold their original content. */
  ghost predicate SpawnedUpTo(g0: Grid<SimParticle>, g: Grid<SimParticle>, cx: int, cy: int, r: int,
                              pt: Material, lifetimes: (int, int) -> int, x: int, y: int)
    requires Grids.Valid(g0) && Grids.Valid(g) && g.width == g0.width && g.height == g0.height
  {
    forall a, b :: InBounds(g0, a, b) ==>
      Get(g, a, b) == (if b < y || (b == y && a < x) then CloudCell(g0, cx, cy, r, pt, lifetimes, a, b) else Get(g0, a, b))
  }

  /** One iteration of the inner loop of `spawn_cloud` at an in-box cell (x, y). */
  lemma SpawnStep(g0: Grid<SimParticle>, g: Grid<SimParticle>, cx: int, cy: int, r: int,
                  pt: Material, lifetimes: (int, int) -> int, x: int, y: int)
    requires Grids.Valid(g0) && Grids.Valid(g) && g.width == g0.width && g.height == g0.height
    requires DirtyRect.Contains(CloudBox(g0, cx, cy, r), x, y)
    requires SpawnedUpTo(g0, g, cx, cy, r, pt, lifetimes, x, y)
    ensures InBounds(g0, x, y)
    ensures InCloud(g0, cx, cy, r, x, y) ==>
      SpawnedUpTo(g0, Set(g, x, y, Spawned(pt, lifetimes(x, y))), cx, cy, r, pt, lifetimes, x + 1, y)
    ensures !InCloud(g0, cx, cy, r, x, y) ==> SpawnedUpTo(g0, g, cx, cy, r, pt, lifetimes, x + 1, y)
  {
  }

  /** The inner loop of `spawn_cloud`: row y of the clipped box. */
  method SpawnRow(g0: Grid<SimParticle>, g: Grid<SimParticle>, marks: seq<Mark>, cx: int, cy: int, r: int,
                  pt: Material, lifetimes: (int, int) -> int, y: int)
    returns (g': Grid<SimParticle>, marks': seq<Mark>)
    requires Grids.Valid(g0) && Grids.Valid(g) && g.width == g0.width && g.height == g0.height
    requires forall a, b :: InBounds(g0, a, b) ==>
      Get(g, a, b) == (if b < y then CloudCell(g0, cx, cy, r, pt, lifetimes, a, b) else Get(g0, a, b))
    ensures Grids.Valid(g') && g'.width == g0.width && g'.height == g0.height
    ensures marks <= marks'
    ensures forall a, b :: InBounds(g0, a, b) ==>
      Get(g', a, b) == (if b <= y then CloudCell(g0, cx, cy, r, pt, lifetimes, a, b) else Get(g0, a, b))
    ensures forall a, b :: Marked(marks, a, b) ==> Marked(marks', a, b)
    ensures forall a :: InCloud(g0, cx, cy, r, a, y) ==> Marked(marks', a, y)
  {
    var box := CloudBox(g0, cx, cy, r);
    g', marks' := g, marks;
    var x := box.left;
    if box.top <= y <= box.bottom {
      while x <= box.right
        invariant Grids.Valid(g') && g'.width == g0.width && g'.height == g0.height
        invariant marks <= marks'
        invariant SpawnedUpTo(g0, g', cx, cy, r, pt, lifetimes, x, y)
        invariant forall a :: a < x && InCloud(g0, cx, cy, r, a, y) ==> Marked(marks', a, y)
        invariant forall a :: InCloud(g0, cx, cy, r, a, y) ==> box.left <= a
        decreases box.right - x
      {
        SpawnStep(g0, g', cx, cy, r, pt, lifetimes, x, y);
        if Square(x - cx) + Square(y - cy) <= Square(r) {
          g' := Set(g', x, y, Spawned(pt, lifetimes(x, y)));
          MarkedAppend(marks', Mark(x, y, true));
          marks' := marks' + [Mark(x, y, true)];
        }
        x := x + 1;
      }
    }
    assert SpawnedUpTo(g0, g', cx, cy, r, pt, lifetimes, x, y);
    forall a, b | InBounds(g0, a, b)
      ensures Get(g', a, b) == (if b <= y then CloudCell(g0, cx, cy, r, pt, lifetimes, a, b) else Get(g0, a, b))
    {
      if b == y && a >= x {
        assert !InCloud(g0, cx, cy, r, a, b);
      }
    }
    MarkedPrefix(marks, marks');
  }

  /** Extending the log keeps every mark. */
  lemma MarkedPrefix(marks: seq<Mark>, marks': seq<Mark>)
    requires marks <= marks'
    ensures forall a, b :: Marked(marks, a, b) ==> Marked(marks', a, b)
  {
    forall a, b | Marked(marks, a, b)
      ensures Marked(marks', a, b)
    {
      var k :| 0 <= k < |marks| && marks[k].x == a && marks[k].y == b;
      assert marks'[k] == marks[k];
    }
  }
}

=== FILE: simstate.dfy ===
/** The data of simulation.hpp: the unpacked `Particle` of the flat-grid
    simulation, the per-chunk `ChunkFlags` and the double buffer of them. */
module SimState {
  import opened Grids
  import opened Materials

  /** `Particle`: type tag, "updated this tick" flag, integer velocity and the
      fire lifetime, counted in microseconds as `sf::Time` counts it. */
  datatype SimParticle = SimParticle(pt: Material, updated: bool, vx: int, vy: int, lifetime: int)

  function Tag(p: SimParticle): Material { p.pt }

  /** A value-initialised `Particle` (`Particle()`, the grid's fill value): no
      material, flag clear, zero velocity, zero lifetime. */
  function DefaultParticle(): (p: SimParticle)
    ensures p.pt == None && !p.updated
    ensures p.vx == 0 && p.vy == 0 && p.lifetime == 0
  {
    SimParticle(None, false, 0, 0, 0)
  }

  /** `ChunkFlags`. */
  datatype ChunkFlags = ChunkFlags(needsUpdate: bool, needsRedraw: bool)

  /** The default member initialisers: both flags raised. */
  function DefaultFlags(): (f: ChunkFlags)
    ensures f.needsUpdate && f.needsRedraw
  {
    ChunkFlags(true, true)
  }

  /** `ChunkFlagsBuffers`: two flag grids; `current` points to `first` iff `currentIsFirst`. */
  datatype FlagBuffers = FlagBuffers(first: Grid<ChunkFlags>, second: Grid<ChunkFlags>, currentIsFirst: bool)

  function CurrentFlags(b: FlagBuffers): Grid<ChunkFlags> {
    if b.currentIsFirst then b.first else b.second
  }

  function NextFlags(b: FlagBuffers): Grid<ChunkFlags> {
    if b.currentIsFirst then b.second else b.first
  }

  /** The constructor: two width x height grids of default flags, `current` on the first. */
  function NewFlagBuffers(width: nat, height: nat): (b: FlagBuffers)
    ensures b.currentIsFirst
    ensures CurrentFlags(b) == b.first && NextFlags(b) == b.second
    ensures Grids.Valid(b.first) && b.first.width == width && b.first.height == height
    ensures Grids.Valid(b.second) && b.second.width == width && b.second.height == height
    ensures forall x, y :: InBounds(b.first, x, y) ==>
      Get(b.first, x, y) == DefaultFlags() && Get(b.second, x, y) == DefaultFlags()
  {
    var g := Grids.New(width, height, DefaultFlags());
    FlagBuffers(g, g, true)
  }

  /** `swap_buffers()`: exchanges `current` and `next`; the grids themselves stay put. */
  function SwapBuffers(b: FlagBuffers): (b': FlagBuffers)
    ensures CurrentFlags(b') == NextFlags(b) && NextFlags(b') == CurrentFlags(b)
    ensures b'.first == b.first && b'.second == b.second
  {
    b.(currentIsFirst := !b.currentIsFirst)
  }

  lemma SwapBuffersTwice(b: FlagBuffers)
    ensures SwapBuffers(SwapBuffers(b)) == b
  {
  }
}

=== FILE: simsweep.dfy ===
/** One region's pass of the flat-grid simulation: the scan order of
    `update_region`, the flag reset before it, the run of `update_particle`
    along it, and the conservation of sand and water that the run keeps. */
module RegionSweep {
  import opened Grids
  import opened Materials
  import opened SimState
  import opened SimPhysics
  import SingleGridWorld

  // ------------------------------------------------------------ scan order

  /** The column visited at step i of a row from `left` to `right`. */
  function Column(left: int, right: int, leftToRight: bool, i: int): int {
    if leftToRight then left + i else right - i
  }

  /** The inner loop of `update_region` for row y: `left..right` or `right..left`. */
  method RegionRow(left: int, right: int, leftToRight: bool, y: int) returns (row: seq<(int, int)>)
    ensures |row| == if right < left then 0 else right - left + 1
    ensures forall i :: 0 <= i < |row| ==> row[i] == (Column(left, right, leftToRight, i), y)
    ensures forall k, k' :: 0 <= k < k' < |row| ==> SingleGridWorld.ScanBefore(row[k], row[k'], leftToRight)
  {
    row := [];
    var n := if right < left then 0 else right - left + 1;
    var i := 0;
    while i < n
      invariant 0 <= i <= n && |row| == i
      invariant forall i' :: 0 <= i' < i ==> row[i'] == (Column(left, right, leftToRight, i'), y)
    {
      row := row + [(Column(left, right, leftToRight, i), y)];
      i := i + 1;
    }
  }

  /** Row y of a box, in visiting order. */
  function RowCells(left: int, right: int, leftToRight: bool, y: int): seq<(int, int)> {
    seq(if right < left then 0 else right - left + 1, i => (Column(left, right, leftToRight, i), y))
  }

  /** The rows of a box from `bottom` up to `y`, in visiting order; `RegionScan`
      builds it row by row. */
  function ScanRows(left: int, right: int, leftToRight: bool, bottom: int, y: int): seq<(int, int)>
    decreases bottom + 1 - y
  {
    if y > bottom then [] else ScanRows(left, right, leftToRight, bottom, y + 1) + RowCells(left, right, leftToRight, y)
  }

  /** Every listed cell lies in the box with columns `left..right` and rows `top..bottom`. */
  predicate CellsWithin(o: seq<(int, int)>, left: int, right: int, top: int, bottom: int) {
    forall k :: 0 <= k < |o| ==> left <= o[k].0 <= right && top <= o[k].1 <= bottom
  }

  /** The scanned rows stay inside the box. */
  lemma {:induction false} ScanRowsWithin(left: int, right: int, leftToRight: bool, bottom: int, y: int)
    ensures CellsWithin(ScanRows(left, right, leftToRight, bottom, y), left, right, y, bottom)
    decreases bottom + 1 - y
  {
    if y <= bottom {
      ScanRowsWithin(left, right, leftToRight, bottom, y + 1);
      var a, r := ScanRows(left, right, leftToRight, bottom, y + 1), RowCells(left, right, leftToRight, y);
      assert CellsWithin(r, left, right, y, bottom);
      assert ScanRows(left, right, leftToRight, bottom, y) == a + r;
    }
  }

  /** The scan of a box that lies inside the grid: only cells of the grid. */
  function BoxOrder<T>(g: Grid<T>, left: int, right: int, leftToRight: bool, bottom: int, top: int): (o: seq<(int, int)>)
    requires 0 <= left && right < g.width && 0 <= top && bottom < g.height
    ensures forall k :: 0 <= k < |o| ==> InBounds(g, o[k].0, o[k].1)
  {
    ScanRowsWithin(left, right, leftToRight, bottom, top);
    assert CellsWithin(ScanRows(left, right, leftToRight, bottom, top), left, right, top, bottom);
    ScanRows(left, right, leftToRight, bottom, top)
  }

  /** Every cell of the box with columns `left..right` and rows `top..bottom` is listed. */
  predicate Covers(o: seq<(int, int)>, left: int, right: int, top: int, bottom: int) {
    forall a, b :: left <= a <= right && top <= b <= bottom ==> (a, b) in o
  }

  /** The cells are listed in scan order, each once. */
  predicate InScanOrder(o: seq<(int, int)>, leftToRight: bool) {
    forall k, k' :: 0 <= k < k' < |o| ==> SingleGridWorld.ScanBefore(o[k], o[k'], leftToRight)
  }

  /** The scanned rows list every cell of the box. */
  lemma {:induction false} ScanRowsCovers(left: int, right: int, leftToRight: bool, bottom: int, y: int)
    ensures Covers(ScanRows(left, right, leftToRight, bottom, y), left, right, y, bottom)
    decreases bottom + 1 - y
  {
    if y <= bottom {
      ScanRowsCovers(left, right, leftToRight, bottom, y + 1);
      var a, r := ScanRows(left, right, leftToRight, bottom, y + 1), RowCells(left, right, leftToRight, y);
      assert ScanRows(left, right, leftToRight, bottom, y) == a + r;
      forall c, b | left <= c <= right && y <= b <= bottom ensures (c, b) in a + r {
        if b == y {
          var i := if leftToRight then c - left else right - c;
          assert r[i] == (c, y);
          assert (a + r)[|a| + i] == (c, y);
        } else {
          assert (c, b) in a;
        }
      }
    }
  }

  /** The scanned rows come in scan order. */
  lemma {:induction false} ScanRowsOrdered(left: int, right: int, leftToRight: bool, bottom: int, y: int)
    ensures InScanOrder(ScanRows(left, right, leftToRight, bottom, y), leftToRight)
    decreases bottom + 1 - y
  {
    if y <= bottom {
      ScanRowsOrdered(left, right, leftToRight, bottom, y + 1);
      ScanRowsWithin(left, right, leftToRight, bottom, y + 1);
      var a, r := ScanRows(left, right, leftToRight, bottom, y + 1), RowCells(left, right, leftToRight, y);
      assert CellsWithin(a, left, right, y + 1, bottom);
      assert InScanOrder(r, leftToRight);
      SingleGridWorld.ConcatInScanOrder(a, r, leftToRight);
      assert ScanRows(left, right, leftToRight, bottom, y) == a + r;
    }
  }

  /** The cells of the inclusive box in the order `update_region` visits them:
      rows from `bottom` up to `top`; each row left to right when `leftToRight`,
      else right to left. Every cell of the box appears, and nothing else. */
  method RegionScan(left: int, top: int, right: int, bottom: int, leftToRight: bool)
    returns (order: seq<(int, int)>)
    ensures order == ScanRows(left, right, leftToRight, bottom, top)
    ensures forall k :: 0 <= k < |order| ==> left <= order[k].0 <= right && top <= order[k].1 <= bottom
    ensures forall x, y :: left <= x <= right && top <= y <= bottom ==> (x, y) in order
    ensures forall k, k' :: 0 <= k < k' < |order| ==> SingleGridWorld.ScanBefore(order[k], order[k'], leftToRight)
  {
    order := [];
    var y := bottom;
    while y >= top
      invariant top - 1 <= y <= bottom || (y == bottom && bottom < top)
      invariant order == ScanRows(left, right, leftToRight, bottom, y + 1)
      decreases y - top
    {
      var row := RegionRow(left, right, leftToRight, y);
      assert row == RowCells(left, right, leftToRight, y);
      order := order + row;
      y := y - 1;
    }
    ScanRowsWithin(left, right, leftToRight, bottom, top);
    ScanRowsCovers(left, right, leftToRight, bottom, top);
    ScanRowsOrdered(left, right, leftToRight, bottom, top);
    assert CellsWithin(order, left, right, top, bottom);
    assert Covers(order, left, right, top, bottom);
    assert InScanOrder(order, leftToRight);
  }


  // ------------------------------------------------------------ flag reset

  /** The first loop of `update_region`: `been_updated = false` on every listed cell. */
  function ClearFlagsAt(g: Grid<SimParticle>, cells: seq<(int, int)>): (g': Grid<SimParticle>)
    requires Grids.Valid(g)
    requires forall k :: 0 <= k < |cells| ==> InBounds(g, cells[k].0, cells[k].1)
    ensures Grids.Valid(g') && g'.width == g.width && g'.height == g.height
    decreases |cells|
  {
    if |cells| == 0 then g
    else
      var c := cells[|cells| - 1];
      var g1 := ClearFlagsAt(g, cells[..|cells| - 1]);
      assert InBounds(g, c.0, c.1);
      Set(g1, c.0, c.1, Get(g1, c.0, c.1).(updated := false))
  }

  /** A listed cell has its flag cleared and keeps everything else; a cell not
      listed is untouched. */
  lemma {:induction false} ClearFlagsAtSpec(g: Grid<SimParticle>, cells: seq<(int, int)>, x: int, y: int)
    requires Grids.Valid(g) && InBounds(g, x, y)
    requires forall k :: 0 <= k < |cells| ==> InBounds(g, cells[k].0, cells[k].1)
    ensures Get(ClearFlagsAt(g, cells), x, y) ==
      if (x, y) in cells then Get(g, x, y).(updated := false) else Get(g, x, y)
    decreases |cells|
  {
    if |cells| > 0 {
      var init := cells[..|cells| - 1];
      ClearFlagsAtSpec(g, init, x, y);
      assert cells == init + [cells[|cells| - 1]];
    }
  }

  // ----------------------------------------------------- sand and water kept

  /** What a particle counts as for conservation: sand and water move by swaps and
      are never created or destroyed by a tick; wood, fire and empty cells all count
      as empty, since fire turns wood into fire and burns out. */
  function Granular(p: SimParticle): Material {
    if p.pt == Sand || p.pt == Water then p.pt else None
  }

  /** `update_sand` keeps the multiset of sand and water. */
  lemma UpdateSandKeepsGranular(f: Field, x0: int, y0: int)
    requires ValidField(f) && InBounds(f.grid, x0, y0)
    ensures Bag(UpdateSand(f, x0, y0).grid.data, Granular) == Bag(f.grid.data, Granular)
  {
    var m := SandMove(f.grid, x0, y0);
    var p := Get(f.grid, x0, y0);
    var g1 := Set(f.grid, x0, y0, p.(vy := m.v));
    SetKeepsBag(f.grid, x0, y0, p.(vy := m.v), Granular);
    if m.x != x0 || m.y != y0 {
      SwapKeepsBag(g1, x0, y0, m.x, m.y, Granular);
    }
  }

  /** `update_water` keeps the multiset of sand and water. */
  lemma UpdateWaterKeepsGranular(f: Field, x0: int, y0: int, spread: int)
    requires ValidField(f) && InBounds(f.grid, x0, y0)
    ensures Bag(UpdateWater(f, x0, y0, spread).grid.data, Granular) == Bag(f.grid.data, Granular)
  {
    var p := Get(f.grid, x0, y0);
    var e := Spread(f.grid, x0, y0, p.vx, 0, spread);
    var g1 := Set(f.grid, x0, y0, p.(vx := e.vx));
    SetKeepsBag(f.grid, x0, y0, p.(vx := e.vx), Granular);
    if e.x != x0 || e.y != y0 {
      SwapKeepsBag(g1, x0, y0, e.x, e.y, Granular);
    }
  }

  /** Offsets[d] is never the cell itself. */
  lemma OffsetNonZero(d: Dir8)
    ensures Offsets[d].0 != 0 || Offsets[d].1 != 0
  {
  }

  /** Lighting a wood neighbour keeps the multiset of sand and water and leaves
      the burning cell itself alone. */
  lemma IgniteKeepsGranular(f: Field, x: int, y: int, draw: FireDraw)
    requires ValidField(f) && InBounds(f.grid, x, y)
    ensures Bag(Ignite(f, x, y, draw).grid.data, Granular) == Bag(f.grid.data, Granular)
    ensures Get(Ignite(f, x, y, draw).grid, x, y) == Get(f.grid, x, y)
  {
    OffsetNonZero(draw.dir);
    var px, py := x + Offsets[draw.dir].0, y + Offsets[draw.dir].1;
    if draw.spreads && Test(f.grid, px, py, Wood) {
      var v := Get(f.grid, px, py).(pt := Fire, lifetime := draw.lifetime);
      SetKeepsBag(f.grid, px, py, v, Granular);
      assert Ignite(f, x, y, draw).grid == Set(f.grid, px, py, v);
      assert Get(Set(f.grid, px, py, v), x, y) == Get(f.grid, x, y);
    } else {
      assert Ignite(f, x, y, draw) == f;
    }
  }

  /** Burning a fire cell keeps the multiset of sand and water. */
  lemma BurnKeepsGranular(f: Field, x: int, y: int)
    requires ValidField(f) && InBounds(f.grid, x, y) && Get(f.grid, x, y).pt == Fire
    ensures Bag(Burn(f, x, y).grid.data, Granular) == Bag(f.grid.data, Granular)
  {
    var p := Get(f.grid, x, y);
    var lt := p.lifetime - FixedTimeStep;
    if lt <= 0 {
      var v := p.(pt := None, lifetime := lt);
      assert Burn(f, x, y).grid == Set(f.grid, x, y, v);
      SetKeepsBag(f.grid, x, y, v, Granular);
    } else {
      var v := p.(lifetime := lt);
      assert Burn(f, x, y).grid == Set(f.grid, x, y, v);
      SetKeepsBag(f.grid, x, y, v, Granular);
    }
  }

  /** `update_fire` on a burning cell keeps the multiset of sand and water: it only
      turns wood into fire and fire into nothing. */
  lemma UpdateFireKeepsGranular(f: Field, x: int, y: int, draw: FireDraw)
    requires ValidField(f) && InBounds(f.grid, x, y) && Get(f.grid, x, y).pt == Fire
    ensures Bag(UpdateFire(f, x, y, draw).grid.data, Granular) == Bag(f.grid.data, Granular)
  {
    IgniteKeepsGranular(f, x, y, draw);
    BurnKeepsGranular(Ignite(f, x, y, draw), x, y);
  }

  /** `update_particle` keeps the multiset of sand and water. */
  lemma UpdateParticleKeepsGranular(f: Field, x: int, y: int, spread: int, draw: FireDraw)
    requires ValidField(f) && InBounds(f.grid, x, y)
    ensures Bag(UpdateParticle(f, x, y, spread, draw).grid.data, Granular) == Bag(f.grid.data, Granular)
  {
    var p := Get(f.grid, x, y);
    if !p.updated {
      var f1 := Field(Set(f.grid, x, y, p.(updated := true)), f.marks);
      SetKeepsBag(f.grid, x, y, p.(updated := true), Granular);
      match p.pt
      case Sand => UpdateSandKeepsGranular(f1, x, y);
      case Water => UpdateWaterKeepsGranular(f1, x, y, spread);
      case Fire => UpdateFireKeepsGranular(f1, x, y, draw);
      case _ =>
    }
  }

  // ------------------------------------------------------------------ sweep

  /** `update_particle` applied at each position of `order` in turn; the random
      draws of fire come from `draws`, by position. */
  function Sweep(f: Field, order: seq<(int, int)>, spread: int, draws: (int, int) -> FireDraw): (f': Field)
    requires ValidField(f)
    requires forall k :: 0 <= k < |order| ==> InBounds(f.grid, order[k].0, order[k].1)
    ensures ValidField(f') && f'.grid.width == f.grid.width && f'.grid.height == f.grid.height
    decreases |order|
  {
    if |order| == 0 then f
    else
      var p := order[0];
      Sweep(UpdateParticle(f, p.0, p.1, spread, draws(p.0, p.1)), order[1..], spread, draws)
  }

  /** A sweep keeps the multiset of sand and water. */
  lemma {:induction false} SweepKeepsGranular(f: Field, order: seq<(int, int)>, spread: int, draws: (int, int) -> FireDraw)
    requires ValidField(f)
    requires forall k :: 0 <= k < |order| ==> InBounds(f.grid, order[k].0, order[k].1)
    ensures Bag(Sweep(f, order, spread, draws).grid.data, Granular) == Bag(f.grid.data, Granular)
    decreases |order|
  {
    if |order| > 0 {
      var p := order[0];
      var f1 := UpdateParticle(f, p.0, p.1, spread, draws(p.0, p.1));
      UpdateParticleKeepsGranular(f, p.0, p.1, spread, draws(p.0, p.1));
      SweepKeepsGranular(f1, order[1..], spread, draws);
    }
  }

  /** Clearing flags keeps the multiset of sand and water. */
  lemma {:induction false} ClearFlagsAtKeepsGranular(g: Grid<SimParticle>, cells: seq<(int, int)>)
    requires Grids.Valid(g)
    requires forall k :: 0 <= k < |cells| ==> InBounds(g, cells[k].0, cells[k].1)
    ensures Bag(ClearFlagsAt(g, cells).data, Granular) == Bag(g.data, Granular)
    decreases |cells|
  {
    if |cells| > 0 {
      var c := cells[|cells| - 1];
      var g1 := ClearFlagsAt(g, cells[..|cells| - 1]);
      ClearFlagsAtKeepsGranular(g, cells[..|cells| - 1]);
      SetKeepsBag(g1, c.0, c.1, Get(g1, c.0, c.1).(updated := false), Granular);
    }
  }
}

=== FILE: simtick.dfy ===
/** `Simulation`: the constructor, `update_region` and the tick `update()` of the
    chunked simulation. A tick shifts the partition by a drawn number of blocks,
    re-bins the dirty-block masks under the new shift, updates the regions in four
    passes by the parity of their indices, and flips the scan direction. */
module SimulationTick {
  import opened Grids
  import opened Materials
  import opened SimState
  import opened SimPhysics
  import opened RegionSweep
  import Partitioning
  import DirtyBlocks
  import UpdateScheduling
  import SingleGridWorld

  /** The members of `Simulation` the physics reads: the particle grid with its
      mark log, the scan direction, the water spread, the chunk size and counts,
      the partitioner and the dirty blocks. */
  datatype Sim = Sim(
    field: Field, updateDir: int, waterSpread: int,
    chunkSize: int, chunksWidth: nat, chunksHeight: nat,
    part: Partitioning.Partitioner, db: DirtyBlocks.DirtyBlocks)

  /** Every boundary lies in [0, limit]. */
  ghost predicate BoundsWithin(b: seq<int>, limit: int) {
    forall k :: 0 <= k < |b| ==> 0 <= b[k] <= limit
  }

  lemma ShiftedBoundsWithin(b: seq<int>, start: int, step: int, limit: int)
    requires Partitioning.ShiftedBounds(b, start, step, limit) && start >= 0 && limit >= 0
    ensures BoundsWithin(b, limit)
  {
  }

  /** The shape a simulation keeps: a grid of whole chunks, a partitioner of the
      same size whose boundaries are shifted by the dirty blocks' offsets, and a
      region grid with room for every region the partitioner yields. */
  ghost predicate SimValid(s: Sim) {
    && ValidField(s.field)
    && s.chunkSize > 0
    && s.field.grid.width == s.chunksWidth * s.chunkSize
    && s.field.grid.height == s.chunksHeight * s.chunkSize
    && s.part.width == s.field.grid.width && s.part.height == s.field.grid.height
    && s.part.chunkWidth == s.chunkSize && s.part.chunkHeight == s.chunkSize
    && s.part.blkWidth == s.chunkSize / 4 && s.part.blkHeight == s.chunkSize / 4
    && DirtyBlocks.Valid(s.db)
    && DirtyBlocks.Current(s.db).width == s.chunksWidth + 1
    && DirtyBlocks.Current(s.db).height == s.chunksHeight + 1
    && Partitioning.ShiftedBounds(s.part.xBounds, s.part.blkWidth * s.db.offX, s.chunkSize, s.part.width)
    && Partitioning.ShiftedBounds(s.part.yBounds, s.part.blkHeight * s.db.offY, s.chunkSize, s.part.height)
    && |s.part.xBounds| - 1 <= DirtyBlocks.Current(s.db).width
    && |s.part.yBounds| - 1 <= DirtyBlocks.Current(s.db).height
    && BoundsWithin(s.part.xBounds, s.part.width)
    && BoundsWithin(s.part.yBounds, s.part.height)
  }

  /** The partitioner's boundaries for the dirty blocks' offsets fit in the grid and
      give at most as many regions as the region grid holds. */
  lemma PartitionFits(s: Sim)
    requires ValidField(s.field) && s.chunkSize > 0
    requires s.field.grid.width == s.chunksWidth * s.chunkSize
    requires s.field.grid.height == s.chunksHeight * s.chunkSize
    requires s.part.width == s.field.grid.width && s.part.height == s.field.grid.height
    requires s.part.blkWidth == s.chunkSize / 4 && s.part.blkHeight == s.chunkSize / 4
    requires 0 <= s.db.offX && 0 <= s.db.offY
    requires Partitioning.ShiftedBounds(s.part.xBounds, s.part.blkWidth * s.db.offX, s.chunkSize, s.part.width)
    requires Partitioning.ShiftedBounds(s.part.yBounds, s.part.blkHeight * s.db.offY, s.chunkSize, s.part.height)
    ensures |s.part.xBounds| - 1 <= s.chunksWidth + 1 && |s.part.yBounds| - 1 <= s.chunksHeight + 1
    ensures BoundsWithin(s.part.xBounds, s.part.width) && BoundsWithin(s.part.yBounds, s.part.height)
  {
    Arith.MulLe(0, s.db.offX, s.part.blkWidth);
    Arith.MulLe(0, s.db.offY, s.part.blkHeight);
    assert s.part.blkWidth * s.db.offX >= 0 && s.part.blkHeight * s.db.offY >= 0;
    Partitioning.RegionCount(s.part.xBounds, s.part.blkWidth * s.db.offX, s.chunkSize, s.chunksWidth);
    Partitioning.RegionCount(s.part.yBounds, s.part.blkHeight * s.db.offY, s.chunkSize, s.chunksHeight);
    ShiftedBoundsWithin(s.part.xBounds, s.part.blkWidth * s.db.offX, s.chunkSize, s.part.width);
    ShiftedBoundsWithin(s.part.yBounds, s.part.blkHeight * s.db.offY, s.chunkSize, s.part.height);
  }

  /** `extent / chunk_size` for a non-negative extent. */
  function ChunkCount(extent: nat, chunkSize: int): (n: nat)
    requires chunkSize > 0
    ensures n == extent / chunkSize
  {
    assert extent / chunkSize >= 0;
    extent / chunkSize
  }

  lemma WholeChunks(a: nat, b: int)
    requires b > 0 && a % b == 0
    ensures a == (a / b) * b
  {
  }

  /** The value every cell starts with: empty, flag clear, `vel.x = -1`. */
  function InitialParticle(): SimParticle {
    DefaultParticle().(vx := -1)
  }

  /** The constructor. Chunk counts are `width / chunk_size` and `height / chunk_size`;
      the partitioner starts shifted by four blocks and the dirty blocks with
      offsets (4, 4) and every mask clear, so nothing needs an update until a
      block is marked. */
  method NewSim(width: nat, height: nat, chunkSize: int) returns (s: Sim)
    requires chunkSize > 0
    ensures ValidField(s.field) && s.field.grid.width == width && s.field.grid.height == height
    ensures forall x, y :: InBounds(s.field.grid, x, y) ==> Get(s.field.grid, x, y) == InitialParticle()
    ensures s.field.marks == []
    ensures s.updateDir == 1 && s.waterSpread == WaterSpread(width, height) && s.waterSpread >= 1
    ensures s.chunksWidth == width / chunkSize && s.chunksHeight == height / chunkSize
    ensures s.db.offX == 4 && s.db.offY == 4
    ensures DirtyBlocks.Valid(s.db)
    ensures forall i, j :: InBounds(DirtyBlocks.Current(s.db), i, j) ==>
      !DirtyBlocks.TestRegion(s.db, DirtyBlocks.QUpdate, i, j) &&
      !DirtyBlocks.TestRegion(s.db, DirtyBlocks.QRedraw, i, j)
    ensures width % chunkSize == 0 && height % chunkSize == 0 ==> SimValid(s)
  {
    var grid := Grids.New(width, height, InitialParticle());
    var part := Partitioning.New(width, height, chunkSize, chunkSize, chunkSize / 4, chunkSize / 4);
    var cw, ch := ChunkCount(width, chunkSize), ChunkCount(height, chunkSize);
    var db := DirtyBlocks.New(cw, ch);
    s := Sim(Field(grid, []), 1, WaterSpread(width, height), chunkSize, cw, ch, part, db);
    if width % chunkSize == 0 && height % chunkSize == 0 {
      WholeChunks(width, chunkSize);
      WholeChunks(height, chunkSize);
      PartitionFits(s);
    }
  }

  // ---------------------------------------------------------- update_region

  /** Cell (x, y) lies in region (i, j): between `x_bound(i)` and `x_bound(i + 1) - 1`,
      and likewise for rows. */
  predicate InRegion(s: Sim, i: nat, j: nat, x: int, y: int)
    requires i + 1 < |s.part.xBounds| && j + 1 < |s.part.yBounds|
  {
    s.part.xBounds[i] <= x <= s.part.xBounds[i + 1] - 1 && s.part.yBounds[j] <= y <= s.part.yBounds[j + 1] - 1
  }

  /** `update_region(i, j)` as a function of the simulation: a clean region is
      left alone; a dirty one has its update mask cleared and its cells' flags reset
      and swept in scan order. Only the grid and the dirty blocks change, and sand
      and water are conserved. */
  function RegionStep(s: Sim, i: nat, j: nat, draws: (int, int) -> FireDraw): (s': Sim)
    requires SimValid(s) && i + 1 < |s.part.xBounds| && j + 1 < |s.part.yBounds|
    ensures SimValid(s')
    ensures s'.(field := s.field, db := s.db) == s
    ensures s'.db.offX == s.db.offX && s'.db.offY == s.db.offY
    ensures Bag(s'.field.grid.data, Granular) == Bag(s.field.grid.data, Granular)
  {
    if !DirtyBlocks.TestRegion(s.db, DirtyBlocks.QUpdate, i, j) then s
    else
      DirtyBlocks.ResetThenTestRegion(s.db, DirtyBlocks.QUpdate, i, j);
      s.(field := SweepRegion(s, i, j, draws), db := DirtyBlocks.ResetRegion(s.db, DirtyBlocks.QUpdate, i, j))
  }

  /** The grid of a dirty region after `update_region`: the flags of its cells
      reset, then `update_particle` on each in scan order. */
  function SweepRegion(s: Sim, i: nat, j: nat, draws: (int, int) -> FireDraw): (f: Field)
    requires SimValid(s) && i + 1 < |s.part.xBounds| && j + 1 < |s.part.yBounds|
    ensures ValidField(f) && f.grid.width == s.field.grid.width && f.grid.height == s.field.grid.height
    ensures Bag(f.grid.data, Granular) == Bag(s.field.grid.data, Granular)
  {
    var order := RegionOrder(s, i, j);
    var g := ClearFlagsAt(s.field.grid, order);
    ClearFlagsAtKeepsGranular(s.field.grid, order);
    SweepKeepsGranular(Field(g, s.field.marks), order, s.waterSpread, draws);
    Sweep(Field(g, s.field.marks), order, s.waterSpread, draws)
  }

  /** The cells of region (i, j) in the order `update_region` visits them; they
      all lie in the grid. */
  function RegionOrder(s: Sim, i: nat, j: nat): (order: seq<(int, int)>)
    requires SimValid(s) && i + 1 < |s.part.xBounds| && j + 1 < |s.part.yBounds|
    ensures forall k :: 0 <= k < |order| ==> InBounds(s.field.grid, order[k].0, order[k].1)
  {
    var left, top := s.part.xBounds[i], s.part.yBounds[j];
    var right, bottom := s.part.xBounds[i + 1] - 1, s.part.yBounds[j + 1] - 1;
    RegionWithinGrid(s, i, j);
    BoxOrder(s.field.grid, left, right, s.updateDir > 0, bottom, top)
  }

  /** A region's box lies in the grid. */
  lemma RegionWithinGrid(s: Sim, i: nat, j: nat)
    requires SimValid(s) && i + 1 < |s.part.xBounds| && j + 1 < |s.part.yBounds|
    ensures 0 <= s.part.xBounds[i] && s.part.xBounds[i + 1] <= s.field.grid.width
    ensures 0 <= s.part.yBounds[j] && s.part.yBounds[j + 1] <= s.field.grid.height
  {
    assert BoundsWithin(s.part.xBounds, s.part.width) && BoundsWithin(s.part.yBounds, s.part.height);
  }

  /** `update_region` over the regions of `rs` in turn. */
  function Tick(s: Sim, rs: seq<(nat, nat)>, draws: (int, int) -> FireDraw): (s': Sim)
    requires SimValid(s)
    requires forall k :: 0 <= k < |rs| ==> rs[k].0 + 1 < |s.part.xBounds| && rs[k].1 + 1 < |s.part.yBounds|
    ensures SimValid(s')
    ensures s'.(field := s.field, db := s.db) == s
    ensures s'.db.offX == s.db.offX && s'.db.offY == s.db.offY
    ensures Bag(s'.field.grid.data, Granular) == Bag(s.field.grid.data, Granular)
    decreases |rs|
  {
    if |rs| == 0 then s
    else
      var r := rs[|rs| - 1];
      RegionStep(Tick(s, rs[..|rs| - 1], draws), r.0, r.1, draws)
  }

  /** `update_region(i, j)`: a region whose update mask is clear is left alone.
      Otherwise its update mask is cleared, every cell's flag in it is reset, and
      `update_particle` runs on each of its cells once, rows bottom to top, each
      row in the tick's direction. Sand and water are conserved either way. */
  method UpdateRegion(s: Sim, i: nat, j: nat, draws: (int, int) -> FireDraw) returns (s': Sim, order: seq<(int, int)>)
    requires SimValid(s) && i + 1 < |s.part.xBounds| && j + 1 < |s.part.yBounds|
    ensures s' == RegionStep(s, i, j, draws)
    ensures SimValid(s')
    ensures s'.(field := s.field, db := s.db) == s
    ensures s'.db.offX == s.db.offX && s'.db.offY == s.db.offY
    ensures !DirtyBlocks.TestRegion(s.db, DirtyBlocks.QUpdate, i, j) ==> s' == s && order == []
    ensures DirtyBlocks.TestRegion(s.db, DirtyBlocks.QUpdate, i, j) ==>
      && s'.db == DirtyBlocks.ResetRegion(s.db, DirtyBlocks.QUpdate, i, j)
      && !DirtyBlocks.TestRegion(s'.db, DirtyBlocks.QUpdate, i, j)
      && (forall k :: 0 <= k < |order| ==> InRegion(s, i, j, order[k].0, order[k].1))
      && (forall x, y :: InRegion(s, i, j, x, y) ==> (x, y) in order)
      && (forall k, k' :: 0 <= k < k' < |order| ==>
            SingleGridWorld.ScanBefore(order[k], order[k'], s.updateDir > 0))
      && (forall k :: 0 <= k < |order| ==> InBounds(s.field.grid, order[k].0, order[k].1))
      && s'.field == Sweep(Field(ClearFlagsAt(s.field.grid, order), s.field.marks), order, s.waterSpread, draws)
    ensures Bag(s'.field.grid.data, Granular) == Bag(s.field.grid.data, Granular)
  {
    if !DirtyBlocks.TestRegion(s.db, DirtyBlocks.QUpdate, i, j) {
      return s, [];
    }
    order := ScanRegion(s, i, j);
    DirtyRegionStep(s, i, j, draws);
    s' := RegionStep(s, i, j, draws);
  }

  /** The scan of region (i, j): its cells, each once, in the tick's scan order. */
  method ScanRegion(s: Sim, i: nat, j: nat) returns (order: seq<(int, int)>)
    requires SimValid(s) && i + 1 < |s.part.xBounds| && j + 1 < |s.part.yBounds|
    ensures order == RegionOrder(s, i, j)
    ensures forall k :: 0 <= k < |order| ==> InRegion(s, i, j, order[k].0, order[k].1)
    ensures forall x, y :: InRegion(s, i, j, x, y) ==> (x, y) in order
    ensures forall k, k' :: 0 <= k < k' < |order| ==>
      SingleGridWorld.ScanBefore(order[k], order[k'], s.updateDir > 0)
  {
    var left, top := s.part.xBounds[i], s.part.yBounds[j];
    var right, bottom := s.part.xBounds[i + 1] - 1, s.part.yBounds[j + 1] - 1;
    order := RegionScan(left, top, right, bottom, s.updateDir > 0);
  }

  /** A dirty region's step clears its update mask and sweeps its cells after
      resetting their flags. */
  lemma DirtyRegionStep(s: Sim, i: nat, j: nat, draws: (int, int) -> FireDraw)
    requires SimValid(s) && i + 1 < |s.part.xBounds| && j + 1 < |s.part.yBounds|
    requires DirtyBlocks.TestRegion(s.db, DirtyBlocks.QUpdate, i, j)
    ensures var s', order := RegionStep(s, i, j, draws), RegionOrder(s, i, j);
      && s'.db == DirtyBlocks.ResetRegion(s.db, DirtyBlocks.QUpdate, i, j)
      && !DirtyBlocks.TestRegion(s'.db, DirtyBlocks.QUpdate, i, j)
      && s'.field == Sweep(Field(ClearFlagsAt(s.field.grid, order), s.field.marks), order, s.waterSpread, draws)
  {
    DirtyBlocks.ResetThenTestRegion(s.db, DirtyBlocks.QUpdate, i, j);
  }

  // ------------------------------------------------------------ the schedule

  /** Region a comes before region b in a tick: by pass (the parity group of
      updatescheduler.cpp), then by row, then by column. */
  predicate PassBefore(a: (nat, nat), b: (nat, nat)) {
    var ga, gb := UpdateScheduling.GroupIdx(a.0, a.1), UpdateScheduling.GroupIdx(b.0, b.1);
    ga < gb || (ga == gb && (a.1 < b.1 || (a.1 == b.1 && a.0 < b.0)))
  }

  /** The inner loop of one pass: regions i = pi, pi + 2, ... below n in row j. */
  method PassRow(n: nat, pi: nat, j: nat) returns (row: seq<(nat, nat)>)
    requires pi < 2
    ensures forall k :: 0 <= k < |row| ==> row[k].1 == j && row[k].0 < n && row[k].0 % 2 == pi
    ensures forall i: nat :: i < n && i % 2 == pi ==> (i, j) in row
    ensures forall k, k' :: 0 <= k < k' < |row| ==> row[k].0 < row[k'].0
  {
    row := [];
    var i: nat := pi;
    while i < n
      invariant i % 2 == pi
      invariant forall k :: 0 <= k < |row| ==> row[k].1 == j && row[k].0 < i && row[k].0 < n && row[k].0 % 2 == pi
      invariant forall a: nat :: a < i && a < n && a % 2 == pi ==> (a, j) in row
      invariant forall k, k' :: 0 <= k < k' < |row| ==> row[k].0 < row[k'].0
      decreases n - i
    {
      row := row + [(i, j)];
      i := i + 2;
    }
  }

  /** One of the four passes of `update()`: every region (i, j) below (n, m) whose
      indices have parities (pi, pj), row by row. */
  method Pass(n: nat, m: nat, pi: nat, pj: nat) returns (cells: seq<(nat, nat)>)
    requires pi < 2 && pj < 2
    ensures forall k :: 0 <= k < |cells| ==>
      cells[k].0 < n && cells[k].1 < m && cells[k].0 % 2 == pi && cells[k].1 % 2 == pj
    ensures forall i: nat, j: nat :: i < n && j < m && i % 2 == pi && j % 2 == pj ==> (i, j) in cells
    ensures forall k, k' :: 0 <= k < k' < |cells| ==>
      cells[k].1 < cells[k'].1 || (cells[k].1 == cells[k'].1 && cells[k].0 < cells[k'].0)
  {
    cells := [];
    var j: nat := pj;
    while j < m
      invariant j % 2 == pj
      invariant forall k :: 0 <= k < |cells| ==>
        cells[k].0 < n && cells[k].1 < j && cells[k].1 < m && cells[k].0 % 2 == pi && cells[k].1 % 2 == pj
      invariant forall a: nat, b: nat :: a < n && b < j && b < m && a % 2 == pi && b % 2 == pj ==> (a, b) in cells
      invariant forall k, k' :: 0 <= k < k' < |cells| ==>
        cells[k].1 < cells[k'].1 || (cells[k].1 == cells[k'].1 && cells[k].0 < cells[k'].0)
      decreases m - j
    {
      var row := PassRow(n, pi, j);
      cells := cells + row;
      j := j + 2;
    }
  }

  /** The regions `update()` visits, in order: the passes (even, even), (odd, even),
      (even, odd), (odd, odd) of (column, row) parity. Every region appears once. */
  method Schedule(n: nat, m: nat) returns (schedule: seq<(nat, nat)>)
    ensures forall k :: 0 <= k < |schedule| ==> schedule[k].0 < n && schedule[k].1 < m
    ensures forall i: nat, j: nat :: i < n && j < m ==> (i, j) in schedule
    ensures forall k, k' :: 0 <= k < k' < |schedule| ==> PassBefore(schedule[k], schedule[k'])
  {
    var p0 := Pass(n, m, 0, 0);
    var p1 := Pass(n, m, 1, 0);
    var p2 := Pass(n, m, 0, 1);
    var p3 := Pass(n, m, 1, 1);
    PassesInOrder(p0, p1, 0, 0, 1, 0);
    PassesInOrder(p0 + p1, p2, 0, 0, 0, 1);
    PassesInOrder(p0 + p1 + p2, p3, 0, 0, 1, 1);
    schedule := p0 + p1 + p2 + p3;
    forall i: nat, j: nat | i < n && j < m ensures (i, j) in schedule {
      if i % 2 == 0 && j % 2 == 0 {
        assert (i, j) in p0;
      } else if j % 2 == 0 {
        assert (i, j) in p1;
      } else if i % 2 == 0 {
        assert (i, j) in p2;
      } else {
        assert (i, j) in p3;
      }
    }
  }

  /** Appending a pass of a later group keeps the schedule in order. */
  lemma PassesInOrder(a: seq<(nat, nat)>, b: seq<(nat, nat)>, ai: nat, aj: nat, pi: nat, pj: nat)
    requires pi < 2 && pj < 2
    requires forall k, k' :: 0 <= k < k' < |a| ==> PassBefore(a[k], a[k'])
    requires forall k :: 0 <= k < |a| ==> UpdateScheduling.GroupIdx(a[k].0, a[k].1) < 2 * pj + pi
    requires forall k :: 0 <= k < |b| ==> b[k].0 % 2 == pi && b[k].1 % 2 == pj
    requires forall k, k' :: 0 <= k < k' < |b| ==>
      b[k].1 < b[k'].1 || (b[k].1 == b[k'].1 && b[k].0 < b[k'].0)
    ensures forall k, k' :: 0 <= k < k' < |a + b| ==> PassBefore((a + b)[k], (a + b)[k'])
  {
  }

  /** Regions of one pass are never neighbours, so the source can update them in
      parallel: any two distinct regions of a tick's schedule that share a pass are
      at least two apart in some direction. */
  lemma OnePassNeverAdjacent(schedule: seq<(nat, nat)>, k: int, k': int)
    requires 0 <= k < k' < |schedule|
    requires forall a, b :: 0 <= a < b < |schedule| ==> PassBefore(schedule[a], schedule[b])
    requires UpdateScheduling.GroupIdx(schedule[k].0, schedule[k].1) == UpdateScheduling.GroupIdx(schedule[k'].0, schedule[k'].1)
    ensures var (a, b), (a', b') := schedule[k], schedule[k'];
      a as int - a' >= 2 || a' as int - a >= 2 || b as int - b' >= 2 || b' as int - b >= 2
  {
    assert PassBefore(schedule[k], schedule[k']);
    UpdateScheduling.SameGroupNotAdjacent(schedule[k].0, schedule[k].1, schedule[k'].0, schedule[k'].1);
  }

  // ------------------------------------------------------------------ update

  /** `update()`: shift the partitioner and the dirty blocks by the drawn offsets,
      run `update_region` over the schedule and negate the scan direction. The
      regions visited are exactly the partitioner's, each once, pass by pass; the
      shape of the simulation and its sand and water are kept. */
  method Update(s: Sim, offX: int, offY: int, draws: (int, int) -> FireDraw)
    returns (s': Sim, shifted: Sim, schedule: seq<(nat, nat)>)
    requires SimValid(s) && 1 <= offX <= 4 && 1 <= offY <= 4
    ensures SimValid(shifted) && shifted.(part := s.part, db := s.db) == s
    ensures shifted.part == s.part.(xBounds := shifted.part.xBounds, yBounds := shifted.part.yBounds)
    ensures shifted.db.offX == offX && shifted.db.offY == offY
    ensures DirtyBlocks.Next(shifted.db) == DirtyBlocks.Current(s.db)
    ensures forall x, y :: DirtyBlocks.InBlockRange(s.db, x, y) ==>
      (DirtyBlocks.UpdateBit(shifted.db, x, y) <==> DirtyBlocks.UpdateBit(s.db, x, y)) &&
      (DirtyBlocks.RedrawBit(shifted.db, x, y) <==> DirtyBlocks.RedrawBit(s.db, x, y))
    ensures forall x, y :: !DirtyBlocks.InBlockRange(s.db, x, y) ==>
      !DirtyBlocks.UpdateBit(shifted.db, x, y) && !DirtyBlocks.RedrawBit(shifted.db, x, y)
    ensures SimValid(s')
    ensures s'.updateDir == -s.updateDir && s'.waterSpread == s.waterSpread
    ensures s'.db.offX == offX && s'.db.offY == offY
    ensures Partitioning.ShiftedBounds(s'.part.xBounds, s.part.blkWidth * offX, s.chunkSize, s.part.width)
    ensures Partitioning.ShiftedBounds(s'.part.yBounds, s.part.blkHeight * offY, s.chunkSize, s.part.height)
    ensures forall k :: 0 <= k < |schedule| ==>
      schedule[k].0 < |s'.part.xBounds| - 1 && schedule[k].1 < |s'.part.yBounds| - 1
    ensures forall i: nat, j: nat :: i < |s'.part.xBounds| - 1 && j < |s'.part.yBounds| - 1 ==> (i, j) in schedule
    ensures forall k, k' :: 0 <= k < k' < |schedule| ==> PassBefore(schedule[k], schedule[k'])
    ensures s'.part == shifted.part
    ensures s' == Tick(shifted, schedule, draws).(updateDir := -s.updateDir)
    ensures Bag(s'.field.grid.data, Granular) == Bag(s.field.grid.data, Granular)
  {
    shifted := ShiftSim(s, offX, offY);
    schedule := Schedule(|shifted.part.xBounds| - 1, |shifted.part.yBounds| - 1);
    s' := RunSchedule(shifted, schedule, draws);
    s' := s'.(updateDir := -s.updateDir);
  }

  /** The first half of `update()`: the partitioner and the dirty blocks move to
      the drawn offsets; the grid and everything else stay. */
  method ShiftSim(s: Sim, offX: int, offY: int) returns (shifted: Sim)
    requires SimValid(s) && 1 <= offX <= 4 && 1 <= offY <= 4
    ensures SimValid(shifted) && shifted.(part := s.part, db := s.db) == s
    ensures shifted.part == s.part.(xBounds := shifted.part.xBounds, yBounds := shifted.part.yBounds)
    ensures Partitioning.ShiftedBounds(shifted.part.xBounds, s.part.blkWidth * offX, s.chunkSize, s.part.width)
    ensures Partitioning.ShiftedBounds(shifted.part.yBounds, s.part.blkHeight * offY, s.chunkSize, s.part.height)
    ensures shifted.db.offX == offX && shifted.db.offY == offY
    ensures DirtyBlocks.Next(shifted.db) == DirtyBlocks.Current(s.db)
    ensures forall x, y :: DirtyBlocks.InBlockRange(s.db, x, y) ==>
      (DirtyBlocks.UpdateBit(shifted.db, x, y) <==> DirtyBlocks.UpdateBit(s.db, x, y)) &&
      (DirtyBlocks.RedrawBit(shifted.db, x, y) <==> DirtyBlocks.RedrawBit(s.db, x, y))
    ensures forall x, y :: !DirtyBlocks.InBlockRange(s.db, x, y) ==>
      !DirtyBlocks.UpdateBit(shifted.db, x, y) && !DirtyBlocks.RedrawBit(shifted.db, x, y)
  {
    var part := Partitioning.Shift(s.part, offX, offY);
    var db := DirtyBlocks.NewShift(s.db, offX, offY);
    shifted := s.(part := part, db := db);
    PartitionFits(shifted);
  }

  /** The second half of `update()`: `update_region` on each scheduled region in
      turn, which is the fold `Tick`. */
  method RunSchedule(s: Sim, schedule: seq<(nat, nat)>, draws: (int, int) -> FireDraw) returns (s': Sim)
    requires SimValid(s)
    requires forall k :: 0 <= k < |schedule| ==>
      schedule[k].0 + 1 < |s.part.xBounds| && schedule[k].1 + 1 < |s.part.yBounds|
    ensures s' == Tick(s, schedule, draws)
  {
    s' := s;
    var k := 0;
    while k < |schedule|
      invariant 0 <= k <= |schedule|
      invariant s' == Tick(s, schedule[..k], draws)
    {
      var r := schedule[k];
      var order;
      assert schedule[..k + 1][..k] == schedule[..k];
      s', order := UpdateRegion(s', r.0, r.1, draws);
      k := k + 1;
    }
    assert schedule[..k] == schedule;
  }

}

=== FILE: world.dfy ===
/** The chunked world of world.hpp: 64x64-cell chunks, 512x512-cell blocks of
    8x8 chunks, and a `World` that keeps `NUM_BLOCKS` block slots and a
    NUM_BLOCKS x NUM_BLOCKS slot map from block positions (relative to
    (left, top)) to slots, `NUM_BLOCKS` marking an empty position. */
module BlockWorld {
  import opened DirtyRect

  const ChunkSize: int := 64
  const BlockSize: int := 512
  /** `Block::N`, the number of chunks along a block's side. */
  const BlockN: int := BlockSize / ChunkSize
  const NumBlocks: nat := 2

  /** `chunk_bounds(ch_x, ch_y)`: the absolute cell box of a chunk. */
  function ChunkBounds(chX: int, chY: int): (r: Rect)
    ensures Width(r) == ChunkSize && Height(r) == ChunkSize
    ensures !IsEmpty(r)
  {
    Rect(chX * ChunkSize, chY * ChunkSize, (chX + 1) * ChunkSize - 1, (chY + 1) * ChunkSize - 1)
  }

  /** For non-negative coordinates, a chunk's bounds hold a cell exactly when the
      cell's coordinates divided by the chunk size name that chunk. */
  lemma ChunkBoundsContains(chX: int, chY: int, x: int, y: int)
    requires x >= 0 && y >= 0
    ensures Contains(ChunkBounds(chX, chY), x, y) <==> x / ChunkSize == chX && y / ChunkSize == chY
  {
  }

  /** Bounds of distinct chunks never intersect, so the chunks tile the plane. */
  lemma ChunkBoundsDisjoint(chX: int, chY: int, chX': int, chY': int)
    requires chX != chX' || chY != chY'
    ensures !Intersects(ChunkBounds(chX, chY), ChunkBounds(chX', chY'))
  {
    var r, o := ChunkBounds(chX, chY), ChunkBounds(chX', chY');
    if chX < chX' {
      assert r.right < o.left;
    } else if chX' < chX {
      assert o.right < r.left;
    } else if chY < chY' {
      assert r.bottom < o.top;
    } else {
      assert o.bottom < r.top;
    }
  }

  lemma BlockHoldsEightChunks()
    ensures BlockN == 8 && BlockN * ChunkSize == BlockSize
  {
  }

  /** The dirty-rect part of a chunk: the current and next dirty boxes and the redraw box. */
  datatype Chunk = Chunk(curDirty: Rect, nextDirty: Rect, needsRedrawing: Rect)

  /** `is_dirty()`. */
  predicate IsDirty(c: Chunk) {
    !IsEmpty(c.curDirty)
  }

  /** A chunk is dirty exactly when its current dirty box covers some cell. */
  lemma DirtyIffSomeCell(c: Chunk)
    ensures IsDirty(c) <==> exists x, y :: Contains(c.curDirty, x, y)
  {
    EmptyIffNoPoint(c.curDirty);
  }

  /** A block: its N x N chunks, row by row. */
  datatype Block = Block(chunks: seq<seq<Chunk>>)

  datatype World = World(left: int, top: int, slotmap: seq<seq<nat>>, blocks: seq<Block>)

  /** The shape of the slot map and the invariant the walk relies on: every
      entry is a slot index or the `NumBlocks` sentinel. */
  predicate WellFormed(w: World) {
    && |w.blocks| == NumBlocks
    && |w.slotmap| == NumBlocks
    && (forall j :: 0 <= j < NumBlocks ==> |w.slotmap[j]| == NumBlocks)
    && (forall j, i :: 0 <= j < NumBlocks && 0 <= i < NumBlocks ==> w.slotmap[j][i] <= NumBlocks)
  }

  /** Position (i, j) of the slot map holds a block. */
  predicate Occupied(w: World, i: int, j: int)
    requires WellFormed(w)
  {
    0 <= i < NumBlocks && 0 <= j < NumBlocks && w.slotmap[j][i] != NumBlocks
  }

  /** One call `f(blk_x, blk_y, block)`. */
  datatype Visit = Visit(blkX: int, blkY: int, block: Block)

  /** Row-major order on block positions: (x, y) comes before (x', y'). */
  predicate Before(x: int, y: int, x': int, y': int) {
    y < y' || (y == y' && x < x')
  }

  /** The call is the one `enumerate_blocks` makes for an occupied position. */
  predicate IsVisitOf(w: World, v: Visit)
    requires WellFormed(w)
  {
    var i, j := v.blkX - w.left, v.blkY - w.top;
    Occupied(w, i, j) && v.block == w.blocks[w.slotmap[j][i]]
  }

  /** The calls `enumerate_blocks` makes for the first m rows of the slot map. */
  function AllVisits(w: World, m: int): seq<Visit>
    requires WellFormed(w) && 0 <= m <= NumBlocks
    decreases m
  {
    if m == 0 then [] else AllVisits(w, m - 1) + RowVisits(w, m - 1, NumBlocks)
  }

  /** Every call for the first m rows is the call for an occupied position above row m. */
  lemma {:induction false} AllVisitsSound(w: World, m: int)
    requires WellFormed(w) && 0 <= m <= NumBlocks
    ensures var vs := AllVisits(w, m);
      forall k :: 0 <= k < |vs| ==> IsVisitOf(w, vs[k]) && vs[k].blkY < w.top + m
    decreases m
  {
    if m > 0 {
      AllVisitsSound(w, m - 1);
      RowVisitsSound(w, m - 1, NumBlocks);
      var prev, row := AllVisits(w, m - 1), RowVisits(w, m - 1, NumBlocks);
      assert forall k :: |prev| <= k < |prev| + |row| ==> AllVisits(w, m)[k] == row[k - |prev|];
    }
  }

  /** Every occupied position above row m gets its call. */
  lemma {:induction false} AllVisitsComplete(w: World, m: int)
    requires WellFormed(w) && 0 <= m <= NumBlocks
    ensures forall i, j :: Occupied(w, i, j) && j < m ==>
      Visit(w.left + i, w.top + j, w.blocks[w.slotmap[j][i]]) in AllVisits(w, m)
    decreases m
  {
    if m > 0 {
      AllVisitsComplete(w, m - 1);
      RowVisitsComplete(w, m - 1, NumBlocks);
      var prev, row := AllVisits(w, m - 1), RowVisits(w, m - 1, NumBlocks);
      assert AllVisits(w, m) == prev + row;
      forall i, j | Occupied(w, i, j) && j < m
        ensures Visit(w.left + i, w.top + j, w.blocks[w.slotmap[j][i]]) in AllVisits(w, m)
      {
        var v := Visit(w.left + i, w.top + j, w.blocks[w.slotmap[j][i]]);
        if j < m - 1 {
          assert v in prev;
        } else {
          assert v in row;
        }
      }
    }
  }

  /** The calls come in row-major order. */
  lemma {:induction false} AllVisitsOrdered(w: World, m: int)
    requires WellFormed(w) && 0 <= m <= NumBlocks
    ensures var vs := AllVisits(w, m);
      forall k, k' :: 0 <= k < k' < |vs| ==> Before(vs[k].blkX, vs[k].blkY, vs[k'].blkX, vs[k'].blkY)
    decreases m
  {
    if m > 0 {
      AllVisitsOrdered(w, m - 1);
      AllVisitsSound(w, m - 1);
      RowVisitsSound(w, m - 1, NumBlocks);
      RowVisitsOrdered(w, m - 1, NumBlocks);
      var prev, row := AllVisits(w, m - 1), RowVisits(w, m - 1, NumBlocks);
      assert forall k :: |prev| <= k < |prev| + |row| ==> AllVisits(w, m)[k] == row[k - |prev|];
    }
  }

  /** `enumerate_blocks(f)`: the sequence of calls made to `f`. */
  method EnumerateBlocks(w: World) returns (visits: seq<Visit>)
    requires WellFormed(w)
    ensures forall k :: 0 <= k < |visits| ==> IsVisitOf(w, visits[k])
    ensures forall i, j :: Occupied(w, i, j) ==>
      Visit(w.left + i, w.top + j, w.blocks[w.slotmap[j][i]]) in visits
    ensures forall k, k' :: 0 <= k < k' < |visits| ==>
      Before(visits[k].blkX, visits[k].blkY, visits[k'].blkX, visits[k'].blkY)
  {
    visits := [];
    var j := 0;
    while j < NumBlocks
      invariant 0 <= j <= NumBlocks
      invariant visits == AllVisits(w, j)
    {
      var row := EnumerateRow(w, j);
      visits := visits + row;
      j := j + 1;
    }
    AllVisitsSound(w, NumBlocks);
    AllVisitsComplete(w, NumBlocks);
    AllVisitsOrdered(w, NumBlocks);
  }

  /** The calls the inner loop of `enumerate_blocks` makes for the first n
      positions of slot-map row j. */
  function RowVisits(w: World, j: int, n: int): seq<Visit>
    requires WellFormed(w) && 0 <= j < NumBlocks && 0 <= n <= NumBlocks
    decreases n
  {
    if n == 0 then []
    else
      var slot := w.slotmap[j][n - 1];
      RowVisits(w, j, n - 1) + (if slot != NumBlocks then [Visit(w.left + n - 1, w.top + j, w.blocks[slot])] else [])
  }

  /** Every call for the first n positions of row j is the call for an occupied
      position of that row left of column n. */
  lemma {:induction false} RowVisitsSound(w: World, j: int, n: int)
    requires WellFormed(w) && 0 <= j < NumBlocks && 0 <= n <= NumBlocks
    ensures var row := RowVisits(w, j, n);
      forall k :: 0 <= k < |row| ==> IsVisitOf(w, row[k]) && row[k].blkY == w.top + j && row[k].blkX < w.left + n
    decreases n
  {
    if n > 0 {
      RowVisitsSound(w, j, n - 1);
      var slot := w.slotmap[j][n - 1];
      if slot != NumBlocks {
        assert IsVisitOf(w, Visit(w.left + n - 1, w.top + j, w.blocks[slot]));
      }
    }
  }

  /** Every occupied position of row j left of column n gets its call. */
  lemma {:induction false} RowVisitsComplete(w: World, j: int, n: int)
    requires WellFormed(w) && 0 <= j < NumBlocks && 0 <= n <= NumBlocks
    ensures forall i :: Occupied(w, i, j) && i < n ==>
      Visit(w.left + i, w.top + j, w.blocks[w.slotmap[j][i]]) in RowVisits(w, j, n)
    decreases n
  {
    if n > 0 {
      RowVisitsComplete(w, j, n - 1);
      var prev := RowVisits(w, j, n - 1);
      assert forall v :: v in prev ==> v in RowVisits(w, j, n);
    }
  }

  /** The calls for row j go from left to right. */
  lemma {:induction false} RowVisitsOrdered(w: World, j: int, n: int)
    requires WellFormed(w) && 0 <= j < NumBlocks && 0 <= n <= NumBlocks
    ensures var row := RowVisits(w, j, n);
      forall k, k' :: 0 <= k < k' < |row| ==> row[k].blkX < row[k'].blkX
    decreases n
  {
    if n > 0 {
      RowVisitsOrdered(w, j, n - 1);
      RowVisitsSound(w, j, n - 1);
    }
  }

  /** The inner loop of `enumerate_blocks` for slot-map row j. */
  method EnumerateRow(w: World, j: int) returns (row: seq<Visit>)
    requires WellFormed(w) && 0 <= j < NumBlocks
    ensures row == RowVisits(w, j, NumBlocks)
    ensures forall k :: 0 <= k < |row| ==> IsVisitOf(w, row[k]) && row[k].blkY == w.top + j
    ensures forall i :: Occupied(w, i, j) ==> Visit(w.left + i, w.top + j, w.blocks[w.slotmap[j][i]]) in row
    ensures forall k, k' :: 0 <= k < k' < |row| ==> row[k].blkX < row[k'].blkX
  {
    row := [];
    var i := 0;
    while i < NumBlocks
      invariant 0 <= i <= NumBlocks
      invariant row == RowVisits(w, j, i)
    {
      var slot := w.slotmap[j][i];
      if slot != NumBlocks {
        row := row + [Visit(w.left + i, w.top + j, w.blocks[slot])];
      }
      i := i + 1;
    }
    RowVisitsSound(w, j, NumBlocks);
    RowVisitsComplete(w, j, NumBlocks);
    RowVisitsOrdered(w, j, NumBlocks);
  }
}

=== FILE: xorshift.dfy ===
/** `XorShift`: the xorshift128+ generator. The state is two 64-bit words; each
    call scrambles the first word, mixes in the second and returns the wrapping
    sum of the second word and the new word. */
module XorShift128Plus {
  datatype State = State(x0: bv64, x1: bv64)

  /** The seed of the default constructor. */
  const DefaultSeed: State := State(0xDEADBEEF, 0xB16B00B5)

  /** Steps a and b of the generator: `t ^= t << 23; t ^= t >> 18`. */
  function ShiftMix(t: bv64): bv64 {
    var a := t ^ (t << 23);
    a ^ (a >> 18)
  }

  /** Undoes `a ^= a >> 18`. */
  function UnRight(v: bv64): bv64 {
    v ^ (v >> 18) ^ (v >> 36) ^ (v >> 54)
  }

  /** Undoes `t ^= t << 23`. */
  function UnLeft(a: bv64): bv64 {
    a ^ (a << 23) ^ (a << 46)
  }

  function UnShiftMix(v: bv64): bv64 {
    UnLeft(UnRight(v))
  }

  lemma UnRightInverts(a: bv64)
    ensures UnRight(a ^ (a >> 18)) == a
  {
  }

  lemma UnLeftInverts(a: bv64)
    ensures UnLeft(a ^ (a << 23)) == a
  {
  }

  /** Steps a and b lose no information: `UnShiftMix` recovers their input. */
  lemma UnShiftMixInverts(t: bv64)
    ensures UnShiftMix(ShiftMix(t)) == t
  {
    UnRightInverts(t ^ (t << 23));
    UnLeftInverts(t);
  }

  /** The state after one call of `operator()()`: the old second word moves to
      the front and the scrambled first word, mixed with the second, becomes
      the second (step c). */
  function Step(st: State): (st': State)
    ensures st'.x0 == st.x1
  {
    State(st.x1, ShiftMix(st.x0) ^ (st.x1 ^ (st.x1 >> 5)))
  }

  /** The value `operator()()` returns: the wrapping sum of the two words of the
      new state. */
  function Output(st: State): bv64 {
    var st' := Step(st);
    st'.x0 + st'.x1
  }

  /** One call loses no information: with `x0, x1` the old words, the new second
      word `y1` (steps a, b and c) and the new first word (the old second)
      together give back the old first word, by undoing step c and then steps
      b and a. Here `y1` is `Step(State(x0, x1)).x1` written out, and `Output`
      returns `x1 + y1`. */
  lemma StepWordsInvertible(x0: bv64, x1: bv64)
    ensures var a := x0 ^ (x0 << 23);
      var y1 := (a ^ (a >> 18)) ^ (x1 ^ (x1 >> 5));
      var b := y1 ^ (x1 ^ (x1 >> 5));
      var c := b ^ (b >> 18) ^ (b >> 36) ^ (b >> 54);
      c ^ (c << 23) ^ (c << 46) == x0
  {
  }

  /** The all-zero state maps to itself and returns 0, so a generator seeded with it
      only ever returns 0; the default seed is not that state. */
  lemma ZeroStateIsFixed()
    ensures Step(State(0, 0)) == State(0, 0) && Output(State(0, 0)) == 0
    ensures DefaultSeed != State(0, 0)
  {
  }

  /** The first three values the default-constructed generator returns. */
  lemma DefaultSeedFirstOutputs()
    ensures Output(DefaultSeed) == 0x6f56c579e50cc9
    ensures Step(DefaultSeed) == State(0xb16b00b5, 0x6f56c4c87a0c14)
    ensures Output(Step(DefaultSeed)) == 0xa3f0a8f12cf24f
    ensures Output(Step(Step(DefaultSeed))) == 0x6272e84f3a30b3bb
  {
  }
}
